=== FILE: README.md ===
# meteoDetaillee batch kernels in Dafny

meteoDetaillee prepares data about French paragliding take-off sites and about the
weather beacons near them. It is a chain of Python batch scripts. Each script reads
JSON or HTML, transforms it, and writes JSON. This project models the pure kernel of
each script:

- **Beacon linking.** `add_balises_to_sites` and `replace_specific_url` exist in two
  variants: balise-tools/_6-addBalises.py and data-dpt/addBalises.py.
  - Site and beacon names are normalised the same way: lower case, `-` becomes a
    space, `saint` becomes `st`, `é` becomes `e`.
  - A beacon is linked to a site when the normalised beacon name is a substring of
    the normalised site name.
  - The newer variant keeps the existing links, skips duplicates and flags the
    site name once with ` 🚩`. The older variant rebuilds the list from scratch.
  - FFVL intranet URLs ending in `/<digits>` are rewritten into balisemeteo URLs.
- **Manual corrections.** `apply_corrections` in balise-tools/_8-patchInfos.py
  renames sites and sets their orientation.
- **Orientation.**
  - tools/_3-formatdetails.py isolates the favourable-wind text, filters the eight
    French compass codes, snaps the mean angle to the nearest code and appends it
    to the site name.
  - tools/_2-requestInfosSite.py has the older first-code lookup, the
    suitability screen and the altitude parser.
- **Directory parsing.** The row-to-record rule of tools/_1-analyseffvl.py: the site
  id taken from `/terrain/<digits>`, and the `name [code]` split.
- **Beacon tables.** `extract_active_balises` of balise-tools/_5-searchBaliseByDpt.py
  and balise-tools/_5-recherchebalises.py, plus the success/failure lists of the
  departments.
- **Merging.** `merge_json_files` of balise-tools/_6-mergeFiles.py and
  data-dpt/_3-bis-mergefile.py.

## How things are modelled

- **Records.** A site is a record with one `Option` field per key the scripts use.
  A missing key is `None`. The keys no script touches are kept in `extra`.
  - A record update `s.(f := v)` states that nothing else changes.
  - Fields that the scripts set to JSON `null` hold `Nullable` (`Null | Text`).
- **Exceptions.** Python exceptions the code can raise become `Result` errors:
  `KeyError`, `TypeError`, `ZeroDivision` and `UnboundLocal`.
- **HTML.** HTML is abstract. A cell has text, an optional `bgcolor` and its anchors,
  each with an optional `href` and a text. A row is a sequence of cells. For the
  directory, the document is a sequence of rows and links outside any row.
- **Parameters.** These outside inputs are parameters:
  - the circular mean of the degrees (`cos`, `sin`, `atan2`), as `mean: seq<int> -> real`;
  - the result of an HTTP fetch, as `Option<string>`;
  - the details `extract_data_from_site` returns for a site id, as a function `fetch`;
  - the location of the table in a page, as a function `parse`;
  - a directory listing, as a sequence of (file name, parse result).
- **Regular expressions.** They are written out as scanners. These are proved
  against a declarative statement of their match on every input:
  - `/terrain/(\d+)` and `Altitude\s*:\s*(\d+)`. The statement says where the
    pattern matches (`SiteDirectory.TerrainMatch`, `SiteDetails.AltitudeMatch`),
    that the search takes the leftmost match, and that the group is the greedy
    digit run there;
  - `/(\d+)$`. Every match gives the same digits: the maximal run before the end
    or a final newline;
  - `re.split('[;,\s]+')`.

  `(.*?)\s*\[(.*?)\]` is stated declaratively only for names on one line and for
  names without `[`. A link text may keep inner newlines after `strip()`. For such
  text the scanner's result is stated only as where the brackets are.

Modules: `Common` (Option, Result, JSON), `Text` (Python string operations),
`Records`, `Seqs`, `Compass`, `NameMatch`, `UrlRewrite`, `BaliseLinkKeep`,
`BaliseLinkReset`, `Corrections`, `Orientation`, `SiteDetails`, `SiteDirectory`,
`BeaconTable`, `Merge`.

### Where the code and its documentation differ (the model follows the code)

- Corrections match the name exactly and case-sensitively. No correction deletes a
  site.
- The orientation filter looks for `non` anywhere in the lower-cased text, so it
  also matches words containing `non`. It does not look for `none`.
- Appending ` (code)` to the name has no guard, so re-running the script appends it
  again.
- A non-empty token list with no recognised code raises `ZeroDivisionError`. It
  does not give `null`.
- `get_orientation_from_wind_sector` raises when the cleaned text has no `;`. See
  Findings.

## Model

| member | source | states |
|---|---|---|
| Text.Strip | tools/_1-analyseffvl.py:39 | `str.strip()`: the result has no whitespace at either end and is the input with only surrounding whitespace removed |
| Text.StripIdempotent | tools/_1-analyseffvl.py:45-46 | stripping an already stripped text changes nothing |
| Text.StripFramed | tools/_1-analyseffvl.py:45-46 | whitespace around a trimmed text is exactly what `strip` removes |
| Text.JoinSplit | tools/_3-formatdetails.py:74 | `split(";")` loses nothing: joining the parts back with `;` gives the original text |
| Text.BeforeFirstCases | tools/_3-formatdetails.py:54-57 | `split(marker)[0]` is the whole text when the marker is absent, is strictly shorter when it is present, and never contains the marker |
| Text.ReplaceAllSingle | balise-tools/_6-addBalises.py:21 | replacing a one-character pattern is the character-wise map |
| Text.ReplaceAllNoLonger | balise-tools/_6-addBalises.py:21 | replacing a pattern with a replacement no longer than it never lengthens the text |
| Text.DigitsValueShowNat | tools/_2-requestInfosSite.py:80 | `int()` of the decimal digits of `n` is `n` |
| Compass.ParseCodeIff | tools/_3-formatdetails.py:5-14 | a token is recognised exactly when it equals one of the eight code texts N, NE, E, SE, S, SO, O, NO, case-sensitively |
| Compass.ParseCodeText | tools/_3-formatdetails.py:5-14 | every code's text is read back as that code |
| Compass.Degree | tools/_3-formatdetails.py:5-14 | a code's degree is the entry of the literal `ORIENTATION_TO_DEGREES` table for its text, a multiple of 45 in 0..315 |
| Compass.DegreeInjective | tools/_3-formatdetails.py:5-17 | distinct codes have distinct degrees, so the inverted table `DEGREES_TO_ORIENTATION` loses no entry |
| NameMatch.Lower | balise-tools/_6-addBalises.py:21 | `lower()` keeps the length, turns every upper-case letter into its lower-case form (`A` into `a`, `É` into `é`), and keeps every other character |
| NameMatch.Normalize | balise-tools/_6-addBalises.py:21 | the normalised name has no upper-case letter, no `-` and no `é`, and is no longer than the input |
| NameMatch.NormalizeHasNoSaint | balise-tools/_6-addBalises.py:21 | a normalised name never contains `saint`: replacing `é` by `e` cannot create one |
| NameMatch.NormalizeIdempotent | data-dpt/addBalises.py:21 | normalising twice gives the same name as normalising once |
| NameMatch.SaintAndreExample | data-dpt/addBalises.py:21-26 | `Saint-André` and `st andre` normalise to the same name, so either one links to the other |
| NameMatch.NamelessBeaconMatchesAll | balise-tools/_6-addBalises.py:31-32 | a beacon without a name, or with an empty one, matches every site |
| UrlRewrite.TrailingId | balise-tools/_6-addBalises.py:70-72 | `re.search("/(\d+)$")`: a result is the whole digit run after the last `/` before the end or a final newline, and every match position gives that same result |
| UrlRewrite.RewriteIntranetUrl | balise-tools/_6-addBalises.py:68-75 | an intranet URL ending in `/<digits>` becomes the balisemeteo URL with those digits |
| UrlRewrite.IntranetNotBalise | balise-tools/_6-addBalises.py:68-75 | a rewritten URL differs from the intranet URL it comes from |
| UrlRewrite.RewriteUrlIdempotent | data-dpt/addBalises.py:54-71 | rewriting an already rewritten URL changes nothing |
| UrlRewrite.RewriteCollapses | balise-tools/_6-addBalises.py:68-75 | two distinct intranet URLs with the same trailing id rewrite to the same URL |
| UrlRewrite.Iterated | balise-tools/_6-addBalises.py:67 | iterating a list gives its URLs; iterating a bare string gives one-character strings that join back into the string |
| UrlRewrite.RewriteAll | balise-tools/_6-addBalises.py:66-80 | the list keeps its length and order, each URL is rewritten on its own, and the results are final: rewriting any of them again changes nothing |
| UrlRewrite.ReplaceSpecificUrl | balise-tools/_6-addBalises.py:55-80 | sites keep their count and order; a site without `balise` is untouched; otherwise only `balise` changes, into the list of rewritten entries |
| UrlRewrite.SingleBecomesCharacters | balise-tools/_6-addBalises.py:63-80 | a bare-string `balise` becomes the list of its characters, none of them rewritten |
| UrlRewrite.ReplaceSpecificUrlIdempotent | data-dpt/addBalises.py:46-71 | running `replace_specific_url` twice gives the result of running it once |
| BaliseLinkKeep.Fresh | balise-tools/_6-addBalises.py:34-35 | the URLs appended are exactly the matched ones not already present, each once |
| BaliseLinkKeep.AppendMatchesKeepsAndDedupes | balise-tools/_6-addBalises.py:25-35 | existing links stay first and unchanged; the result holds exactly the old links and the matched URLs; a list without duplicates stays without duplicates |
| BaliseLinkKeep.AddFlag | balise-tools/_6-addBalises.py:42-43 | the name ends with the flag afterwards; a name already ending with it is unchanged; otherwise ` 🚩` is appended |
| BaliseLinkKeep.AddFlagIdempotent | balise-tools/_6-addBalises.py:42-43 | flagging twice flags once |
| BaliseLinkKeep.LinkSite | balise-tools/_6-addBalises.py:20-43 | `KeyError('nom')` exactly when a nameless site ends with links; `balise` is dropped iff the site ends with no link; the name is flagged iff links remain; nothing else changes |
| BaliseLinkKeep.LinkSiteTwiceFlagsOnce | balise-tools/_6-addBalises.py:42-43 | linking an already linked site again leaves its name as it is |
| BaliseLinkKeep.AddBalisesToSites | balise-tools/_6-addBalises.py:4-46 | succeeds iff no nameless site ends with links; sites keep count and order and every key but `nom` and `balise`; `balise` is absent iff the site has no link; each site is the linking step followed by the URL rewrite |
| BaliseLinkKeep.RunNameless | balise-tools/_6-addBalises.py:20-46 | one named site and one nameless beacon: its URL is appended unless already present, the list is rewritten, and the name is flagged |
| BaliseLinkKeep.RerunAppendsRewrittenAgain | balise-tools/_6-addBalises.py:34-46 | deduplication compares against rewritten links, so a re-run appends the raw URL again and the rewrite turns it into a second copy |
| BaliseLinkKeep.RerunDuplicatesRewrittenLink | balise-tools/_6-addBalises.py:34-75 | one intranet beacon: the first run gives one rewritten link; running again on that output gives that link twice |
| BaliseLinkKeep.AddBalisesSingleSite | balise-tools/_6-addBalises.py:20-46 | on one site the script is linking followed by the URL rewrite |
| BaliseLinkReset.MatchingUrlsMembers | data-dpt/addBalises.py:25-29 | a URL is collected iff some beacon with that URL matches the site name |
| BaliseLinkReset.MatchingUrlsEmpty | data-dpt/addBalises.py:25-29 | nothing is collected iff no beacon matches |
| BaliseLinkReset.LinkSite | data-dpt/addBalises.py:20-33 | the previous `balise` is discarded; the new one is the list of matching URLs, absent iff no beacon matches; nothing else, `nom` included, changes |
| BaliseLinkReset.MatchingUrlsAppend | data-dpt/addBalises.py:25-29 | one more beacon appends its URL to the list when its name matches and adds nothing otherwise, so the URLs come in beacon order, repeats included |
| BaliseLinkReset.MatchingUrlsConcat | data-dpt/addBalises.py:25-29 | the matches of two beacon lists in a row are the first list's followed by the second's |
| BaliseLinkReset.AddBalisesToSites | data-dpt/addBalises.py:20-38 | sites keep count, order and every key but `balise`; `balise` is absent iff no beacon matches; otherwise it is the rewritten matching URLs |
| BaliseLinkReset.NamelessBeaconLinksEverySite | data-dpt/addBalises.py:25-29 | a nameless beacon's rewritten URL ends up in every site's list |
| BaliseLinkReset.RepeatedBeaconRepeatsUrl | data-dpt/addBalises.py:27-29 | there is no dedupe: a beacon listed twice gives its URL twice |
| Corrections.Patch | balise-tools/_8-patchInfos.py:28-31 | `nom` and `orientation` are each replaced only by a truthy value, independently; no other key changes |
| Corrections.ApplyOne | balise-tools/_8-patchInfos.py:25-35 | one correction patches only the first site whose `nom` equals `nom_actuel` exactly; with no such site the list is unchanged |
| Corrections.MatchPatchesOneSite | balise-tools/_8-patchInfos.py:25-33 | when some site matches, exactly one site at or before it is patched and every other site is untouched |
| Corrections.ApplyCorrections | balise-tools/_8-patchInfos.py:19-35 | no site is added or removed, and only `nom` and `orientation` can change |
| Corrections.ApplyCorrectionsSnoc | balise-tools/_8-patchInfos.py:19 | corrections apply in list order, each to the result of the previous ones |
| Corrections.DuplicateNamesPatchedOneAtATime | balise-tools/_8-patchInfos.py:25-33 | of two sites with the same name one correction renames the first; repeating it renames the second |
| Corrections.RenamesChain | balise-tools/_8-patchInfos.py:19-29 | a later correction sees the name an earlier one wrote |
| Corrections.CaseSensitiveMatch | balise-tools/_8-patchInfos.py:26 | `col` does not match `Col` |
| Corrections.MissingNameMatchesNameless | balise-tools/_8-patchInfos.py:20-26 | a correction without `nom_actuel` patches the first site lacking `nom` |
| Corrections.EmptyValuesPatchNothing | balise-tools/_8-patchInfos.py:28-31 | empty new values change nothing |
| Orientation.Snap | tools/_3-formatdetails.py:42-43 | `min(..., key=abs(d-mean))`: the chosen code is nearest to the mean, and strictly nearer than every code before it |
| Orientation.FirstNearestUnique | tools/_3-formatdetails.py:42 | there is only one first-nearest code |
| Orientation.NearestInBand | tools/_3-formatdetails.py:42-43 | a mean inside a code's band of ±22.5 degrees is first-nearest to that code |
| Orientation.SnapMatchesThresholds | tools/_3-formatdetails.py:42-43 | the snap agrees with the threshold table 22.5, 67.5, …, 292.5 |
| Orientation.NoWrapAround | tools/_3-formatdetails.py:42-43 | any mean above 292.5 gives NO, never N |
| Orientation.TieGoesToSmaller | tools/_3-formatdetails.py:42-43 | a mean exactly between two codes gives the smaller degree |
| Orientation.SnapAtDegree | tools/_3-formatdetails.py:42-43 | a code's own degree snaps back to that code |
| Orientation.RecognisedMembers | tools/_3-formatdetails.py:29 | a code is kept iff some token equals its text exactly |
| Orientation.RecognisedConcat | tools/_3-formatdetails.py:29 | the filter works token by token |
| Orientation.UntrimmedTokenIgnored | tools/_3-formatdetails.py:29-74 | a token with a leading space, such as ` NE`, is dropped |
| Orientation.NothingRecognised | tools/_3-formatdetails.py:29 | the filter keeps nothing iff no token is a code |
| Orientation.Degrees | tools/_3-formatdetails.py:29 | the degrees are those of the kept codes, each in 0..315 |
| Orientation.AverageOrientation | tools/_3-formatdetails.py:19-43 | none for no tokens; `ZeroDivisionError` iff tokens exist but none is a code; otherwise the snap of the mean of the kept degrees |
| Orientation.ExtractOrientation | tools/_3-formatdetails.py:45-58 | none iff the text is missing or empty; otherwise the stripped text before the first `Secteurs de vent défavorables`, which no longer contains that marker |
| Orientation.ExtractWithoutMarker | tools/_3-formatdetails.py:54-57 | without the marker, the whole text is kept, stripped |
| Orientation.FormatSite | tools/_3-formatdetails.py:65-79 | `orientation_all` is always the extracted text; `orientation` is null iff the text is missing, empty or contains `non` in any case; otherwise it is the snap of the mean of the codes among the `;`-separated tokens of the extracted text, and the name gains ` (code)`; errors are `ZeroDivisionError` or a missing `nom`; other keys stay |
| Orientation.SingleCodeFormatted | tools/_3-formatdetails.py:65-79 | a site whose sectors are one code gets that code as `orientation` and `orientation_all`, and ` (code)` after its name, given that the mean of that one angle falls within the code's band of ±22.5 degrees |
| Orientation.RerunAppendsTwice | tools/_3-formatdetails.py:77-79 | formatting a formatted site appends the code a second time |
| Orientation.FormatSites | tools/_3-formatdetails.py:65-79 | the loop succeeds iff every site does, giving each site's own result in order; otherwise the first failing site's error |
| SiteDetails.FlattenSepSplit | tools/_2-requestInfosSite.py:28 | `re.split('[;,\s]+')` loses only separators: the parts concatenated are the text without its separators |
| SiteDetails.SepSplitCutsAtRuns | tools/_2-requestInfosSite.py:28 | `re.split('[;,\s]+')` cuts exactly at the maximal separator runs: the parts hold no separator, the runs are non-empty, every part between two runs is non-empty, and the parts with the runs put back give the text |
| SiteDetails.SepSplitPlain | tools/_2-requestInfosSite.py:28 | a text without separators is one part |
| SiteDetails.FirstFullName | tools/_2-requestInfosSite.py:31-33 | none iff no token is a code; otherwise the full name of the first token that is a code |
| SiteDetails.Cleaned | tools/_2-requestInfosSite.py:25 | the cleaned text is stripped; a text without `secteurs_vent:` is only stripped; a text starting with it, with no other occurrence, loses that prefix and is stripped |
| SiteDetails.WindSectorAsWritten | tools/_2-requestInfosSite.py:7-35 | none for a missing or empty text; `UnboundLocalError` iff the non-empty cleaned text has no `;`; wherever it does not raise, it agrees with the intended function |
| SiteDetails.WindSector | tools/_2-requestInfosSite.py:7-35 | as intended: none iff the text is missing or empty or no token is a code; otherwise the full name of the first token that is a code |
| SiteDetails.WindSectorOfPlain | tools/_2-requestInfosSite.py:25-33 | a stripped text with a `;` and no `s` is split as it stands and gives the first code's full name |
| SiteDetails.SingleCodeRaises | tools/_2-requestInfosSite.py:27-31 | `N` alone raises as written, and gives `Nord` as intended |
| SiteDetails.FirstOfTwoCodes | tools/_2-requestInfosSite.py:27-33 | `NO;S` gives `Nord-Ouest`, the first code, with no averaging |
| SiteDetails.Unsuitable | tools/_2-requestInfosSite.py:116-118 | `TypeError` iff `activite` is missing, or `statut` is missing and is reached; otherwise true iff `parapente` is absent, `atterro`, `interdit` or `non praticable définitivement` is present |
| SiteDetails.Classify | tools/_2-requestInfosSite.py:118-127 | an unsuitable site is cleared; a suitable one with a non-empty id is fetched under that id; a suitable one without an id is skipped |
| SiteDetails.ScreenErrorIff | tools/_2-requestInfosSite.py:115-134 | the loop ends without an error iff no site's test raises and every fetch returns details |
| SiteDetails.ScreenKeeps | tools/_2-requestInfosSite.py:115-134 | every site is either as it was or given its step's effect; a suitable site without an id is always as it was |
| SiteDetails.ScreenApplies | tools/_2-requestInfosSite.py:115-134 | without an error, every site is given its step's effect: cleared sites become `{}`, fetched sites are updated with their details, sites without an id stay |
| SiteDetails.ScreenSites | tools/_2-requestInfosSite.py:115-134 | the list keeps its length; an error occurs iff some test raises or some fetch gives nothing; each site is as it was or given its step's effect; sites without an id stay; without an error every site is cleared, updated or kept as its step says |
| SiteDetails.Update | tools/_2-requestInfosSite.py:134 | `site.update(details)`: the keys of the details are added or overwritten, every other key keeps its value |
| SiteDetails.ScreenStopsAt | tools/_2-requestInfosSite.py:115-134 | with the first raising step at `k`, the sites before `k` have their step's effect, the others are as they were, and the loop ends with that step's exception |
| SiteDetails.FailedFetchStops | tools/_2-requestInfosSite.py:132-134 | a fetch that gives nothing makes `site.update(None)` raise `TypeError`, leaving the site as it was |
| SiteDetails.ScreenFetchesIds | tools/_2-requestInfosSite.py:124-129 | without an error, the ids fetched are those of the suitable sites with an id, in order |
| SiteDetails.ClearedSiteStays | tools/_2-requestInfosSite.py:118-122 | a cleared site stays in the list as `{}`, even when a later site raises |
| SiteDetails.AltitudeFrom | tools/_2-requestInfosSite.py:78 | a left-to-right search from a position: none iff the per-position scanner finds a value nowhere from there; otherwise the value at the leftmost position where it finds one |
| SiteDetails.ParseAltitude | tools/_2-requestInfosSite.py:77-80 | the same search from the start of the text |
| SiteDetails.AltitudeAtMeans | tools/_2-requestInfosSite.py:78 | the scanner finds a value at a position iff `Altitude`, whitespace, `:`, whitespace and one or more digits occur there; the value is that of the maximal digit run |
| SiteDetails.AltitudeFromMeans | tools/_2-requestInfosSite.py:78 | `re.search` from a position: none iff `Altitude\s*:\s*(\d+)` matches nowhere from there; otherwise the value of the maximal digit run of a match with no match starting earlier |
| SiteDetails.ParseAltitudeMeans | tools/_2-requestInfosSite.py:77-80 | none iff `Altitude`, whitespace, `:`, whitespace and digits occur nowhere in the text; otherwise the value of the maximal digit run of the leftmost such occurrence |
| SiteDetails.ParseAltitudeShow | tools/_2-requestInfosSite.py:78-80 | `Altitude : <n>` gives back `n` |
| Seqs.FirstFrom | tools/_1-analyseffvl.py:7 | a left-to-right search: none iff no position from the start holds a value; otherwise the value at the first position that holds one |
| SiteDirectory.ExtractSiteId | tools/_1-analyseffvl.py:5-10 | an id is a non-empty digit run with `/terrain/`+id in the link; none iff the per-position scanner finds nothing; otherwise what it finds at the leftmost position where it finds something |
| SiteDirectory.TerrainAtMeans | tools/_1-analyseffvl.py:7 | the scanner finds digits at a position iff `/terrain/` followed by one or more digits occurs there; they are the maximal digit run |
| SiteDirectory.ExtractSiteIdMeans | tools/_1-analyseffvl.py:5-10 | none iff `/terrain/` followed by a digit occurs nowhere in the link; otherwise the maximal digit run after the leftmost such `/terrain/` |
| SiteDirectory.ExtractSiteIdOfLink | tools/_1-analyseffvl.py:5-10 | a link `base/terrain/<digits>` gives exactly those digits |
| Seqs.FirstFromSkips | tools/_1-analyseffvl.py:7 | the search skips positions that do not match |
| SiteDirectory.NoBracketNoMatch | tools/_1-analyseffvl.py:43 | a name without `[` does not match the bracket pattern |
| SiteDirectory.BracketOneLine | tools/_1-analyseffvl.py:43 | on one line, the groups are the text before the first `[` without trailing spaces, and the text up to the next `]` |
| SiteDirectory.SplitName | tools/_1-analyseffvl.py:42-48 | without a match the name and the id are kept; with one, name and code are both stripped |
| SiteDirectory.SplitNameOneLine | tools/_1-analyseffvl.py:43-46 | `name [code] tail` gives the stripped name and code, and the tail is dropped |
| SiteDirectory.RowRecord | tools/_1-analyseffvl.py:36-59 | `commune`, `code_postal`, `activite` and `statut` are the stripped texts of cells 1-4; with a link in cell 0, the id is the terrain id of its href (empty without href) and the name and code are the bracket split of its stripped text; a first cell without a link gives empty id, name and code |
| SiteDirectory.RowRecordOfTerrainLink | tools/_1-analyseffvl.py:36-48 | a row whose first link is `…/terrain/<digits>` with text `Name [CODE] tail` gives those digits as id, `Name` as name and `CODE` as code, stripped |
| SiteDirectory.NodeRecords | tools/_1-analyseffvl.py:29-61 | a link outside a row, or in a row of fewer than 5 cells, gives nothing; a row gives its record once per `/terrain/<digits>` link it holds |
| SiteDirectory.ParseDirectoryConcat | tools/_1-analyseffvl.py:27-61 | records come in document order |
| SiteDirectory.RecordsFromRows | tools/_1-analyseffvl.py:29-61 | every record is the record of some row of at least 5 cells |
| SiteDirectory.TwoLinksTwoRecords | tools/_1-analyseffvl.py:27-61 | a row with two terrain links gives its record twice |
| Seqs.SomesLoop | balise-tools/_5-searchBaliseByDpt.py:39-56 | a loop appending each present value gives the values in order |
| Seqs.SomesCount | balise-tools/_5-searchBaliseByDpt.py:39-56 | one value out per entry that holds one |
| BeaconTable.FirstHref | balise-tools/_5-searchBaliseByDpt.py:47-48 | `find('a', href=True)`: none iff no anchor has an href; otherwise the first anchor that has one |
| BeaconTable.RowBeacon | balise-tools/_5-searchBaliseByDpt.py:40-56 | a row gives a record iff it has 9 cells or more, `bgcolor` exactly `#00FF00` and a link with an href in cells 1 and 3; the URL is the href of cell 1's first such link and the name the stripped text of cell 3's |
| BeaconTable.RowBeaconOfBeaconRow | balise-tools/_5-searchBaliseByDpt.py:40-56 | the row the table shows for an active beacon reads back as that beacon, whatever its other cells hold |
| BeaconTable.ExtractActiveBalises | balise-tools/_5-searchBaliseByDpt.py:17-58 | no table, or a table of the header alone, gives nothing; at most one record per row after the header |
| BeaconTable.ActiveMembers | balise-tools/_5-searchBaliseByDpt.py:39-56 | a record is output iff some row after the header gives it |
| BeaconTable.ActiveCount | balise-tools/_5-searchBaliseByDpt.py:39-56 | there are exactly as many records as active rows after the header |
| BeaconTable.RowsConcat | balise-tools/_5-searchBaliseByDpt.py:39-58 | records come in row order |
| BeaconTable.HeaderNeverKept | balise-tools/_5-searchBaliseByDpt.py:39 | the first row never gives a record |
| BeaconTable.ColourIsExact | balise-tools/_5-searchBaliseByDpt.py:45 | `#00ff00` is not accepted |
| BeaconTable.ExtractActiveBalisesLoop | balise-tools/_5-recherchebalises.py:5-40 | the file-path variant's loop produces exactly the records above |
| BeaconTable.SuccessIffWritten | balise-tools/_5-searchBaliseByDpt.py:60-89 | for departments listed once each, a department is a success iff `process_department` wrote its file, and a failure iff it did not |
| BeaconTable.OutputName | balise-tools/_5-searchBaliseByDpt.py:63 | the output file is `./` followed by the listed name `balises_<department>.json` |
| BeaconTable.ListedName | balise-tools/_5-searchBaliseByDpt.py:63 | the department sits between `balises_` and `.json` and can be read back, and the balise merge accepts the name |
| BeaconTable.OutputNamesDistinct | balise-tools/_5-searchBaliseByDpt.py:63 | distinct departments are written to distinct files |
| BeaconTable.Partition | balise-tools/_5-searchBaliseByDpt.py:85-89 | every department lands in exactly one of the two lists |
| BeaconTable.PartitionSucceeded | balise-tools/_5-searchBaliseByDpt.py:85-89 | the success list holds, in input order, the departments whose fetch gave text |
| BeaconTable.PartitionMembership | balise-tools/_5-searchBaliseByDpt.py:68-89 | a department whose fetch gave text is in the success list, and one whose fetch did not is in the failure list |
| BeaconTable.PartitionSources | balise-tools/_5-searchBaliseByDpt.py:85-89 | each list holds only input departments with the matching outcome |
| BeaconTable.PartitionFailed | balise-tools/_5-searchBaliseByDpt.py:85-89 | the failure list holds, in input order, the departments whose fetch gave nothing |
| Merge.MergeMembers | balise-tools/_6-mergeFiles.py:26-40 | a value is in the merge iff some accepted file that loads holds it, as an element of its list or as the dictionary itself |
| Merge.MergeLoop | balise-tools/_6-mergeFiles.py:26-40 | the loop produces the contributions concatenated in listing order |
| Merge.MergeConcat | data-dpt/_3-bis-mergefile.py:15-26 | the merge of two runs of files is the first merge followed by the second |
| Merge.MergeLength | balise-tools/_6-mergeFiles.py:26-37 | there is no dedupe: the length is the sum of the list lengths plus one per object file |
| Merge.SingleListFile | data-dpt/_3-bis-mergefile.py:15-26 | one accepted file holding the list L gives exactly L |
| Merge.FailedFileSkipped | data-dpt/_3-bis-mergefile.py:28-29 | a failing file is skipped and the merge continues |
| Merge.AcceptedOnly | data-dpt/_3-bis-mergefile.py:17 | the filter keeps only listed files whose names are accepted |
| Merge.MergeOfAccepted | data-dpt/_3-bis-mergefile.py:15-17 | files whose names are rejected never matter |
| Merge.MergeSites | data-dpt/_3-bis-mergefile.py:4-37 | only `sites_ffvl*.json` files contribute |
| Merge.AfterTruncation | balise-tools/_6-mergeFiles.py:15-18 | the emptied output file no longer parses; every other file is as listed |
| Merge.MergeBalises | balise-tools/_6-mergeFiles.py:4-48 | nothing is written when emptying the output fails; otherwise only `balises_*.json` files contribute, and the emptied output is among the failures |
| Merge.OutputNeverFedBack | balise-tools/_6-mergeFiles.py:15-54 | a previous `balises_all.json` in the listing does not change the merge |

## Left out

- HTTP fetches (`requests.get`, status checks, the exceptions they raise) are left out. A fetch result is an input `Option<string>`.
- BeautifulSoup parsing is left out. This covers `find`, `find_all` and `find_parent`, the table-attribute lookup, nested tables, and cells nested in cells. The model works on abstract rows, cells and anchors.
- File reading and writing, and the `json.dump` formatting, are left out. So are the failure of the final write, the per-site read-append-write loop of tools/_2-requestInfosSite.py and the emptying of an existing output file, which is the boolean `truncated`.
- `os.listdir` order is unspecified, so the listing is an input sequence.
- The circular mean (`cos`, `sin`, `atan2`, `% 360`) is floating point and is a parameter. Only the code filter and the snap are verified.
- Coordinate parsing with `round(float, 4)` is floating point and is not modelled.
- `str.lower()` maps only the upper-case letters of ASCII and Latin-1. `\d` and `int()` accept only ASCII digits. Full Unicode tables are out of scope. Whitespace is the full set `str.isspace()` accepts.
- JSON `null` and a missing key are the same `None` for `id` and `code`, because no modelled script tells them apart.
- For `nom`, a JSON `null` also reads as missing. In the linking scripts that case would raise `AttributeError` on `None.lower()` (balise-tools/_6-addBalises.py:21, data-dpt/addBalises.py:21) and is not modelled.
- Orientation.FormatSite: a site whose `nom` is JSON `null` gets the name `"None (<code>)"` in tools/_3-formatdetails.py, because the f-string prints `None`. The model reports `KeyError("nom")` for it, as for a missing key, because the site record cannot tell the two apart.
- The order of dictionary keys in the written JSON is not modelled.
- `time.sleep`, `print` logging and the module-level invocations with their fixed paths are left out.
- `extract_data_from_site` is the parameter `fetch`; a failed fetch is `None`, and the `site.update(None)` it leads to is modelled as `TypeError`.
- A beacon without a `url` key is left out: `balise["url"]` would raise `KeyError` in both linking scripts (balise-tools/_6-addBalises.py:34, data-dpt/addBalises.py:29). The beacon record always carries a URL because the beacon scraper always writes one.
- A site whose `balise` is JSON `null` is left out: balise-tools/_6-addBalises.py:28 would raise `AttributeError` on `None.copy()`. `balise` is either missing, a string or a list.
- The detail extraction of tools/_2-requestInfosSite.py is left out except for the altitude parser. This covers coordinates, description and the wind-sector text location.
- NameMatch.Lower: no character outside ASCII and Latin-1 changes case, for the reason above.

## Findings

| source | as written | input that shows it | evidently intended | confidence | as-written member | corrected member |
|---|---|---|---|---|---|---|
| tools/_2-requestInfosSite.py:27-31 | `orientations` is bound only inside `if ";" in cleaned`, but the loop after it always reads it | `get_orientation_from_wind_sector("N")` raises `UnboundLocalError` instead of returning `Nord` | a text without `;` is one token, looked up like the others | high, not executed | SiteDetails.WindSectorAsWritten with SiteDetails.SingleCodeRaises | SiteDetails.WindSector |

=== FILE: BaliseLinkKeep.dfy ===
/** The later `add_balises_to_sites` (balise-tools/_6-addBalises.py): existing
    links are kept, matching beacon URLs are appended unless already present,
    an empty list removes the key, and a linked site's name gets a ` 🚩` flag once. */
module BaliseLinkKeep {
  import opened Common
  import opened Text
  import opened Records
  import opened NameMatch
  import opened UrlRewrite
  import BaliseLinkReset

  const Flag: string := "\U{1F6A9}"

  predicate NoDup(us: seq<string>) {
    forall i, j :: 0 <= i < j < |us| ==> us[i] != us[j]
  }

  /** The links a site already has: a bare string counts as a one-element list. */
  function ExistingLinks(l: Option<Links>): (us: seq<string>)
    ensures l.None? ==> us == []
    ensures l.Some? && l.value.Single? ==> us == [l.value.url]
    ensures l.Some? && l.value.Urls? ==> us == l.value.urls
  {
    match l
    case None => []
    case Some(Single(u)) => [u]
    case Some(Urls(us)) => us
  }

  /** The URLs of `xs` that are not in `seen`, first occurrence only, in order. */
  function Fresh(seen: seq<string>, xs: seq<string>): (r: seq<string>)
    ensures forall u :: u in r <==> u in xs && u !in seen
    ensures NoDup(r)
    decreases |xs|
  {
    if xs == [] then []
    else if xs[0] in seen then Fresh(seen, xs[1..])
    else
      var rest := Fresh(seen + [xs[0]], xs[1..]);
      assert xs[0] !in rest;
      [xs[0]] + rest
  }

  /** The inner loop over beacons: each matching beacon's URL is appended unless the
      list already holds it. What it appends is exactly the reset variant's list of
      matches, with URLs already present, and repeats, dropped. */
  function AppendMatches(nom: Option<string>, links: seq<string>, beacons: seq<Beacon>): (r: seq<string>)
    ensures r == links + Fresh(links, BaliseLinkReset.MatchingUrls(nom, beacons))
    decreases |beacons|
  {
    if beacons == [] then links
    else
      var b := beacons[0];
      var rest := BaliseLinkReset.MatchingUrls(nom, beacons[1..]);
      var next := if BeaconMatches(b.nom, nom) && b.url !in links then links + [b.url] else links;
      var r := AppendMatches(nom, next, beacons[1..]);
      assert BaliseLinkReset.MatchingUrls(nom, beacons)
        == (if BeaconMatches(b.nom, nom) then [b.url] + rest else rest);
      assert ([b.url] + rest)[1..] == rest;
      r
  }

  lemma NoDupConcat(a: seq<string>, b: seq<string>)
    requires NoDup(a) && NoDup(b)
    requires forall u :: u in b ==> u !in a
    ensures NoDup(a + b)
  {
    var r := a + b;
    forall i, j | 0 <= i < j < |r| ensures r[i] != r[j] {
      if j < |a| {
        assert r[i] == a[i] && r[j] == a[j];
      } else if i < |a| {
        assert r[j] == b[j - |a|] && r[i] == a[i];
        assert b[j - |a|] in b;
      } else {
        assert r[i] == b[i - |a|] && r[j] == b[j - |a|];
      }
    }
  }

  /** Existing links stay first, every linked URL is an existing one or a match, and no
      duplicate is introduced. */
  lemma AppendMatchesKeepsAndDedupes(nom: Option<string>, links: seq<string>, beacons: seq<Beacon>)
    ensures AppendMatches(nom, links, beacons)[..|links|] == links
    ensures forall u :: u in AppendMatches(nom, links, beacons) <==>
      u in links || u in BaliseLinkReset.MatchingUrls(nom, beacons)
    ensures NoDup(links) ==> NoDup(AppendMatches(nom, links, beacons))
  {
    var added := Fresh(links, BaliseLinkReset.MatchingUrls(nom, beacons));
    var r := links + added;
    assert r[..|links|] == links;
    forall u ensures u in r <==> u in links || u in BaliseLinkReset.MatchingUrls(nom, beacons) {
      assert u in r <==> u in links || u in added;
    }
    if NoDup(links) {
      NoDupConcat(links, added);
    }
  }

  /** `f"{nom} 🚩"` unless the name already ends with the flag. */
  function AddFlag(nom: string): (r: string)
    ensures EndsWith(r, Flag)
    ensures EndsWith(nom, Flag) ==> r == nom
    ensures r == nom || r == nom + " " + Flag
  {
    if EndsWith(nom, Flag) then nom else nom + " " + Flag
  }

  /** Flagging a flagged name adds nothing. */
  lemma AddFlagIdempotent(nom: string)
    ensures AddFlag(AddFlag(nom)) == AddFlag(nom)
  {
  }

  /** Some URL would be linked to `s`: an existing one or a matching beacon's. */
  predicate HasAnyLink(s: Site, beacons: seq<Beacon>) {
    ExistingLinks(s.balise) != []
    || exists k :: 0 <= k < |beacons| && BeaconMatches(beacons[k].nom, s.nom)
  }

  /** The loop body for one site; `site["nom"]` raises `KeyError` for a linked site without a name. */
  function LinkSite(s: Site, beacons: seq<Beacon>): (r: Result<Site>)
    ensures r.Err? <==> s.nom.None? && HasAnyLink(s, beacons)
    ensures r.Err? ==> r.error == KeyError("nom")
    ensures r.Ok? ==> r.value == s.(nom := r.value.nom, balise := r.value.balise)
    ensures r.Ok? ==> (r.value.balise.None? <==> !HasAnyLink(s, beacons))
    ensures r.Ok? && r.value.balise.None? ==> r.value.nom == s.nom
    ensures r.Ok? && r.value.balise.Some? ==>
      r.value.balise == Some(Urls(AppendMatches(s.nom, ExistingLinks(s.balise), beacons)))
      && r.value.nom == Some(AddFlag(s.nom.value))
  {
    var links := AppendMatches(s.nom, ExistingLinks(s.balise), beacons);
    var matched := BaliseLinkReset.MatchingUrls(s.nom, beacons);
    assert links == [] <==> !HasAnyLink(s, beacons) by {
      BaliseLinkReset.MatchingUrlsEmpty(s.nom, beacons);
      if matched != [] {
        assert matched[0] in Fresh(ExistingLinks(s.balise), matched) || matched[0] in ExistingLinks(s.balise);
      }
    }
    if links == [] then Ok(s.(balise := None))
    else if s.nom.None? then Err(KeyError("nom"))
    else Ok(s.(balise := Some(Urls(links)), nom := Some(AddFlag(s.nom.value))))
  }

  /** Running the loop body again on its own output keeps the name: the flag is added at most once. */
  lemma LinkSiteTwiceFlagsOnce(s: Site, beacons: seq<Beacon>)
    requires LinkSite(s, beacons).Ok?
    ensures LinkSite(LinkSite(s, beacons).value, beacons).Ok?
    ensures LinkSite(LinkSite(s, beacons).value, beacons).value.nom == LinkSite(s, beacons).value.nom
  {
    var s1 := LinkSite(s, beacons).value;
    if s1.balise.Some? {
      assert ExistingLinks(s1.balise) != [];
    } else {
      assert s1.nom == s.nom;
      assert !HasAnyLink(s1, beacons);
    }
  }

  /** Every site in order; the first linked site without a name raises `KeyError`. */
  function LinkAll(sites: seq<Site>, beacons: seq<Beacon>): (r: Result<seq<Site>>)
    ensures r.Ok? <==> forall i :: 0 <= i < |sites| ==> LinkSite(sites[i], beacons).Ok?
    ensures r.Ok? ==> |r.value| == |sites|
    ensures r.Ok? ==> forall i :: 0 <= i < |sites| ==> r.value[i] == LinkSite(sites[i], beacons).value
  {
    if forall i | 0 <= i < |sites| :: LinkSite(sites[i], beacons).Ok? then
      Ok(seq(|sites|, i requires 0 <= i < |sites| => LinkSite(sites[i], beacons).value))
    else Err(KeyError("nom"))
  }

  /** `add_balises_to_sites` without its file I/O: link every site, then rewrite intranet URLs.
      Sites keep their order and every key but `nom` and `balise`. */
  function AddBalisesToSites(sites: seq<Site>, beacons: seq<Beacon>): (r: Result<seq<Site>>)
    ensures r.Ok? <==> forall i :: 0 <= i < |sites| ==> sites[i].nom.Some? || !HasAnyLink(sites[i], beacons)
    ensures r.Ok? ==> |r.value| == |sites|
    ensures r.Ok? ==> forall i :: 0 <= i < |sites| ==>
      r.value[i] == sites[i].(nom := r.value[i].nom, balise := r.value[i].balise)
    ensures r.Ok? ==> forall i :: 0 <= i < |sites| ==>
      (r.value[i].balise.None? <==> !HasAnyLink(sites[i], beacons))
    ensures r.Ok? ==> forall i :: 0 <= i < |sites| ==> r.value[i] == RewriteSite(LinkSite(sites[i], beacons).value)
  {
    match LinkAll(sites, beacons)
    case Err(e) => Err(e)
    case Ok(linked) => Ok(ReplaceSpecificUrl(linked))
  }

  /** A nameless beacon appends its URL to any site's list unless already present. */
  lemma AppendNameless(nom: Option<string>, links: seq<string>, u: string)
    ensures AppendMatches(nom, links, [Beacon(None, u)]) == if u in links then links else links + [u]
  {
    var b := Beacon(None, u);
    NamelessBeaconMatchesAll(None, nom);
    assert [b][1..] == [];
  }

  /** The whole script on a one-site list. */
  lemma AddBalisesSingleSite(s: Site, beacons: seq<Beacon>)
    requires LinkSite(s, beacons).Ok?
    ensures AddBalisesToSites([s], beacons) == Ok([RewriteSite(LinkSite(s, beacons).value)])
  {
    var r := AddBalisesToSites([s], beacons);
    assert [s][0] == s;
    assert r.Ok?;
    assert r.value == [r.value[0]];
  }

  /** The whole script on one named site and one nameless beacon with URL `u`. */
  lemma RunNameless(s: Site, u: string)
    requires s.nom.Some?
    ensures var old_ := ExistingLinks(s.balise);
      var links := if u in old_ then old_ else old_ + [u];
      AddBalisesToSites([s], [Beacon(None, u)])
        == Ok([s.(balise := Some(Urls(RewriteAll(links))), nom := Some(AddFlag(s.nom.value)))])
  {
    AppendNameless(s.nom, ExistingLinks(s.balise), u);
    AddBalisesSingleSite(s, [Beacon(None, u)]);
  }

  /** A site whose only link is the rewritten form `v` of a beacon URL `u != v` gets
      `u` appended again, and the rewrite turns it into a second copy of `v`. */
  lemma RerunAppendsRewrittenAgain(s: Site, u: string, v: string)
    requires s.nom.Some? && s.balise == Some(Urls([v]))
    requires u != v && RewriteUrl(u) == v && RewriteUrl(v) == v
    ensures AddBalisesToSites([s], [Beacon(None, u)])
      == Ok([s.(balise := Some(Urls([v, v])), nom := Some(AddFlag(s.nom.value)))])
  {
    assert ExistingLinks(s.balise) == [v];
    assert u !in [v];
    assert [v] + [u] == [v, u];
    assert RewriteAll([v, u]) == [v, v];
    RunNameless(s, u);
  }

  /** Running the script again on its own output duplicates a rewritten intranet link:
      the rewritten URL no longer equals the beacon's URL, so the dedupe misses it. */
  lemma RerunDuplicatesRewrittenLink(s: Site, mid: string, digits: string)
    requires s.nom.Some? && s.balise.None?
    requires digits != [] && AllDigits(digits)
    ensures var b := Beacon(None, IntranetPrefix + mid + "/" + digits);
      var v := BalisePrefix + digits;
      var once := s.(balise := Some(Urls([v])), nom := Some(AddFlag(s.nom.value)));
      && AddBalisesToSites([s], [b]) == Ok([once])
      && AddBalisesToSites([once], [b]) == Ok([once.(balise := Some(Urls([v, v])))])
  {
    var u := IntranetPrefix + mid + "/" + digits;
    var v := BalisePrefix + digits;
    RewriteIntranetUrl(mid, digits);
    RewriteUrlIdempotent(u);
    IntranetNotBalise(mid, digits);
    assert [] + [u] == [u];
    assert RewriteAll([u]) == [v];
    var once := s.(balise := Some(Urls([v])), nom := Some(AddFlag(s.nom.value)));
    RunNameless(s, u);
    RerunAppendsRewrittenAgain(once, u, v);
  }
}

=== FILE: BaliseLinkReset.dfy ===
/** The earlier `add_balises_to_sites` (data-dpt/addBalises.py): every site's
    `balise` list is rebuilt from scratch from the beacons whose normalised name
    occurs in the site's normalised name; no dedupe, no flag on the name. */
module BaliseLinkReset {
  import opened Common
  import opened Text
  import opened Records
  import opened NameMatch
  import opened UrlRewrite

  /** The URLs of the beacons whose name matches the site name `nom`, in beacon order, repeats included. */
  function MatchingUrls(nom: Option<string>, beacons: seq<Beacon>): (us: seq<string>)
    ensures |us| <= |beacons|
  {
    if beacons == [] then []
    else
      var b := beacons[0];
      var rest := MatchingUrls(nom, beacons[1..]);
      if BeaconMatches(b.nom, nom) then [b.url] + rest else rest
  }

  /** The matches of two beacon lists laid end to end are the first list's matches
      followed by the second's. */
  lemma {:induction false} MatchingUrlsConcat(nom: Option<string>, a: seq<Beacon>, b: seq<Beacon>)
    ensures MatchingUrls(nom, a + b) == MatchingUrls(nom, a) + MatchingUrls(nom, b)
    decreases |a|
  {
    if a == [] {
      assert a + b == b;
    } else {
      assert (a + b)[0] == a[0];
      assert (a + b)[1..] == a[1..] + b;
      MatchingUrlsConcat(nom, a[1..], b);
    }
  }

  /** One pass of the inner loop: a further beacon appends its URL when its name
      matches and leaves the list alone otherwise. So the URLs come in beacon
      order, one per matching beacon, repeats included. */
  lemma MatchingUrlsAppend(nom: Option<string>, a: seq<Beacon>, b: Beacon)
    ensures BeaconMatches(b.nom, nom) ==> MatchingUrls(nom, a + [b]) == MatchingUrls(nom, a) + [b.url]
    ensures !BeaconMatches(b.nom, nom) ==> MatchingUrls(nom, a + [b]) == MatchingUrls(nom, a)
  {
    MatchingUrlsConcat(nom, a, [b]);
    assert [b][1..] == [];
  }

  /** A URL is among the matches exactly when some matching beacon carries it. */
  lemma {:induction false} MatchingUrlsMembers(nom: Option<string>, beacons: seq<Beacon>, u: string)
    ensures u in MatchingUrls(nom, beacons) <==>
      exists k :: 0 <= k < |beacons| && BeaconMatches(beacons[k].nom, nom) && beacons[k].url == u
    decreases |beacons|
  {
    if beacons != [] {
      var b, tail := beacons[0], beacons[1..];
      MatchingUrlsMembers(nom, tail, u);
      if u in MatchingUrls(nom, beacons) {
        if BeaconMatches(b.nom, nom) && b.url == u {
          assert beacons[0] == b;
        } else {
          assert u in MatchingUrls(nom, tail);
          var k :| 0 <= k < |tail| && BeaconMatches(tail[k].nom, nom) && tail[k].url == u;
          assert beacons[k + 1] == tail[k];
        }
      }
      if exists k :: 0 <= k < |beacons| && BeaconMatches(beacons[k].nom, nom) && beacons[k].url == u {
        var k :| 0 <= k < |beacons| && BeaconMatches(beacons[k].nom, nom) && beacons[k].url == u;
        if k > 0 {
          assert tail[k - 1] == beacons[k];
        }
      }
    }
  }

  /** No match at all exactly when no beacon's name matches. */
  lemma {:induction false} MatchingUrlsEmpty(nom: Option<string>, beacons: seq<Beacon>)
    ensures MatchingUrls(nom, beacons) == [] <==>
      forall k :: 0 <= k < |beacons| ==> !BeaconMatches(beacons[k].nom, nom)
    decreases |beacons|
  {
    if beacons != [] {
      MatchingUrlsEmpty(nom, beacons[1..]);
      assert forall k :: 1 <= k < |beacons| ==> beacons[k] == beacons[1..][k - 1];
    }
  }

  /** The loop body for one site: the old `balise` is discarded, the matches become the
      new list, and an empty list removes the key. */
  function LinkSite(s: Site, beacons: seq<Beacon>): (r: Site)
    ensures r == s.(balise := r.balise)
    ensures r.balise.None? <==>
      forall k :: 0 <= k < |beacons| ==> !BeaconMatches(beacons[k].nom, s.nom)
    ensures r.balise.Some? ==> r.balise == Some(Urls(MatchingUrls(s.nom, beacons)))
  {
    var us := MatchingUrls(s.nom, beacons);
    MatchingUrlsEmpty(s.nom, beacons);
    if us == [] then s.(balise := None) else s.(balise := Some(Urls(us)))
  }

  /** `add_balises_to_sites` without its file I/O: link every site, then rewrite intranet URLs.
      Sites keep their order and every key but `balise`; a site's final links are its
      matching beacons' URLs, each rewritten. */
  function AddBalisesToSites(sites: seq<Site>, beacons: seq<Beacon>): (r: seq<Site>)
    ensures |r| == |sites|
    ensures forall i :: 0 <= i < |sites| ==> r[i] == sites[i].(balise := r[i].balise)
    ensures forall i :: 0 <= i < |sites| ==>
      (r[i].balise.None? <==>
        forall k :: 0 <= k < |beacons| ==> !BeaconMatches(beacons[k].nom, sites[i].nom))
    ensures forall i :: 0 <= i < |sites| && r[i].balise.Some? ==>
      r[i].balise == Some(Urls(RewriteAll(MatchingUrls(sites[i].nom, beacons))))
  {
    var linked := seq(|sites|, i requires 0 <= i < |sites| => LinkSite(sites[i], beacons));
    ReplaceSpecificUrl(linked)
  }

  /** An empty beacon name links the beacon to every site. */
  lemma NamelessBeaconLinksEverySite(sites: seq<Site>, beacons: seq<Beacon>, k: nat)
    requires k < |beacons| && (beacons[k].nom.None? || beacons[k].nom.value == "")
    ensures forall i :: 0 <= i < |sites| ==>
      AddBalisesToSites(sites, beacons)[i].balise.Some?
      && RewriteUrl(beacons[k].url) in AddBalisesToSites(sites, beacons)[i].balise.value.urls
  {
    var r := AddBalisesToSites(sites, beacons);
    forall i | 0 <= i < |sites|
      ensures r[i].balise.Some? && RewriteUrl(beacons[k].url) in r[i].balise.value.urls
    {
      NamelessBeaconMatchesAll(beacons[k].nom, sites[i].nom);
      var us := MatchingUrls(sites[i].nom, beacons);
      MatchingUrlsMembers(sites[i].nom, beacons, beacons[k].url);
      assert beacons[k].url in us;
      var j :| 0 <= j < |us| && us[j] == beacons[k].url;
      assert RewriteAll(us)[j] == RewriteUrl(beacons[k].url);
    }
  }

  /** The same beacon listed twice gives the site its URL twice. */
  lemma RepeatedBeaconRepeatsUrl(s: Site, b: Beacon)
    requires BeaconMatches(b.nom, s.nom)
    ensures LinkSite(s, [b, b]).balise == Some(Urls([b.url, b.url]))
  {
    assert [b, b][1..] == [b];
    assert [b][1..] == [];
    assert MatchingUrls(s.nom, []) == [];
    assert MatchingUrls(s.nom, [b]) == [b.url];
    assert MatchingUrls(s.nom, [b, b]) == [b.url, b.url];
    assert MatchingUrls(s.nom, [b, b]) != [];
  }
}

=== FILE: BeaconTable.dfy ===
/** `extract_active_balises` (balise-tools/_5-searchBaliseByDpt.py and its file-path twin
    balise-tools/_5-recherchebalises.py) over the abstract beacon table, and the
    success/failure partition of the departments the first script walks through. */
module BeaconTable {
  import opened Common
  import opened Text
  import opened Records
  import opened Seqs
  import Merge

  /** The background colour of an active beacon's first cell. */
  const ActiveColour: string := "#00FF00"

  /** Rows with fewer cells than this are skipped. */
  const MinCells: nat := 9

  /** `cell.find('a', href=True)`: the first anchor of the cell that has an `href`. */
  function FirstHref(anchors: seq<Anchor>): (r: Option<Anchor>)
    ensures r.None? <==> forall i :: 0 <= i < |anchors| ==> anchors[i].href.None?
    ensures r.Some? ==> exists k :: (0 <= k < |anchors| && anchors[k] == r.value
      && r.value.href.Some? && forall j :: 0 <= j < k ==> anchors[j].href.None?)
  {
    if anchors == [] then None
    else if anchors[0].href.Some? then Some(anchors[0])
    else
      var r := FirstHref(anchors[1..]);
      assert forall i :: 1 <= i < |anchors| ==> anchors[i] == anchors[1..][i - 1];
      r
  }

  /** A row the loop keeps: enough cells, the active colour exactly, and a link in
      cells 1 and 3. */
  predicate Active(row: Row) {
    |row| >= MinCells && row[0].bgcolor == Some(ActiveColour)
    && FirstHref(row[1].anchors).Some? && FirstHref(row[3].anchors).Some?
  }

  /** The record of one row: the URL of cell 1's first link and the stripped text of
      cell 3's first link; nothing for a row the loop passes over. */
  function RowBeacon(row: Row): (r: Option<Beacon>)
    ensures r.Some? <==> Active(row)
    ensures r.Some? ==> r.value.nom.Some? && Trimmed(r.value.nom.value)
    ensures r.Some? ==> exists a :: a in row[1].anchors && a.href == Some(r.value.url)
    ensures r.Some? ==> r.value == Beacon(Some(Strip(FirstHref(row[3].anchors).value.text)),
      FirstHref(row[1].anchors).value.href.value)
  {
    if Active(row) then
      var link := FirstHref(row[1].anchors).value;
      var name := FirstHref(row[3].anchors).value;
      Some(Beacon(Some(Strip(name.text)), link.href.value))
    else None
  }

  /** What each row gives, row by row. */
  function RowBeacons(rows: seq<Row>): (r: seq<Option<Beacon>>)
    ensures |r| == |rows| && forall i :: 0 <= i < |rows| ==> r[i] == RowBeacon(rows[i])
  {
    seq(|rows|, i requires 0 <= i < |rows| => RowBeacon(rows[i]))
  }

  /** The rows after the header; none without a table. */
  function Body(table: Option<seq<Row>>): (rows: seq<Row>)
    ensures table.None? ==> rows == []
    ensures table.Some? && table.value != [] ==> rows == table.value[1..]
  {
    if table.None? || table.value == [] then [] else table.value[1..]
  }

  /** `extract_active_balises`: the records of the rows after the header, in row order. */
  function ExtractActiveBalises(table: Option<seq<Row>>): (r: seq<Beacon>)
    ensures table.None? ==> r == []
    ensures table.Some? && |table.value| <= 1 ==> r == []
    ensures table.Some? && table.value != [] ==> |r| <= |table.value| - 1
  {
    Somes(RowBeacons(Body(table)))
  }

  /** A beacon is in the output exactly when some row after the header gives it. */
  lemma ActiveMembers(table: Option<seq<Row>>, b: Beacon)
    ensures b in ExtractActiveBalises(table) <==> exists i :: 0 <= i < |Body(table)| && RowBeacon(Body(table)[i]) == Some(b)
  {
    SomesMembers(RowBeacons(Body(table)), b);
  }

  /** Output records and active rows correspond one to one: there are as many records
      as active rows after the header. */
  lemma ActiveCount(table: Option<seq<Row>>)
    ensures |ExtractActiveBalises(table)| == |set i | 0 <= i < |Body(table)| && Active(Body(table)[i])|
  {
    var rows := Body(table);
    SomesCount(RowBeacons(rows));
    assert Present(RowBeacons(rows)) == set i | 0 <= i < |rows| && Active(rows[i]);
  }

  /** Rows are handled one at a time: a table split in two runs of rows gives the
      records of the first run followed by those of the second. */
  lemma RowsConcat(header: Row, a: seq<Row>, b: seq<Row>)
    ensures ExtractActiveBalises(Some([header] + a + b))
      == ExtractActiveBalises(Some([header] + a)) + ExtractActiveBalises(Some([header] + b))
  {
    assert ([header] + a + b)[1..] == a + b;
    assert ([header] + a)[1..] == a;
    assert ([header] + b)[1..] == b;
    assert RowBeacons(a + b) == RowBeacons(a) + RowBeacons(b);
    SomesConcat(RowBeacons(a), RowBeacons(b));
  }

  /** The script's loop over the rows after the header, appending the record of each
      row it keeps. */
  method ExtractActiveBalisesLoop(table: Option<seq<Row>>) returns (result: seq<Beacon>)
    ensures result == ExtractActiveBalises(table)
  {
    if table.None? || table.value == [] {
      return [];
    }
    result := SomesLoop(RowBeacons(table.value[1..]));
  }

  /** The row the beacon table shows for an active beacon: the colour cell, the link to
      the beacon's page, any third cell, the link named after the beacon, and five more
      cells of any content. */
  function BeaconRow(url: string, name: string, nameHref: string, other: Cell): (row: Row)
    ensures |row| == MinCells
  {
    [Cell("", Some(ActiveColour), []), Cell("", None, [Anchor(Some(url), "")]), other,
     Cell(name, None, [Anchor(Some(nameHref), name)]), other, other, other, other, other]
  }

  /** Reading a beacon's own row gives the beacon back, whatever the other cells hold. */
  lemma RowBeaconOfBeaconRow(url: string, name: string, nameHref: string, other: Cell)
    requires Trimmed(name)
    ensures RowBeacon(BeaconRow(url, name, nameHref, other)) == Some(Beacon(Some(name), url))
  {
    var row := BeaconRow(url, name, nameHref, other);
    assert FirstHref(row[1].anchors) == Some(Anchor(Some(url), ""));
    assert FirstHref(row[3].anchors) == Some(Anchor(Some(nameHref), name));
    StripOfTrimmed(name);
  }

  /** A table holding only its header row gives no beacon, whatever that row holds. */
  lemma HeaderNeverKept(header: Row)
    ensures ExtractActiveBalises(Some([header])) == []
  {
    assert [header][1..] == [];
  }

  /** A lower-case colour is not the active colour: the comparison is exact. */
  lemma ColourIsExact(row: Row)
    requires |row| >= MinCells && row[0].bgcolor == Some("#00ff00")
    ensures RowBeacon(row).None?
  {
    assert "#00ff00"[4] != ActiveColour[4];
  }

  // ---------------------------------------------------------------------------
  // process_department and the summary lists

  /** Python truthiness of the fetched page: the fetch returned text and it is not empty. */
  predicate Fetched(page: Option<string>) {
    page.Some? && page.value != ""
  }

  /** `process_department`: a fetch that returned non-empty text writes the records of
      its table; a failed fetch or an empty page writes nothing. `parse` stands for
      locating the beacon table in the page. */
  function ProcessDepartment(page: Option<string>, parse: string -> Option<seq<Row>>): (r: Option<seq<Beacon>>)
    ensures r.Some? <==> Fetched(page)
    ensures r.Some? ==> r.value == ExtractActiveBalises(parse(page.value))
  {
    if Fetched(page) then Some(ExtractActiveBalises(parse(page.value))) else None
  }

  /** The name of the file a department's records go to, in the working directory:
      `./` followed by the file's name as a directory listing shows it. */
  function OutputName(department: string): (name: string)
    ensures name == "./" + ListedName(department)
  {
    "./" + ListedName(department)
  }

  /** `balises_<department>.json`. The department can be read back from between the
      prefix and the suffix, and the merge of the `balises_*.json` files picks the
      file up. */
  function ListedName(department: string): (name: string)
    ensures StartsWith(name, Merge.BalisesPrefix) && EndsWith(name, Merge.JsonSuffix)
    ensures |name| == |Merge.BalisesPrefix| + |department| + |Merge.JsonSuffix|
      && name[|Merge.BalisesPrefix|..|name| - |Merge.JsonSuffix|] == department
    ensures Merge.Accepted(name, Merge.BalisesPrefix)
  {
    var name := Merge.BalisesPrefix + department + Merge.JsonSuffix;
    assert name[..|Merge.BalisesPrefix|] == Merge.BalisesPrefix;
    assert name[|name| - |Merge.JsonSuffix|..] == Merge.JsonSuffix;
    assert name[|Merge.BalisesPrefix|..|name| - |Merge.JsonSuffix|] == department;
    name
  }

  /** Different departments are written to different files. */
  lemma OutputNamesDistinct(d1: string, d2: string)
    requires d1 != d2
    ensures OutputName(d1) != OutputName(d2)
  {
    var n1, n2 := ListedName(d1), ListedName(d2);
    assert OutputName(d1)[2..] == n1 && OutputName(d2)[2..] == n2;
  }

  /** The departments whose fetch gave text, and those whose fetch did not. */
  function Partition(departments: seq<string>, pages: seq<Option<string>>): (r: (seq<string>, seq<string>))
    requires |pages| == |departments|
    ensures |r.0| + |r.1| == |departments|
    ensures multiset(r.0) + multiset(r.1) == multiset(departments)
  {
    if departments == [] then ([], [])
    else
      var rest := Partition(departments[1..], pages[1..]);
      assert departments == [departments[0]] + departments[1..];
      if Fetched(pages[0]) then ([departments[0]] + rest.0, rest.1)
      else (rest.0, [departments[0]] + rest.1)
  }

  /** The departments whose fetch succeeded, in input order: those at the indices
      whose page is non-empty text. */
  function Succeeded(departments: seq<string>, pages: seq<Option<string>>, k: nat): (r: seq<string>)
    requires |pages| == |departments| && k <= |departments|
    decreases |departments| - k
  {
    if k == |departments| then []
    else if Fetched(pages[k]) then [departments[k]] + Succeeded(departments, pages, k + 1)
    else Succeeded(departments, pages, k + 1)
  }

  /** The success list is in input order and holds exactly the departments whose
      processing wrote a file. */
  lemma {:induction false} PartitionSucceeded(departments: seq<string>, pages: seq<Option<string>>, k: nat)
    requires |pages| == |departments| && k <= |departments|
    ensures Partition(departments[k..], pages[k..]).0 == Succeeded(departments, pages, k)
    decreases |departments| - k
  {
    if k < |departments| {
      assert departments[k..][1..] == departments[k + 1..];
      assert pages[k..][1..] == pages[k + 1..];
      PartitionSucceeded(departments, pages, k + 1);
    }
  }

  /** A department whose fetch gave text is in the success list, and one whose fetch
      did not is in the failure list. */
  lemma {:induction false} PartitionMembership(departments: seq<string>, pages: seq<Option<string>>, i: nat)
    requires |pages| == |departments| && i < |departments|
    ensures var r := Partition(departments, pages);
      (Fetched(pages[i]) ==> departments[i] in r.0) && (!Fetched(pages[i]) ==> departments[i] in r.1)
  {
    if i > 0 {
      assert departments[1..][i - 1] == departments[i];
      assert pages[1..][i - 1] == pages[i];
      PartitionMembership(departments[1..], pages[1..], i - 1);
    }
  }

  /** The departments whose fetch failed, in input order. */
  function Failed(departments: seq<string>, pages: seq<Option<string>>, k: nat): (r: seq<string>)
    requires |pages| == |departments| && k <= |departments|
    decreases |departments| - k
  {
    if k == |departments| then []
    else if !Fetched(pages[k]) then [departments[k]] + Failed(departments, pages, k + 1)
    else Failed(departments, pages, k + 1)
  }

  /** The failure list holds, in input order, the departments whose fetch gave nothing. */
  lemma {:induction false} PartitionFailed(departments: seq<string>, pages: seq<Option<string>>, k: nat)
    requires |pages| == |departments| && k <= |departments|
    ensures Partition(departments[k..], pages[k..]).1 == Failed(departments, pages, k)
    decreases |departments| - k
  {
    if k < |departments| {
      assert departments[k..][1..] == departments[k + 1..];
      assert pages[k..][1..] == pages[k + 1..];
      PartitionFailed(departments, pages, k + 1);
    }
  }

  /** The departments are listed once each. */
  predicate Distinct(departments: seq<string>) {
    forall i, j :: 0 <= i < j < |departments| ==> departments[i] != departments[j]
  }

  /** Only departments of the input land in either list, each with its own outcome: the
      success list holds the departments whose file `process_department` wrote. */
  lemma {:induction false} PartitionSources(departments: seq<string>, pages: seq<Option<string>>, d: string)
    requires |pages| == |departments|
    ensures d in Partition(departments, pages).0 ==> exists i :: 0 <= i < |departments| && departments[i] == d && Fetched(pages[i])
    ensures d in Partition(departments, pages).1 ==> exists i :: 0 <= i < |departments| && departments[i] == d && !Fetched(pages[i])
  {
    if departments != [] {
      PartitionSources(departments[1..], pages[1..], d);
      assert forall i :: 1 <= i < |departments| ==> departments[i] == departments[1..][i - 1] && pages[i] == pages[1..][i - 1];
    }
  }

  /** For departments listed once each, a department is a success exactly when
      `process_department` wrote its file, and a failure exactly when it did not. */
  lemma SuccessIffWritten(departments: seq<string>, pages: seq<Option<string>>, parse: string -> Option<seq<Row>>, i: nat)
    requires |pages| == |departments| && i < |departments| && Distinct(departments)
    ensures departments[i] in Partition(departments, pages).0 <==> ProcessDepartment(pages[i], parse).Some?
    ensures departments[i] in Partition(departments, pages).1 <==> ProcessDepartment(pages[i], parse).None?
  {
    var d := departments[i];
    PartitionMembership(departments, pages, i);
    PartitionSources(departments, pages, d);
    if d in Partition(departments, pages).0 {
      var j :| 0 <= j < |departments| && departments[j] == d && Fetched(pages[j]);
      assert j == i;
    }
    if d in Partition(departments, pages).1 {
      var j :| 0 <= j < |departments| && departments[j] == d && !Fetched(pages[j]);
      assert j == i;
    }
  }
}

=== FILE: Common.dfy ===
/** Shared wrappers: optional values, JSON nulls and the Python exceptions the
    scripts can raise, modelled as values instead of control flow. */
module Common {

  /** A value that may be absent (a missing dictionary key, a regex without a match). */
  datatype Option<T> = None | Some(value: T)

  /** A JSON field the scripts sometimes set to `null` rather than removing it. */
  datatype Nullable = Null | Text(s: string)

  /** The exceptions the modelled kernels can raise. */
  datatype Error =
    | KeyError(key: string)      // `d["k"]` on a dictionary without key k
    | TypeError                  // `'x' in None`
    | ZeroDivision               // division by an empty count
    | UnboundLocal(name: string) // a local variable read before any assignment

  /** Either the value a kernel returns or the exception that ends the script. */
  datatype Result<T> = Ok(value: T) | Err(error: Error)

  /** The first failure among results computed in order, scanning from `k`: the
      exception a loop over them raises. */
  function FirstErr<T>(rs: seq<Result<T>>, k: nat): (r: Error)
    requires k <= |rs|
    requires exists i :: k <= i < |rs| && rs[i].Err?
    ensures exists i :: (k <= i < |rs| && rs[i] == Err(r)
      && forall j :: k <= j < i ==> rs[j].Ok?)
    decreases |rs| - k
  {
    if rs[k].Err? then rs[k].error else FirstErr(rs, k + 1)
  }

  /** A loop over computed results that stops at the first exception: all values when
      every result is a value, otherwise the first exception. */
  function Collect<T>(rs: seq<Result<T>>): (r: Result<seq<T>>)
    ensures r.Ok? <==> forall i :: 0 <= i < |rs| ==> rs[i].Ok?
    ensures r.Ok? ==> |r.value| == |rs| && forall i :: 0 <= i < |rs| ==> rs[i] == Ok(r.value[i])
    ensures r.Err? ==> exists i :: (0 <= i < |rs| && rs[i] == Err(r.error)
      && forall j :: 0 <= j < i ==> rs[j].Ok?)
  {
    if forall i | 0 <= i < |rs| :: rs[i].Ok? then
      Ok(seq(|rs|, i requires 0 <= i < |rs| => rs[i].value))
    else Err(FirstErr(rs, 0))
  }

  /** A JSON document as `json.load` returns it (numbers kept as integers). */
  datatype Json =
    | JNull
    | JBool(b: bool)
    | JNumber(n: int)
    | JString(s: string)
    | JArray(items: seq<Json>)
    | JObject(members: seq<(string, Json)>)
}

=== FILE: Compass.dfy ===
/** The eight French compass codes the orientation scripts recognise, at 45° steps,
    with their text form, degree and full name. */
module Compass {
  import opened Common

  datatype Code = N | NE | E | SE | S | SO | O | NO

  /** The codes in the order of the degree table, 0° to 315°. */
  const Codes: seq<Code> := [N, NE, E, SE, S, SO, O, NO]

  function CodeText(c: Code): string {
    match c
    case N => "N"
    case NE => "NE"
    case E => "E"
    case SE => "SE"
    case S => "S"
    case SO => "SO"
    case O => "O"
    case NO => "NO"
  }

  /** Position of a code in `Codes`. */
  function Index(c: Code): (i: nat)
    ensures i < |Codes| && Codes[i] == c
  {
    match c
    case N => 0
    case NE => 1
    case E => 2
    case SE => 3
    case S => 4
    case SO => 5
    case O => 6
    case NO => 7
  }

  /** `Index` and `Codes` are inverse. */
  lemma IndexOfCodes(i: nat)
    requires i < |Codes|
    ensures Index(Codes[i]) == i
  {
  }

  /** `ORIENTATION_TO_DEGREES`, the script's literal table from code text to degrees. */
  const DegreeTable: map<string, int> := map[
    "N" := 0, "NE" := 45, "E" := 90, "SE" := 135,
    "S" := 180, "SO" := 225, "O" := 270, "NO" := 315]

  /** `ORIENTATION_TO_DEGREES[code]`: the table's entry for the code's text, a multiple of
      45 in 0..315. */
  function Degree(c: Code): (d: int)
    ensures CodeText(c) in DegreeTable && d == DegreeTable[CodeText(c)]
    ensures 0 <= d <= 315 && d % 45 == 0
  {
    45 * Index(c)
  }

  /** Distinct codes have distinct degrees, so `DEGREES_TO_ORIENTATION`, the inverted
      table, loses no entry: reading a code's degree back gives the code. */
  lemma {:induction false} DegreeInjective(a: Code, b: Code)
    ensures Degree(a) == Degree(b) <==> a == b
  {
    if Degree(a) == Degree(b) {
      assert Index(a) == Index(b);
      assert Codes[Index(a)] == a && Codes[Index(b)] == b;
    }
  }

  /** Dictionary lookup by exact, case-sensitive key: `t in ORIENTATION_TO_DEGREES`. */
  function ParseCode(t: string): (r: Option<Code>)
    ensures r.Some? ==> CodeText(r.value) == t
  {
    if t == "N" then Some(N)
    else if t == "NE" then Some(NE)
    else if t == "E" then Some(E)
    else if t == "SE" then Some(SE)
    else if t == "S" then Some(S)
    else if t == "SO" then Some(SO)
    else if t == "O" then Some(O)
    else if t == "NO" then Some(NO)
    else None
  }

  /** Every code's text is recognised as that code: the lookup is a bijection between
      the eight texts and the eight codes. */
  lemma ParseCodeText(c: Code)
    ensures ParseCode(CodeText(c)) == Some(c)
  {
  }

  /** A recognised token is exactly one of the eight texts. */
  lemma ParseCodeIff(t: string)
    ensures ParseCode(t).Some? <==> exists c: Code :: CodeText(c) == t
  {
    if exists c: Code :: CodeText(c) == t {
      var c: Code :| CodeText(c) == t;
      ParseCodeText(c);
    }
  }

  /** `orientation_map`: the full French name of a code. */
  function FullName(c: Code): string {
    match c
    case N => "Nord"
    case NE => "Nord-Est"
    case E => "Est"
    case SE => "Sud-Est"
    case S => "Sud"
    case SO => "Sud-Ouest"
    case O => "Ouest"
    case NO => "Nord-Ouest"
  }
}

=== FILE: Corrections.dfy ===
/** `apply_corrections` (balise-tools/_8-patchInfos.py) without its file I/O: each
    correction in turn patches the first site whose name equals `nom_actuel`. */
module Corrections {
  import opened Common
  import opened Records

  /** Python truthiness of an optional string: present and non-empty. */
  predicate Truthy(v: Option<string>) {
    v.Some? && v.value != ""
  }

  /** `k` is the first site whose `site.get("nom")` equals `nom`. */
  predicate IsFirstMatch(sites: seq<Site>, nom: Option<string>, k: int) {
    0 <= k < |sites| && sites[k].nom == nom
    && forall j :: 0 <= j < k ==> sites[j].nom != nom
  }

  /** The patch a matching correction applies to one site: a truthy new name and a
      truthy new orientation are written independently, nothing else is touched. */
  function Patch(s: Site, c: Correction): (r: Site)
    ensures r == s.(nom := r.nom, orientation := r.orientation)
    ensures r.nom == (if Truthy(c.nouveauNom) then c.nouveauNom else s.nom)
    ensures r.orientation == (if Truthy(c.nouvelleOrientation) then Some(Text(c.nouvelleOrientation.value)) else s.orientation)
  {
    var named := if Truthy(c.nouveauNom) then s.(nom := c.nouveauNom) else s;
    if Truthy(c.nouvelleOrientation) then named.(orientation := Some(Text(c.nouvelleOrientation.value)))
    else named
  }

  /** The inner `for … break … else` loop for one correction: only the first site with
      that exact name is patched; with no such site the list is unchanged. */
  function ApplyOne(sites: seq<Site>, c: Correction): (r: seq<Site>)
    ensures |r| == |sites|
    ensures forall i :: 0 <= i < |sites| ==> r[i] == sites[i] || r[i] == Patch(sites[i], c)
    ensures (forall i :: 0 <= i < |sites| ==> sites[i].nom != c.nomActuel) ==> r == sites
    ensures forall k :: IsFirstMatch(sites, c.nomActuel, k) ==>
      r[k] == Patch(sites[k], c) && forall i :: 0 <= i < |sites| && i != k ==> r[i] == sites[i]
    decreases |sites|
  {
    if sites == [] then []
    else if sites[0].nom == c.nomActuel then [Patch(sites[0], c)] + sites[1..]
    else
      var rest := ApplyOne(sites[1..], c);
      assert forall k :: IsFirstMatch(sites, c.nomActuel, k) ==> IsFirstMatch(sites[1..], c.nomActuel, k - 1);
      [sites[0]] + rest
  }

  /** A site named `nom` means there is a first such site. */
  lemma {:induction false} FirstMatchExists(sites: seq<Site>, nom: Option<string>, i: int)
    requires 0 <= i < |sites| && sites[i].nom == nom
    ensures exists k :: IsFirstMatch(sites, nom, k)
    decreases i
  {
    if forall j :: 0 <= j < i ==> sites[j].nom != nom {
      assert IsFirstMatch(sites, nom, i);
    } else {
      var j :| 0 <= j < i && sites[j].nom == nom;
      FirstMatchExists(sites, nom, j);
    }
  }

  /** When some site carries the name, exactly the first such site is patched and
      every other site is left as it was. */
  lemma MatchPatchesOneSite(sites: seq<Site>, c: Correction, i: int)
    requires 0 <= i < |sites| && sites[i].nom == c.nomActuel
    ensures exists k :: (0 <= k <= i && sites[k].nom == c.nomActuel
      && ApplyOne(sites, c)[k] == Patch(sites[k], c)
      && forall j :: 0 <= j < |sites| && j != k ==> ApplyOne(sites, c)[j] == sites[j])
  {
    FirstMatchExists(sites, c.nomActuel, i);
    var k :| IsFirstMatch(sites, c.nomActuel, k);
    assert k <= i;
  }

  /** The outer loop: corrections applied in list order, each seeing the names earlier ones wrote. */
  function ApplyCorrections(sites: seq<Site>, cs: seq<Correction>): (r: seq<Site>)
    ensures |r| == |sites|
    ensures forall i :: 0 <= i < |sites| ==> r[i] == sites[i].(nom := r[i].nom, orientation := r[i].orientation)
    decreases |cs|
  {
    if cs == [] then sites
    else
      var next := ApplyOne(sites, cs[0]);
      var r := ApplyCorrections(next, cs[1..]);
      assert forall i :: 0 <= i < |sites| ==> next[i] == sites[i].(nom := next[i].nom, orientation := next[i].orientation);
      r
  }

  /** Applying a list with one more correction at the end applies it to the previous result. */
  lemma {:induction false} ApplyCorrectionsSnoc(sites: seq<Site>, cs: seq<Correction>, c: Correction)
    ensures ApplyCorrections(sites, cs + [c]) == ApplyOne(ApplyCorrections(sites, cs), c)
    decreases |cs|
  {
    if cs == [] {
      assert ([] + [c])[1..] == [];
    } else {
      assert (cs + [c])[0] == cs[0];
      assert (cs + [c])[1..] == cs[1..] + [c];
      ApplyCorrectionsSnoc(ApplyOne(sites, cs[0]), cs[1..], c);
    }
  }

  /** Two sites share the name `a`: the correction patches the first only. Applied a
      second time it finds the second one, because the first no longer carries `a`. */
  lemma DuplicateNamesPatchedOneAtATime(s: Site, t: Site, a: string, b: string)
    requires s.nom == Some(a) && t.nom == Some(a) && b != "" && a != b
    ensures var c := Correction(Some(a), Some(b), None);
      && ApplyCorrections([s, t], [c]) == [s.(nom := Some(b)), t]
      && ApplyCorrections([s, t], [c, c]) == [s.(nom := Some(b)), t.(nom := Some(b))]
  {
    var c := Correction(Some(a), Some(b), None);
    assert IsFirstMatch([s, t], Some(a), 0);
    var once := ApplyOne([s, t], c);
    assert once == [s.(nom := Some(b)), t];
    assert [c][1..] == [];
    assert ApplyCorrections([s, t], [c]) == ApplyCorrections(once, []);
    assert IsFirstMatch(once, Some(a), 1);
    var twice := ApplyOne(once, c);
    assert twice[0] == once[0] && twice[1] == t.(nom := Some(b));
    assert twice == [s.(nom := Some(b)), t.(nom := Some(b))];
    assert [c, c][1..] == [c];
    assert ApplyCorrections([s, t], [c, c]) == ApplyCorrections(once, [c]);
    assert ApplyCorrections(once, [c]) == ApplyCorrections(twice, []);
  }

  /** Corrections chain: renaming `a` to `b` and then `b` to `d` renames the one site to `d`. */
  lemma RenamesChain(s: Site, a: string, b: string, d: string)
    requires s.nom == Some(a) && b != "" && d != ""
    ensures ApplyCorrections([s], [Correction(Some(a), Some(b), None), Correction(Some(b), Some(d), None)])
      == [s.(nom := Some(d))]
  {
    var c1 := Correction(Some(a), Some(b), None);
    var c2 := Correction(Some(b), Some(d), None);
    assert IsFirstMatch([s], Some(a), 0);
    var once := ApplyOne([s], c1);
    assert once == [s.(nom := Some(b))];
    assert IsFirstMatch(once, Some(b), 0);
    var twice := ApplyOne(once, c2);
    assert twice == [s.(nom := Some(d))];
    assert [c1, c2][1..] == [c2];
    assert [c2][1..] == [];
    assert ApplyCorrections([s], [c1, c2]) == ApplyCorrections(once, [c2]);
    assert ApplyCorrections(once, [c2]) == ApplyCorrections(twice, []);
  }

  /** Matching is exact: a name differing only in case is not found, and nothing changes. */
  lemma CaseSensitiveMatch(s: Site)
    requires s.nom == Some("Col")
    ensures ApplyCorrections([s], [Correction(Some("col"), Some("Pic"), Some("N"))]) == [s]
  {
    var c := Correction(Some("col"), Some("Pic"), Some("N"));
    assert "Col"[0] != "col"[0];
    assert [c][1..] == [];
  }

  /** A correction without `nom_actuel` patches the first site lacking a name. */
  lemma MissingNameMatchesNameless(sites: seq<Site>, k: int, c: Correction)
    requires c.nomActuel.None? && IsFirstMatch(sites, None, k)
    ensures ApplyCorrections(sites, [c])[k] == Patch(sites[k], c)
  {
    assert [c][1..] == [];
  }

  /** Empty strings are not truthy: a correction whose new values are empty leaves its
      matching site as it was. */
  lemma EmptyValuesPatchNothing(sites: seq<Site>, nom: Option<string>)
    ensures ApplyCorrections(sites, [Correction(nom, Some(""), Some(""))]) == sites
  {
    var c := Correction(nom, Some(""), Some(""));
    assert [c][1..] == [];
    var r := ApplyOne(sites, c);
    assert forall i :: 0 <= i < |sites| ==> Patch(sites[i], c) == sites[i];
    assert r == sites;
    assert ApplyCorrections(sites, [c]) == ApplyCorrections(r, []);
  }
}

=== FILE: Merge.dfy ===
/** `merge_json_files` of balise-tools/_6-mergeFiles.py (prefix `balises_`) and of
    data-dpt/_3-bis-mergefile.py (prefix `sites_ffvl`): the directory listing is
    filtered by name, and the JSON documents that load are flattened into one list. */
module Merge {
  import opened Common
  import opened Text

  /** One directory entry: its name and what `json.load` gives for it, or `None` when
      opening or parsing raised (the loop catches it and goes on). */
  datatype FileEntry = FileEntry(name: string, parsed: Option<Json>)

  const BalisesPrefix: string := "balises_"
  const SitesPrefix: string := "sites_ffvl"
  const JsonSuffix: string := ".json"

  /** The name filter of the loop. */
  predicate Accepted(name: string, prefix: string) {
    StartsWith(name, prefix) && EndsWith(name, JsonSuffix)
  }

  /** What one loaded document adds: a list its elements, a dictionary itself, any
      other JSON value nothing. */
  function Contribution(j: Json): (r: seq<Json>)
    ensures j.JArray? ==> r == j.items
    ensures j.JObject? ==> r == [j]
    ensures !j.JArray? && !j.JObject? ==> r == []
  {
    match j
    case JArray(items) => items
    case JObject(_) => [j]
    case _ => []
  }

  /** What one directory entry adds: nothing when its name is filtered out or its
      loading failed. */
  function EntryContribution(e: FileEntry, prefix: string): (r: seq<Json>)
    ensures !Accepted(e.name, prefix) || e.parsed.None? ==> r == []
    ensures Accepted(e.name, prefix) && e.parsed.Some? ==> r == Contribution(e.parsed.value)
  {
    if Accepted(e.name, prefix) && e.parsed.Some? then Contribution(e.parsed.value) else []
  }

  /** The merged list: the contributions of the entries in listing order. */
  function MergeEntries(entries: seq<FileEntry>, prefix: string): seq<Json> {
    if entries == [] then []
    else EntryContribution(entries[0], prefix) + MergeEntries(entries[1..], prefix)
  }

  /** The loop of `merge_json_files`, extending the list file by file. */
  method MergeLoop(entries: seq<FileEntry>, prefix: string) returns (merged: seq<Json>)
    ensures merged == MergeEntries(entries, prefix)
  {
    merged := [];
    var i := 0;
    while i < |entries|
      invariant 0 <= i <= |entries|
      invariant merged == MergeEntries(entries[..i], prefix)
    {
      MergeSnoc(entries[..i], entries[i], prefix);
      assert entries[..i + 1] == entries[..i] + [entries[i]];
      var e := entries[i];
      if Accepted(e.name, prefix) && e.parsed.Some? {
        match e.parsed.value
        case JArray(items) => merged := merged + items;
        case JObject(_) => merged := merged + [e.parsed.value];
        case _ =>
      }
      i := i + 1;
    }
    assert entries[..i] == entries;
  }

  /** The listing can be cut anywhere: merging two runs of entries gives the merge of
      the first followed by that of the second. */
  lemma {:induction false} MergeConcat(a: seq<FileEntry>, b: seq<FileEntry>, prefix: string)
    ensures MergeEntries(a + b, prefix) == MergeEntries(a, prefix) + MergeEntries(b, prefix)
  {
    if a == [] {
      assert a + b == b;
    } else {
      assert (a + b)[0] == a[0];
      assert (a + b)[1..] == a[1..] + b;
      MergeConcat(a[1..], b, prefix);
    }
  }

  /** One more entry adds its contribution at the end. */
  lemma MergeSnoc(a: seq<FileEntry>, e: FileEntry, prefix: string)
    ensures MergeEntries(a + [e], prefix) == MergeEntries(a, prefix) + EntryContribution(e, prefix)
  {
    MergeConcat(a, [e], prefix);
    assert [e][1..] == [];
  }

  /** No dedupe: the merged length is the sum of the list lengths plus one per
      dictionary, over the accepted entries that load. */
  function Size(entries: seq<FileEntry>, prefix: string): nat {
    if entries == [] then 0
    else
      var e := entries[0];
      var n := if !Accepted(e.name, prefix) || e.parsed.None? then 0
        else match e.parsed.value
          case JArray(items) => |items|
          case JObject(_) => 1
          case _ => 0;
      n + Size(entries[1..], prefix)
  }

  lemma {:induction false} MergeLength(entries: seq<FileEntry>, prefix: string)
    ensures |MergeEntries(entries, prefix)| == Size(entries, prefix)
  {
    if entries != [] {
      MergeLength(entries[1..], prefix);
    }
  }

  /** `v` is what a loaded document `j` puts in the merge: an element of a list, or a
      dictionary itself. */
  predicate Holds(j: Json, v: Json) {
    (j.JArray? && v in j.items) || (j.JObject? && v == j)
  }

  /** A value is in the merge exactly when some accepted entry that loads holds it. */
  lemma {:induction false} MergeMembers(entries: seq<FileEntry>, prefix: string, v: Json)
    ensures v in MergeEntries(entries, prefix) <==> exists i :: (0 <= i < |entries|
      && Accepted(entries[i].name, prefix) && entries[i].parsed.Some? && Holds(entries[i].parsed.value, v))
  {
    if entries != [] {
      MergeMembers(entries[1..], prefix, v);
      var e := entries[0];
      assert v in EntryContribution(e, prefix) <==> Accepted(e.name, prefix) && e.parsed.Some? && Holds(e.parsed.value, v);
      assert forall i :: 1 <= i < |entries| ==> entries[i] == entries[1..][i - 1];
    }
  }

  /** A single accepted file holding the list `l` merges to exactly `l`. */
  lemma SingleListFile(name: string, l: seq<Json>, prefix: string)
    requires Accepted(name, prefix)
    ensures MergeEntries([FileEntry(name, Some(JArray(l)))], prefix) == l
  {
    var e := FileEntry(name, Some(JArray(l)));
    assert [e][1..] == [];
    assert MergeEntries([e], prefix) == l + [];
  }

  /** A failing file is skipped and the merge goes on with the next ones. */
  lemma FailedFileSkipped(a: seq<FileEntry>, name: string, b: seq<FileEntry>, prefix: string)
    ensures MergeEntries(a + [FileEntry(name, None)] + b, prefix) == MergeEntries(a + b, prefix)
  {
    var e := FileEntry(name, None);
    MergeConcat(a + [e], b, prefix);
    MergeSnoc(a, e, prefix);
    MergeConcat(a, b, prefix);
  }

  /** Entries whose names the filter rejects never matter: the merge is that of the
      accepted entries alone. */
  function AcceptedOnly(entries: seq<FileEntry>, prefix: string): (r: seq<FileEntry>)
    ensures forall i :: 0 <= i < |r| ==> Accepted(r[i].name, prefix)
    ensures forall e :: e in r ==> e in entries
  {
    if entries == [] then []
    else if Accepted(entries[0].name, prefix) then [entries[0]] + AcceptedOnly(entries[1..], prefix)
    else AcceptedOnly(entries[1..], prefix)
  }

  lemma {:induction false} MergeOfAccepted(entries: seq<FileEntry>, prefix: string)
    ensures MergeEntries(AcceptedOnly(entries, prefix), prefix) == MergeEntries(entries, prefix)
  {
    if entries != [] {
      MergeOfAccepted(entries[1..], prefix);
      var rest := AcceptedOnly(entries[1..], prefix);
      if Accepted(entries[0].name, prefix) {
        assert ([entries[0]] + rest)[0] == entries[0];
        assert ([entries[0]] + rest)[1..] == rest;
      }
    }
  }

  // ---------------------------------------------------------------------------
  // the two scripts

  /** data-dpt/_3-bis-mergefile.py: the merge of the `sites_ffvl*.json` entries. */
  function MergeSites(entries: seq<FileEntry>): (r: seq<Json>)
    ensures r == MergeEntries(AcceptedOnly(entries, SitesPrefix), SitesPrefix)
  {
    MergeOfAccepted(entries, SitesPrefix);
    MergeEntries(entries, SitesPrefix)
  }

  /** The listing as the balise merge reads it: the output file, when it is listed,
      has just been emptied, and an empty file does not parse. */
  function AfterTruncation(entries: seq<FileEntry>, output: Option<string>): (r: seq<FileEntry>)
    ensures |r| == |entries|
    ensures forall i :: 0 <= i < |entries| ==> r[i].name == entries[i].name
    ensures forall i :: 0 <= i < |entries| ==>
      r[i].parsed == if Some(entries[i].name) == output then None else entries[i].parsed
  {
    seq(|entries|, i requires 0 <= i < |entries| =>
      if Some(entries[i].name) == output then FileEntry(entries[i].name, None) else entries[i])
  }

  /** balise-tools/_6-mergeFiles.py: nothing is written when emptying the existing
      output failed; otherwise the merge of the `balises_*.json` entries, where
      `output` is the name under which the output file appears in the listing, if it
      does. */
  function MergeBalises(entries: seq<FileEntry>, output: Option<string>, truncated: bool): (r: Option<seq<Json>>)
    ensures r.None? <==> !truncated
    ensures r.Some? ==> r.value == MergeEntries(AfterTruncation(entries, output), BalisesPrefix)
  {
    if !truncated then None else Some(MergeEntries(AfterTruncation(entries, output), BalisesPrefix))
  }

  /** The previous output never feeds back into the new one: listing the output file
      gives the same merge as not listing it at all. */
  lemma OutputNeverFedBack(a: seq<FileEntry>, b: seq<FileEntry>, out: FileEntry)
    requires forall i :: 0 <= i < |a| ==> a[i].name != out.name
    requires forall i :: 0 <= i < |b| ==> b[i].name != out.name
    ensures MergeBalises(a + [out] + b, Some(out.name), true) == MergeBalises(a + b, Some(out.name), true)
  {
    var l := AfterTruncation(a + [out] + b, Some(out.name));
    var m := AfterTruncation(a + b, Some(out.name));
    assert l == a + [FileEntry(out.name, None)] + b;
    assert m == a + b;
    FailedFileSkipped(a, out.name, b, BalisesPrefix);
  }
}

=== FILE: NameMatch.dfy ===
/** The crude name normalisation both beacon-linking scripts apply to site and
    beacon names before testing substring containment. */
module NameMatch {
  import opened Common
  import opened Text

  const UpperEAcute: char := '\U{C9}'  // É
  const LowerEAcute: char := '\U{E9}'  // é

  /** Characters the modelled `str.lower()` changes: the upper-case letters of ASCII and
      of Latin-1 (`À` to `Þ`, except the sign `×`). */
  predicate HasLowerForm(c: char) {
    'A' <= c <= 'Z' || ('\U{C0}' <= c <= '\U{DE}' && c != '\U{D7}')
  }

  /** `str.lower()` on one character: in both alphabets the lower-case form is 32 code
      points above the upper-case one. */
  function LowerChar(c: char): (d: char)
    ensures !HasLowerForm(d)
    ensures !HasLowerForm(c) ==> d == c
    ensures HasLowerForm(c) ==> d as int == c as int + 32
  {
    if HasLowerForm(c) then (c as int + 32) as char else c
  }

  /** `str.lower()`: same length, every upper-case letter replaced by its lower-case form
      (`A` by `a`, `É` by `é`), every other character kept. */
  function Lower(s: string): (r: string)
    ensures |r| == |s|
    ensures forall i :: 0 <= i < |s| ==> !HasLowerForm(r[i])
    ensures forall i :: 0 <= i < |s| && !HasLowerForm(s[i]) ==> r[i] == s[i]
    ensures forall i :: 0 <= i < |s| && 'A' <= s[i] <= 'Z' ==> 'a' <= r[i] <= 'z' && r[i] as int == s[i] as int + 32
    ensures forall i :: 0 <= i < |s| && s[i] == UpperEAcute ==> r[i] == LowerEAcute
    ensures forall i :: 0 <= i < |s| && HasLowerForm(s[i]) ==> r[i] as int == s[i] as int + 32
  {
    seq(|s|, i requires 0 <= i < |s| => LowerChar(s[i]))
  }

  /** A string the normalisation's character steps leave alone. */
  predicate Normalized(t: string) {
    forall i :: 0 <= i < |t| ==> !HasLowerForm(t[i]) && t[i] != '-' && t[i] != LowerEAcute
  }

  /** `name.lower().replace("-", " ").replace("saint", "st").replace("é", "e")`. */
  function Normalize(s: string): (r: string)
    ensures Normalized(r)
    ensures |r| <= |s|
  {
    var a := ReplaceChar(Lower(s), '-', ' ');
    var b := ReplaceAll(a, "saint", "st");
    var r := ReplaceChar(b, LowerEAcute, 'e');
    ReplaceAllNoLonger(a, "saint", "st");
    assert Normalized(r) by {
      forall i | 0 <= i < |r|
        ensures !HasLowerForm(r[i]) && r[i] != '-' && r[i] != LowerEAcute
      {
        ReplaceAllChars(a, "saint", "st", i);
      }
    }
    r
  }

  /** The key the scripts read a name from: `d.get("nom", "")`. */
  function NomOrEmpty(nom: Option<string>): string {
    if nom.Some? then nom.value else ""
  }

  /** `balise_name in site_name`, both normalised. */
  predicate BeaconMatches(beaconNom: Option<string>, siteNom: Option<string>) {
    Contains(Normalize(NomOrEmpty(siteNom)), Normalize(NomOrEmpty(beaconNom)))
  }

  /** A beacon without a name (or with an empty one) matches every site. */
  lemma NamelessBeaconMatchesAll(beaconNom: Option<string>, siteNom: Option<string>)
    requires beaconNom.None? || beaconNom.value == ""
    ensures BeaconMatches(beaconNom, siteNom)
  {
    assert Normalize(NomOrEmpty(beaconNom)) == [];
    EmptyContained(Normalize(NomOrEmpty(siteNom)));
  }

  /** On a normalised string only the `saint` step can still do anything. */
  lemma {:induction false} NormalizeOfNormalized(t: string)
    requires Normalized(t)
    ensures Normalize(t) == ReplaceAll(t, "saint", "st")
  {
    assert Lower(t) == t;
    assert ReplaceChar(t, '-', ' ') == t;
    var b := ReplaceAll(t, "saint", "st");
    forall i | 0 <= i < |b| ensures b[i] != LowerEAcute {
      ReplaceAllChars(t, "saint", "st", i);
    }
    assert ReplaceChar(b, LowerEAcute, 'e') == b;
  }

  /** The only character a `saint`-free replacement result can start with, other than
      the `s` of `st`, is the input's own first character. */
  lemma HeadOfReplaced(u: string, c: char)
    requires c != 's'
    requires ReplaceAll(u, "saint", "st") != [] && ReplaceAll(u, "saint", "st")[0] == c
    ensures u != [] && u[0] == c
    ensures ReplaceAll(u, "saint", "st") == [c] + ReplaceAll(u[1..], "saint", "st")
  {
    if |u| < 5 {
      assert ReplaceAll(u[1..], "saint", "st") == u[1..];
      assert u == [u[0]] + u[1..];
    }
  }

  /** `replace("saint", "st")` leaves no `saint` behind: `st` cannot be the start,
      the end or the middle of a new one. */
  lemma {:induction false} NoSaintAfterReplace(s: string)
    ensures !Contains(ReplaceAll(s, "saint", "st"), "saint")
    decreases |s|
  {
    if |s| >= 5 {
      if StartsWith(s, "saint") {
        NoSaintAfterReplace(s[5..]);
        NoSaintAfterSt(ReplaceAll(s[5..], "saint", "st"));
      } else {
        var rest := ReplaceAll(s[1..], "saint", "st");
        NoSaintAfterReplace(s[1..]);
        NoSaintAfterChar(s, rest);
      }
    }
  }

  /** `st` in front of a text without `saint` does not create one. */
  lemma NoSaintAfterSt(rest: string)
    requires !Contains(rest, "saint")
    ensures !Contains("st" + rest, "saint")
  {
    var out := "st" + rest;
    forall i | 0 <= i <= |out| - 5 ensures !OccursAt(out, "saint", i) {
      if i >= 2 {
        OccursAfterPrefix("st", rest, "saint", i);
      } else {
        assert out[i..i + 5][1 - i] == out[1] == 't';
      }
    }
  }

  /** One kept character in front of the rest of the output does not create a `saint`
      unless the input itself started with one. */
  lemma NoSaintAfterChar(s: string, rest: string)
    requires |s| >= 5 && !StartsWith(s, "saint")
    requires rest == ReplaceAll(s[1..], "saint", "st") && !Contains(rest, "saint")
    ensures !Contains([s[0]] + rest, "saint")
  {
    forall i | 0 <= i <= |rest| + 1 - 5 ensures !OccursAt([s[0]] + rest, "saint", i) {
      if i >= 1 {
        OccursAfterPrefix([s[0]], rest, "saint", i);
      } else {
        SaintAtStart(s, rest);
      }
    }
  }

  /** A `saint` at the start of the output was already at the start of the input. */
  lemma SaintAtStart(s: string, rest: string)
    requires |s| >= 5
    requires rest == ReplaceAll(s[1..], "saint", "st")
    ensures OccursAt([s[0]] + rest, "saint", 0) ==> StartsWith(s, "saint")
  {
    if OccursAt([s[0]] + rest, "saint", 0) {
      var out := [s[0]] + rest;
      assert out[..5] == "saint";
      assert out[1] == 'a' && out[2] == 'i' && out[3] == 'n' && out[4] == 't' by {
        assert out[1] == out[..5][1] && out[2] == out[..5][2];
        assert out[3] == out[..5][3] && out[4] == out[..5][4];
      }
      assert rest[0] == 'a';
      HeadOfReplaced(s[1..], 'a');
      var r2 := ReplaceAll(s[2..], "saint", "st");
      assert s[1..][1..] == s[2..];
      assert r2 == rest[1..];
      assert r2[0] == 'i';
      HeadOfReplaced(s[2..], 'i');
      var r3 := ReplaceAll(s[3..], "saint", "st");
      assert s[2..][1..] == s[3..];
      assert r3 == r2[1..];
      assert r3[0] == 'n';
      HeadOfReplaced(s[3..], 'n');
      var r4 := ReplaceAll(s[4..], "saint", "st");
      assert s[3..][1..] == s[4..];
      assert r4 == r3[1..];
      assert r4[0] == 't';
      HeadOfReplaced(s[4..], 't');
      assert s[..5] == "saint";
    }
  }

  /** A `saint` after the accent step was already there before it. */
  lemma SaintBeforeAccent(b: string, i: int)
    ensures OccursAt(ReplaceChar(b, LowerEAcute, 'e'), "saint", i) ==> OccursAt(b, "saint", i)
  {
    var r := ReplaceChar(b, LowerEAcute, 'e');
    if OccursAt(r, "saint", i) {
      forall j | i <= j < i + 5 ensures b[j] == r[j] {
        assert r[j] == r[i..i + 5][j - i] == "saint"[j - i];
      }
      assert b[i..i + 5] == r[i..i + 5];
    }
  }

  /** A normalised name contains no `saint`: the accent step only writes `e`, which is not in `saint`. */
  lemma NormalizeHasNoSaint(s: string)
    ensures !Contains(Normalize(s), "saint")
  {
    var a := ReplaceChar(Lower(s), '-', ' ');
    var b := ReplaceAll(a, "saint", "st");
    var r := ReplaceChar(b, LowerEAcute, 'e');
    NoSaintAfterReplace(a);
    forall i | 0 <= i <= |r| - 5 ensures !OccursAt(r, "saint", i) {
      SaintBeforeAccent(b, i);
    }
  }

  /** Normalising twice gives the same name as normalising once. */
  lemma NormalizeIdempotent(s: string)
    ensures Normalize(Normalize(s)) == Normalize(s)
  {
    var t := Normalize(s);
    NormalizeOfNormalized(t);
    NormalizeHasNoSaint(s);
    ReplaceAllAbsent(t, "saint", "st");
  }

  /** `Saint-André` and `st andre` normalise to the same name. */
  lemma SaintAndreExample()
    ensures Normalize("Saint-Andr\U{E9}") == Normalize("st andre") == "st andre"
  {
    NormalizeSaintAndre();
    NormalizeStAndre();
  }

  lemma NormalizeSaintAndre()
    ensures Normalize("Saint-Andr\U{E9}") == "st andre"
  {
    LowerSaintAndre();
    HyphenSaintAndre();
    ReplaceSaintAndre();
    AccentStAndre();
  }

  lemma HyphenSaintAndre()
    ensures ReplaceChar("saint-andr\U{E9}", '-', ' ') == "saint andr\U{E9}"
  {
    var s := "saint-andr\U{E9}";
    assert forall i :: 0 <= i < |s| && i != 5 ==> s[i] != '-';
  }

  lemma AccentStAndre()
    ensures ReplaceChar("st andr\U{E9}", LowerEAcute, 'e') == "st andre"
  {
    var s := "st andr\U{E9}";
    assert forall i :: 0 <= i < |s| - 1 ==> s[i] != LowerEAcute;
  }

  lemma LowerSaintAndre()
    ensures Lower("Saint-Andr\U{E9}") == "saint-andr\U{E9}"
  {
    var s := "Saint-Andr\U{E9}";
    assert forall i :: 0 <= i < |s| && i != 0 && i != 6 ==> !HasLowerForm(s[i]);
    assert Lower(s)[0] == 's' && Lower(s)[6] == 'a';
  }

  lemma ReplaceSaintAndre()
    ensures ReplaceAll("saint andr\U{E9}", "saint", "st") == "st andr\U{E9}"
  {
    assert StartsWith("saint andr\U{E9}", "saint");
    ReplaceAllAbsentShort(" andr\U{E9}");
    assert "saint andr\U{E9}"[5..] == " andr\U{E9}";
  }

  lemma NormalizeStAndre()
    ensures Normalize("st andre") == "st andre"
  {
    var t := "st andre";
    assert Normalized(t);
    NormalizeOfNormalized(t);
    ReplaceAllAbsentShort(t);
  }

  /** A string with no `s` cannot contain `saint`. */
  lemma ReplaceAllAbsentShort(t: string)
    requires forall i :: 0 <= i < |t| && t[i] == 's' ==> i + 1 < |t| && t[i + 1] == 't'
    ensures ReplaceAll(t, "saint", "st") == t
  {
    forall i | 0 <= i <= |t| - 5 ensures !OccursAt(t, "saint", i) {
      assert t[i..i + 5][0] == t[i] && t[i..i + 5][1] == t[i + 1];
    }
    ReplaceAllAbsent(t, "saint", "st");
  }
}

=== FILE: Orientation.dfy ===
/** tools/_3-formatdetails.py: the favourable-sector text of each site is cut out,
    its `;`-separated codes averaged and snapped to the nearest code, and the code
    appended to the site name. The circular mean itself (cosines, sines, `atan2`) is
    a parameter `mean`; what is modelled is which angles reach it and how its
    result is snapped. */
module Orientation {
  import opened Common
  import opened Text
  import opened Records
  import opened Compass
  import opened NameMatch

  const Marker: string := "Secteurs de vent d\U{E9}favorables"

  function AbsR(x: real): (a: real)
    ensures a >= 0.0 && (a == x || a == -x)
  {
    if x < 0.0 then -x else x
  }

  /** `abs(d - average_degrees)` for the `i`-th degree of the table, `45 * i`. */
  function Dist(i: int, m: real): real {
    AbsR((45 * i) as real - m)
  }

  /** `i` is what `min(DEGREES_TO_ORIENTATION.keys(), key=…)` picks: a degree at least as
      close as every other, and strictly closer than every one before it. */
  predicate IsFirstNearest(m: real, i: int) {
    0 <= i < |Codes|
    && (forall j :: 0 <= j < |Codes| ==> Dist(i, m) <= Dist(j, m))
    && (forall j :: 0 <= j < i ==> Dist(j, m) > Dist(i, m))
  }

  /** `min` scanning the table from index `k` with `best` the winner so far: a later
      degree replaces the winner only when strictly closer. */
  function MinScan(m: real, best: nat, k: nat): (i: nat)
    requires best < k <= |Codes|
    requires forall j :: 0 <= j < k ==> Dist(best, m) <= Dist(j, m)
    requires forall j :: 0 <= j < best ==> Dist(j, m) > Dist(best, m)
    ensures IsFirstNearest(m, i)
    decreases |Codes| - k
  {
    if k == |Codes| then best
    else if Dist(k, m) < Dist(best, m) then MinScan(m, k, k + 1)
    else MinScan(m, best, k + 1)
  }

  /** The code whose degree is nearest to `m`; no wrap-around at 360°. */
  function Snap(m: real): (c: Code)
    ensures IsFirstNearest(m, Index(c))
  {
    var i := MinScan(m, 0, 1);
    IndexOfCodes(i);
    Codes[i]
  }

  /** At most one index is the first nearest. */
  lemma FirstNearestUnique(m: real, i: int, j: int)
    requires IsFirstNearest(m, i) && IsFirstNearest(m, j)
    ensures i == j
  {
    assert i < j ==> Dist(i, m) > Dist(j, m);
    assert j < i ==> Dist(j, m) > Dist(i, m);
  }

  /** The snap as a table of intervals: each code owns the half-open interval up to the
      midpoint with the next degree; the midpoint itself goes to the smaller degree. */
  function SnapByThreshold(m: real): Code {
    if m <= 22.5 then N
    else if m <= 67.5 then NE
    else if m <= 112.5 then E
    else if m <= 157.5 then SE
    else if m <= 202.5 then S
    else if m <= 247.5 then SO
    else if m <= 292.5 then O
    else NO
  }

  /** The scan agrees with the interval table on every real. */
  lemma SnapMatchesThresholds(m: real)
    ensures Snap(m) == SnapByThreshold(m)
  {
    var c := SnapByThreshold(m);
    var i := Index(c);
    NearestInBand(m, i);
    FirstNearestUnique(m, i, Index(Snap(m)));
  }

  /** A mean within 22.5° of degree `45 * i`, ties going down, has `i` as its first
      nearest; the end bands are open towards minus and plus infinity. */
  lemma NearestInBand(m: real, i: int)
    requires 0 <= i < |Codes|
    requires i == 0 || m > (45 * i) as real - 22.5
    requires i == |Codes| - 1 || m <= (45 * i) as real + 22.5
    ensures IsFirstNearest(m, i)
  {
    var di := (45 * i) as real - m;
    assert Dist(i, m) == AbsR(di);
    forall j | 0 <= j < |Codes| ensures Dist(i, m) <= Dist(j, m) && (j < i ==> Dist(j, m) > Dist(i, m)) {
      var dj := (45 * j) as real - m;
      assert Dist(j, m) == AbsR(dj);
      if j < i {
        assert dj <= di - 45.0 && di < 22.5;
      } else if j > i {
        assert dj >= di + 45.0 && di >= -22.5;
      }
    }
  }

  /** Any mean above 292.5° gives `NO`, however close it is to 360°. */
  lemma NoWrapAround(m: real)
    requires m > 292.5
    ensures Snap(m) == NO
  {
    SnapMatchesThresholds(m);
  }

  /** A mean exactly between two neighbouring degrees goes to the smaller one. */
  lemma TieGoesToSmaller(i: nat)
    requires i + 1 < |Codes|
    ensures Snap((45 * i) as real + 22.5) == Codes[i]
  {
    SnapMatchesThresholds((45 * i) as real + 22.5);
  }

  /** The codes of the tokens that are exactly one of the eight texts, in order. */
  function Recognised(tokens: seq<string>): (cs: seq<Code>)
    ensures |cs| <= |tokens|
  {
    if tokens == [] then []
    else
      var rest := Recognised(tokens[1..]);
      match ParseCode(tokens[0])
      case Some(c) => [c] + rest
      case None => rest
  }

  /** A code is among the recognised ones exactly when some token is its text. */
  lemma {:induction false} RecognisedMembers(tokens: seq<string>, c: Code)
    ensures c in Recognised(tokens) <==> exists i :: 0 <= i < |tokens| && tokens[i] == CodeText(c)
  {
    if tokens != [] {
      RecognisedMembers(tokens[1..], c);
      ParseCodeText(c);
      assert forall i :: 1 <= i < |tokens| ==> tokens[i] == tokens[1..][i - 1];
      if exists i :: 0 <= i < |tokens[1..]| && tokens[1..][i] == CodeText(c) {
        var i :| 0 <= i < |tokens[1..]| && tokens[1..][i] == CodeText(c);
        assert tokens[i + 1] == CodeText(c);
      }
    }
  }

  /** Recognition works token by token: it distributes over concatenation. */
  lemma {:induction false} RecognisedConcat(a: seq<string>, b: seq<string>)
    ensures Recognised(a + b) == Recognised(a) + Recognised(b)
  {
    if a != [] {
      RecognisedConcat(a[1..], b);
      assert (a + b)[0] == a[0];
      assert (a + b)[1..] == a[1..] + b;
    } else {
      assert a + b == b;
    }
  }

  /** `split(";")` does not trim: a token with a leading space, like `" NE"`, is not a
      code and adds nothing. */
  lemma UntrimmedTokenIgnored(tokens: seq<string>, t: string)
    requires t != [] && t[0] == ' '
    ensures Recognised(tokens + [t]) == Recognised(tokens)
  {
    RecognisedConcat(tokens, [t]);
    assert ParseCode(t).None? by {
      if ParseCode(t).Some? {
        CodeTextStartsWithLetter(ParseCode(t).value);
      }
    }
    assert Recognised([t]) == [] by {
      assert [t][1..] == [];
    }
  }

  /** Every code's text starts with a letter, never with a space. */
  lemma CodeTextStartsWithLetter(c: Code)
    ensures CodeText(c) != [] && CodeText(c)[0] != ' '
  {
    match c
    case N => case NE => case E => case SE =>
    case S => case SO => case O => case NO =>
  }

  function Degrees(cs: seq<Code>): (ds: seq<int>)
    ensures |ds| == |cs|
    ensures forall i :: 0 <= i < |cs| ==> ds[i] == Degree(cs[i]) && 0 <= ds[i] <= 315
  {
    seq(|cs|, i requires 0 <= i < |cs| => Degree(cs[i]))
  }

  /** `get_average_orientation(tokens)` with the circular mean left to `mean`: no token
      gives `None`; tokens none of which is a code divide by zero; otherwise the mean
      of the codes' degrees, snapped. */
  function AverageOrientation(tokens: seq<string>, mean: seq<int> -> real): (r: Result<Option<Code>>)
    ensures r == Ok(None) <==> tokens == []
    ensures r.Err? <==> tokens != [] && Recognised(tokens) == []
    ensures r.Err? ==> r.error == ZeroDivision
    ensures r.Ok? && r.value.Some? ==> r.value.value == Snap(mean(Degrees(Recognised(tokens))))
  {
    if tokens == [] then Ok(None)
    else
      var cs := Recognised(tokens);
      if cs == [] then Err(ZeroDivision)
      else Ok(Some(Snap(mean(Degrees(cs)))))
  }

  /** No token is a code exactly when none of the eight texts is among the tokens. */
  lemma NothingRecognised(tokens: seq<string>)
    ensures Recognised(tokens) == [] <==> forall i :: 0 <= i < |tokens| ==> ParseCode(tokens[i]).None?
  {
    if Recognised(tokens) != [] {
      var c := Recognised(tokens)[0];
      RecognisedMembers(tokens, c);
      var i :| 0 <= i < |tokens| && tokens[i] == CodeText(c);
      ParseCodeText(c);
    } else {
      forall i | 0 <= i < |tokens| ensures ParseCode(tokens[i]).None? {
        if ParseCode(tokens[i]).Some? {
          RecognisedMembers(tokens, ParseCode(tokens[i]).value);
        }
      }
    }
  }

  /** `k` is where `split(Marker)[0]` ends: the first marker starts there, or there is none and `k` is the end. */
  predicate CutAt(s: string, k: int) {
    0 <= k <= |s|
    && (forall i :: 0 <= i < k ==> !OccursAt(s, Marker, i))
    && (k == |s| || OccursAt(s, Marker, k))
  }

  /** `extract_orientation`: nothing for a missing or empty text, otherwise the stripped
      text before the first unfavourable-sectors marker. */
  function ExtractOrientation(sv: Option<string>): (r: Option<string>)
    ensures r.None? <==> sv.None? || sv.value == ""
    ensures r.Some? ==> exists k :: CutAt(sv.value, k) && r.value == Strip(sv.value[..k])
    ensures r.Some? ==> !Contains(r.value, Marker)
  {
    if sv.None? || sv.value == "" then None
    else
      var before := BeforeFirst(sv.value, Marker);
      BeforeFirstCases(sv.value, Marker);
      assert CutAt(sv.value, |before|);
      StripContains(before, Marker);
      Some(Strip(before))
  }

  /** A text without the marker is kept whole, only stripped. */
  lemma ExtractWithoutMarker(t: string)
    requires t != "" && !Contains(t, Marker)
    ensures ExtractOrientation(Some(t)) == Some(Strip(t))
  {
    BeforeFirstCases(t, Marker);
  }

  /** The filter at line 70: no orientation for a missing or empty text, or one that
      contains `non` in any letter case. */
  predicate Rejected(o: Option<string>) {
    o.None? || o.value == "" || Contains(Lower(o.value), "non")
  }

  /** One iteration of the site loop. `orientation_all` is always written; a rejected
      text writes a null `orientation`; otherwise the averaged code is written and
      appended to the name as ` (code)`, which needs `site["nom"]`. */
  function FormatSite(s: Site, mean: seq<int> -> real): (r: Result<Site>)
    ensures var o := ExtractOrientation(s.secteursVent);
      r.Err? <==> !Rejected(o) && (Recognised(Split(o.value, ';')) == [] || s.nom.None?)
    ensures var o := ExtractOrientation(s.secteursVent);
      r.Err? ==> r.error == if Recognised(Split(o.value, ';')) == [] then ZeroDivision else KeyError("nom")
    ensures r.Ok? ==> r.value == s.(orientationAll := r.value.orientationAll, orientation := r.value.orientation, nom := r.value.nom)
    ensures r.Ok? ==> r.value.orientationAll == Some(if s.secteursVent.None? || s.secteursVent.value == "" then Null else Text(ExtractOrientation(s.secteursVent).value))
    ensures r.Ok? ==> r.value.orientation.Some? && (r.value.orientation.value.Null? <==> Rejected(ExtractOrientation(s.secteursVent)))
    ensures r.Ok? && r.value.orientation.value.Null? ==> r.value.nom == s.nom
    ensures r.Ok? && r.value.orientation.value.Text? ==>
      s.nom.Some? && r.value.nom == Some(s.nom.value + " (" + r.value.orientation.value.s + ")")
      && ParseCode(r.value.orientation.value.s).Some?
    ensures r.Ok? && r.value.orientation.value.Text? ==>
      r.value.orientation.value.s == CodeText(Snap(mean(Degrees(Recognised(Split(ExtractOrientation(s.secteursVent).value, ';'))))))
  {
    var o := ExtractOrientation(s.secteursVent);
    var all := s.(orientationAll := Some(if o.Some? then Text(o.value) else Null));
    if Rejected(o) then Ok(all.(orientation := Some(Null)))
    else
      match AverageOrientation(Split(o.value, ';'), mean)
      case Err(e) => Err(e)
      case Ok(None) => Ok(all.(orientation := Some(Null)))
      case Ok(Some(c)) =>
        ParseCodeText(c);
        if s.nom.None? then Err(KeyError("nom"))
        else Ok(all.(orientation := Some(Text(CodeText(c))), nom := Some(s.nom.value + " (" + CodeText(c) + ")")))
  }

  /** A site whose favourable sectors are a single code keeps that code: the text is
      extracted whole, the code is its only token, and a mean of that one angle that
      lands within the code's band of 22.5 degrees snaps back to the code. */
  lemma SingleCodeFormatted(s: Site, c: Code, mean: seq<int> -> real)
    requires s.secteursVent == Some(CodeText(c)) && s.nom.Some?
    requires Index(c) == 0 || mean([Degree(c)]) > Degree(c) as real - 22.5
    requires Index(c) == |Codes| - 1 || mean([Degree(c)]) <= Degree(c) as real + 22.5
    ensures FormatSite(s, mean) == Ok(s.(orientationAll := Some(Text(CodeText(c))),
      orientation := Some(Text(CodeText(c))), nom := Some(s.nom.value + " (" + CodeText(c) + ")")))
  {
    ExtractCode(c);
    AverageOfCode(c, mean);
  }

  /** A code's text is extracted whole and is not rejected. */
  lemma ExtractCode(c: Code)
    ensures ExtractOrientation(Some(CodeText(c))) == Some(CodeText(c))
    ensures !Rejected(Some(CodeText(c)))
  {
    CodeTextPlain(c);
    ExtractWithoutMarker(CodeText(c));
    StripOfTrimmed(CodeText(c));
  }

  /** A code's text alone averages back to the code when the mean of its one angle
      stays within the code's band. */
  lemma AverageOfCode(c: Code, mean: seq<int> -> real)
    requires Index(c) == 0 || mean([Degree(c)]) > Degree(c) as real - 22.5
    requires Index(c) == |Codes| - 1 || mean([Degree(c)]) <= Degree(c) as real + 22.5
    ensures AverageOrientation(Split(CodeText(c), ';'), mean) == Ok(Some(c))
  {
    var t := CodeText(c);
    CodeTextPlain(c);
    assert Split(t, ';') == [t];
    ParseCodeText(c);
    assert Recognised([t]) == [c] by {
      assert [t][1..] == [];
    }
    assert Degrees([c]) == [Degree(c)];
    var m := mean([Degree(c)]);
    NearestInBand(m, Index(c));
    FirstNearestUnique(m, Index(c), Index(Snap(m)));
  }

  /** A code's text is short, has no marker, `non` or `;` in it, and no surrounding spaces. */
  lemma CodeTextPlain(c: Code)
    ensures var t := CodeText(c);
      && 1 <= |t| <= 2 && ';' !in t && Trimmed(t)
      && !Contains(t, Marker) && !Contains(Lower(t), "non")
  {
  }

  /** The snap of a code's own degree is that code. */
  lemma SnapAtDegree(c: Code)
    ensures Snap(Degree(c) as real) == c
  {
    var i := Index(c);
    NearestInBand(Degree(c) as real, i);
    FirstNearestUnique(Degree(c) as real, i, Index(Snap(Degree(c) as real)));
  }

  /** Nothing guards against a second run: it appends the same code a second time. */
  lemma RerunAppendsTwice(s: Site, mean: seq<int> -> real)
    requires FormatSite(s, mean).Ok? && FormatSite(s, mean).value.orientation.value.Text?
    ensures var once := FormatSite(s, mean).value;
      var code := once.orientation.value.s;
      && FormatSite(once, mean).Ok?
      && FormatSite(once, mean).value.orientation == once.orientation
      && FormatSite(once, mean).value.nom == Some(s.nom.value + " (" + code + ")" + " (" + code + ")")
  {
  }

  /** The whole loop: every site in order; an exception anywhere means no output, and
      the exception is that of the first failing site. */
  function FormatSites(sites: seq<Site>, mean: seq<int> -> real): (r: Result<seq<Site>>)
    ensures r.Ok? <==> forall i :: 0 <= i < |sites| ==> FormatSite(sites[i], mean).Ok?
    ensures r.Ok? ==> |r.value| == |sites|
    ensures r.Ok? ==> forall i :: 0 <= i < |sites| ==> FormatSite(sites[i], mean) == Ok(r.value[i])
    ensures r.Err? ==> exists i :: (0 <= i < |sites| && FormatSite(sites[i], mean) == Err(r.error)
      && forall j :: 0 <= j < i ==> FormatSite(sites[j], mean).Ok?)
  {
    Collect(FormatEach(sites, mean))
  }

  /** Each site's outcome, in order. */
  function FormatEach(sites: seq<Site>, mean: seq<int> -> real): (rs: seq<Result<Site>>)
    ensures |rs| == |sites| && forall i :: 0 <= i < |sites| ==> rs[i] == FormatSite(sites[i], mean)
  {
    seq(|sites|, i requires 0 <= i < |sites| => FormatSite(sites[i], mean))
  }
}

=== FILE: Records.dfy ===
/** The records the scripts pass between each other as JSON, and the abstract
    view of the HTML tables they scrape. */
module Records {
  import opened Common

  /** The `balise` value of a site: a bare URL string or a list of URLs. */
  datatype Links = Single(url: string) | Urls(urls: seq<string>)

  /** A paragliding site. `None` is a missing key; for `id` and `code` it also
      stands for JSON null, which every reader of those keys treats like a missing
      key. Keys no modelled script reads or writes live in `extra`. */
  datatype Site = Site(
    id: Option<string>,
    nom: Option<string>,
    code: Option<string>,
    commune: Option<string>,
    codePostal: Option<string>,
    activite: Option<string>,
    statut: Option<string>,
    secteursVent: Option<string>,
    orientationAll: Option<Nullable>,
    orientation: Option<Nullable>,
    balise: Option<Links>,
    extra: map<string, Json>)

  /** The dictionary `{}` that `site.clear()` leaves behind. */
  const EmptySite: Site :=
    Site(None, None, None, None, None, None, None, None, None, None, None, map[])

  /** A weather beacon as the beacon scraper writes it: `{"url": …, "nom": …}`. */
  datatype Beacon = Beacon(nom: Option<string>, url: string)

  /** One entry of the manual corrections file; `None` is a missing key or null. */
  datatype Correction = Correction(
    nomActuel: Option<string>,
    nouveauNom: Option<string>,
    nouvelleOrientation: Option<string>)

  /** An `<a>` element: its `href` attribute, if any, and its text. */
  datatype Anchor = Anchor(href: Option<string>, text: string)

  /** A `<td>` element: its text, its `bgcolor` attribute, and the anchors inside it in document order. */
  datatype Cell = Cell(text: string, bgcolor: Option<string>, anchors: seq<Anchor>)

  /** A `<tr>` element as the sequence of its `<td>` cells. */
  type Row = seq<Cell>
}

=== FILE: Seqs.dfy ===
/** Filtering a sequence of optional values: what a loop that appends only the values
    it finds leaves behind. */
module Seqs {
  import opened Common

  /** The present values of `xs`, in order. */
  function Somes<T>(xs: seq<Option<T>>): (r: seq<T>)
    ensures |r| <= |xs|
  {
    if xs == [] then []
    else if xs[0].Some? then [xs[0].value] + Somes(xs[1..])
    else Somes(xs[1..])
  }

  /** The indices of `xs` that hold a value. */
  function Present<T>(xs: seq<Option<T>>): set<int> {
    set i | 0 <= i < |xs| && xs[i].Some?
  }

  /** Filtering works piecewise: the values of two runs are those of the first
      followed by those of the second. */
  lemma {:induction false} SomesConcat<T>(a: seq<Option<T>>, b: seq<Option<T>>)
    ensures Somes(a + b) == Somes(a) + Somes(b)
  {
    if a == [] {
      assert a + b == b;
    } else {
      assert (a + b)[0] == a[0];
      assert (a + b)[1..] == a[1..] + b;
      SomesConcat(a[1..], b);
    }
  }

  /** One more entry at the end adds its value, if any, at the end. */
  lemma SomesSnoc<T>(xs: seq<Option<T>>, x: Option<T>)
    ensures Somes(xs + [x]) == if x.Some? then Somes(xs) + [x.value] else Somes(xs)
  {
    SomesConcat(xs, [x]);
    assert [x][1..] == [];
  }

  /** A value is kept exactly when some entry holds it. */
  lemma {:induction false} SomesMembers<T>(xs: seq<Option<T>>, v: T)
    ensures v in Somes(xs) <==> exists i :: 0 <= i < |xs| && xs[i] == Some(v)
  {
    if xs != [] {
      SomesMembers(xs[1..], v);
      assert forall i :: 1 <= i < |xs| ==> xs[i] == xs[1..][i - 1];
      if exists i :: 0 <= i < |xs| && xs[i] == Some(v) {
        var i :| 0 <= i < |xs| && xs[i] == Some(v);
        assert i > 0 ==> xs[1..][i - 1] == Some(v);
      }
    }
  }

  /** A loop that walks `xs` and appends each value it finds. */
  method SomesLoop<T>(xs: seq<Option<T>>) returns (r: seq<T>)
    ensures r == Somes(xs)
  {
    r := [];
    var i := 0;
    while i < |xs|
      invariant 0 <= i <= |xs|
      invariant r == Somes(xs[..i])
    {
      SomesSnoc(xs[..i], xs[i]);
      assert xs[..i + 1] == xs[..i] + [xs[i]];
      if xs[i].Some? {
        r := r + [xs[i].value];
      }
      i := i + 1;
    }
    assert xs[..i] == xs;
  }

  /** Nothing is lost or duplicated: one output value per entry that holds a value. */
  lemma {:induction false} SomesCount<T>(xs: seq<Option<T>>)
    ensures |Somes(xs)| == |Present(xs)|
  {
    if xs == [] {
      assert Present(xs) == {};
    } else {
      SomesCount(xs[1..]);
      PresentSplit(xs);
      ShiftCard(Present(xs[1..]));
      assert 0 !in Shift(Present(xs[1..]));
    }
  }

  /** Every integer of `s` plus one. */
  function Shift(s: set<int>): set<int> {
    set j | j in s :: j + 1
  }

  /** The present indices of `xs` are its head's, if it holds a value, and those of its
      tail moved up by one. */
  lemma PresentSplit<T>(xs: seq<Option<T>>)
    requires xs != []
    ensures Present(xs) == (if xs[0].Some? then {0} else {}) + Shift(Present(xs[1..]))
  {
    var tail := xs[1..];
    forall i | i in Present(xs) && i != 0 ensures i in Shift(Present(tail)) {
      assert xs[i] == tail[i - 1];
      assert i - 1 in Present(tail);
    }
    forall i | i in Shift(Present(tail)) ensures i in Present(xs) {
      var j :| j in Present(tail) && i == j + 1;
      assert xs[j + 1] == tail[j];
    }
  }

  /** The first value present at or after index `i`: a left-to-right search. */
  function FirstFrom<T>(xs: seq<Option<T>>, i: nat): (r: Option<T>)
    requires i <= |xs|
    ensures r.None? <==> forall k :: i <= k < |xs| ==> xs[k].None?
    ensures r.Some? ==> exists k :: (i <= k < |xs| && xs[k] == r
      && forall j :: i <= j < k ==> xs[j].None?)
    decreases |xs| - i
  {
    if i == |xs| then None
    else if xs[i].Some? then xs[i]
    else FirstFrom(xs, i + 1)
  }

  /** The search passes over indices holding nothing. */
  lemma {:induction false} FirstFromSkips<T>(xs: seq<Option<T>>, i: nat, k: nat)
    requires i <= k <= |xs|
    requires forall j :: i <= j < k ==> xs[j].None?
    ensures FirstFrom(xs, i) == FirstFrom(xs, k)
    decreases k - i
  {
    if i < k {
      assert xs[i].None?;
      FirstFromSkips(xs, i + 1, k);
    }
  }

  /** `f` applied to every element, in order. */
  function Map<A, B>(xs: seq<A>, f: A -> B): (ys: seq<B>)
    ensures |ys| == |xs| && forall i :: 0 <= i < |xs| ==> ys[i] == f(xs[i])
  {
    seq(|xs|, i requires 0 <= i < |xs| => f(xs[i]))
  }

  /** Mapping works piecewise. */
  lemma MapAppend<A, B>(a: seq<A>, b: seq<A>, f: A -> B)
    ensures Map(a + b, f) == Map(a, f) + Map(b, f)
  {
    forall i | 0 <= i < |a + b| ensures Map(a + b, f)[i] == (Map(a, f) + Map(b, f))[i] {
      if i < |a| {
        assert (a + b)[i] == a[i];
      } else {
        assert (a + b)[i] == b[i - |a|];
      }
    }
  }

  /** The sequences of `xss` laid end to end. */
  function Concat<T>(xss: seq<seq<T>>): (r: seq<T>)
  {
    if xss == [] then [] else xss[0] + Concat(xss[1..])
  }

  /** Concatenation works piecewise. */
  lemma {:induction false} ConcatAppend<T>(a: seq<seq<T>>, b: seq<seq<T>>)
    ensures Concat(a + b) == Concat(a) + Concat(b)
  {
    if a == [] {
      assert a + b == b;
    } else {
      assert (a + b)[0] == a[0];
      assert (a + b)[1..] == a[1..] + b;
      ConcatAppend(a[1..], b);
    }
  }

  /** Every element of the concatenation comes from one of the pieces. */
  lemma {:induction false} ConcatIndex<T>(xss: seq<seq<T>>, k: nat)
    requires k < |Concat(xss)|
    ensures exists i, j :: 0 <= i < |xss| && 0 <= j < |xss[i]| && Concat(xss)[k] == xss[i][j]
  {
    assert xss != [];
    var rest := Concat(xss[1..]);
    assert Concat(xss) == xss[0] + rest;
    if k < |xss[0]| {
      assert Concat(xss)[k] == xss[0][k];
    } else {
      ConcatIndex(xss[1..], k - |xss[0]|);
      var i, j :| 0 <= i < |xss[1..]| && 0 <= j < |xss[1..][i]| && rest[k - |xss[0]|] == xss[1..][i][j];
      assert Concat(xss)[k] == xss[i + 1][j];
    }
  }

  /** Shifting a set of integers by one keeps its size. */
  lemma {:induction false} ShiftCard(s: set<int>)
    ensures |Shift(s)| == |s|
    decreases |s|
  {
    if x :| x in s {
      var t := s - {x};
      ShiftCard(t);
      var a := Shift(s);
      var b := Shift(t);
      assert a == b + {x + 1} by {
        forall y | y in a ensures y in b + {x + 1} {
          var j :| j in s && y == j + 1;
          assert j == x || j in t;
        }
        forall y | y in b + {x + 1} ensures y in a {
          if y != x + 1 {
            var j :| j in t && y == j + 1;
            assert j in s;
          }
        }
      }
      assert x + 1 !in b;
    } else {
      assert forall y :: y !in s;
      assert Shift(s) == {};
    }
  }
}

=== FILE: SiteDetails.dfy ===
/** tools/_2-requestInfosSite.py without its HTTP requests and file writes: the
    first-code lookup on a wind-sector text, the suitability screen of the main loop,
    and the altitude pattern applied to the altitude block's text. */
module SiteDetails {
  import opened Common
  import opened Text
  import opened Records
  import opened Compass
  import opened Seqs

  // ---------------------------------------------------------------------------
  // get_orientation_from_wind_sector

  /** A character of the class `[;,\s]`. */
  predicate IsSep(c: char) {
    c == ';' || c == ',' || IsSpace(c)
  }

  predicate NoSep(t: string) {
    forall i :: 0 <= i < |t| ==> !IsSep(t[i])
  }

  predicate AllSep(t: string) {
    forall i :: 0 <= i < |t| ==> IsSep(t[i])
  }

  /** Index of the first separator character, or `|s|` when there is none. */
  function FirstSepIndex(s: string): (i: nat)
    ensures i <= |s| && NoSep(s[..i])
    ensures i < |s| ==> IsSep(s[i])
  {
    if s == [] then 0
    else if IsSep(s[0]) then 0
    else
      var i := FirstSepIndex(s[1..]);
      assert s[..i + 1] == [s[0]] + s[1..][..i];
      i + 1
  }

  /** End of the maximal run of separator characters starting at `k`. */
  function SepRunEnd(s: string, k: nat): (j: nat)
    requires k <= |s|
    ensures k <= j <= |s| && AllSep(s[k..j])
    ensures j == |s| || !IsSep(s[j])
    decreases |s| - k
  {
    if k < |s| && IsSep(s[k]) then
      var j := SepRunEnd(s, k + 1);
      assert s[k..j] == [s[k]] + s[k + 1..j];
      j
    else k
  }

  /** `re.split(r'[;,\s]+', s)`: the pieces between maximal separator runs; a leading or
      trailing run gives an empty first or last piece. */
  function SepSplit(s: string): (parts: seq<string>)
    ensures |parts| >= 1
    ensures forall k :: 0 <= k < |parts| ==> NoSep(parts[k])
    decreases |s|
  {
    var i := FirstSepIndex(s);
    if i == |s| then
      assert s[..i] == s;
      [s]
    else
      var j := SepRunEnd(s, i);
      [s[..i]] + SepSplit(s[j..])
  }

  /** The separator runs `re.split` cuts at, in order: one fewer than the parts. */
  function SepRuns(s: string): (runs: seq<string>)
    ensures |runs| + 1 == |SepSplit(s)|
    decreases |s|
  {
    var i := FirstSepIndex(s);
    if i == |s| then []
    else
      var j := SepRunEnd(s, i);
      [s[i..j]] + SepRuns(s[j..])
  }

  /** The parts with the runs put back between them. */
  function Weave(parts: seq<string>, runs: seq<string>): string
    requires |runs| + 1 == |parts|
  {
    if |runs| == 0 then parts[0] else parts[0] + runs[0] + Weave(parts[1..], runs[1..])
  }

  /** `s` is cut exactly at its maximal separator runs: the parts hold no separator, the
      runs are non-empty and all separators, every part between two runs is non-empty
      (so no run could be longer), and weaving them back gives `s`. */
  predicate CutAtRuns(s: string, parts: seq<string>, runs: seq<string>) {
    |runs| + 1 == |parts| && Weave(parts, runs) == s
    && (forall k :: 0 <= k < |parts| ==> NoSep(parts[k]))
    && (forall k :: 0 <= k < |runs| ==> runs[k] != [] && AllSep(runs[k]))
    && (forall k :: 0 < k < |runs| ==> parts[k] != [])
  }

  /** The split cuts at exactly the maximal separator runs, and loses nothing: the
      separators come back between the parts. */
  lemma {:induction false} SepSplitCutsAtRuns(s: string)
    ensures CutAtRuns(s, SepSplit(s), SepRuns(s))
    decreases |s|
  {
    var i := FirstSepIndex(s);
    if i == |s| {
      assert s[..i] == s;
    } else {
      var t := s[SepRunEnd(s, i)..];
      SepSplitCutsAtRuns(t);
      SepSplitCutsStep(s, t);
    }
  }

  /** The inductive step: a cut of the text after the first run extends to the whole text. */
  lemma SepSplitCutsStep(s: string, t: string)
    requires FirstSepIndex(s) < |s| && t == s[SepRunEnd(s, FirstSepIndex(s))..]
    requires CutAtRuns(t, SepSplit(t), SepRuns(t))
    ensures CutAtRuns(s, SepSplit(s), SepRuns(s))
  {
    var i := FirstSepIndex(s);
    var j := SepRunEnd(s, i);
    assert t == [] || !IsSep(t[0]) by {
      if t != [] { assert t[0] == s[j]; }
    }
    FirstPartNonEmpty(t);
    SepSplitStep(s);
    SepRunsStep(s);
    CutAtRunsAt(s, i, j, SepSplit(t), SepRuns(t));
  }

  /** A cut of `s[j..]` extends to `s` when `s[..i]` is plain and `s[i..j]` a run. */
  lemma CutAtRunsAt(s: string, i: nat, j: nat, parts: seq<string>, runs: seq<string>)
    requires i < j <= |s| && NoSep(s[..i]) && AllSep(s[i..j])
    requires CutAtRuns(s[j..], parts, runs) && (|runs| > 0 ==> parts[0] != [])
    ensures CutAtRuns(s, [s[..i]] + parts, [s[i..j]] + runs)
  {
    CutAtRunsCons(s[..i], s[i..j], s[j..], parts, runs);
    assert s[..i] + s[i..j] + s[j..] == s;
  }

  lemma SepRunsStep(s: string)
    requires FirstSepIndex(s) < |s|
    ensures SepRuns(s) == [s[FirstSepIndex(s)..SepRunEnd(s, FirstSepIndex(s))]] + SepRuns(s[SepRunEnd(s, FirstSepIndex(s))..])
  {
  }

  /** After a maximal run the text is empty or starts with a non-separator, so a
      following cut has a non-empty part before it. */
  lemma FirstPartNonEmpty(t: string)
    requires t == [] || !IsSep(t[0])
    ensures |SepRuns(t)| > 0 ==> SepSplit(t)[0] != []
  {
    if |SepRuns(t)| > 0 {
      FirstSepIndexPositive(t);
    }
  }

  /** One more part and run in front of a cut text give a cut of the longer text. */
  lemma CutAtRunsCons(p: string, r: string, t: string, parts: seq<string>, runs: seq<string>)
    requires CutAtRuns(t, parts, runs)
    requires NoSep(p) && r != [] && AllSep(r)
    requires |runs| > 0 ==> parts[0] != []
    ensures CutAtRuns(p + r + t, [p] + parts, [r] + runs)
  {
    assert ([p] + parts)[1..] == parts;
    assert ([r] + runs)[1..] == runs;
  }

  /** A text starting with a non-separator has a non-empty first part. */
  lemma FirstSepIndexPositive(t: string)
    requires t != [] && !IsSep(t[0])
    ensures FirstSepIndex(t) > 0 && SepSplit(t)[0] != []
  {
  }

  /** `s` with every separator character deleted. */
  function RemoveSeps(s: string): (r: string)
    ensures NoSep(r)
  {
    if s == [] then []
    else
      var rest := RemoveSeps(s[1..]);
      if IsSep(s[0]) then rest else [s[0]] + rest
  }

  function Flatten(parts: seq<string>): string {
    if parts == [] then [] else parts[0] + Flatten(parts[1..])
  }

  lemma {:induction false} RemoveSepsConcat(a: string, b: string)
    ensures RemoveSeps(a + b) == RemoveSeps(a) + RemoveSeps(b)
  {
    if a == [] {
      assert a + b == b;
    } else {
      assert (a + b)[0] == a[0];
      assert (a + b)[1..] == a[1..] + b;
      RemoveSepsConcat(a[1..], b);
    }
  }

  lemma {:induction false} RemoveSepsOfPlain(a: string)
    requires NoSep(a)
    ensures RemoveSeps(a) == a
  {
    if a != [] {
      RemoveSepsOfPlain(a[1..]);
    }
  }

  lemma {:induction false} RemoveSepsOfSeps(a: string)
    requires AllSep(a)
    ensures RemoveSeps(a) == []
  {
    if a != [] {
      RemoveSepsOfSeps(a[1..]);
    }
  }

  /** The pieces put back together are the text without its separators: the split
      loses the separators and nothing else. */
  lemma {:induction false} FlattenSepSplit(s: string)
    ensures Flatten(SepSplit(s)) == RemoveSeps(s)
    decreases |s|
  {
    var i := FirstSepIndex(s);
    if i == |s| {
      assert s[..i] == s;
      RemoveSepsOfPlain(s);
      FlattenCons(s, []);
    } else {
      var j := SepRunEnd(s, i);
      SepSplitStep(s);
      FlattenCons(s[..i], SepSplit(s[j..]));
      FlattenSepSplit(s[j..]);
      RemoveSepsThree(s, i, j);
    }
  }

  /** One step of the split: the piece before the first separator run, then the split
      of what follows the run. */
  lemma SepSplitStep(s: string)
    requires FirstSepIndex(s) < |s|
    ensures SepSplit(s) == [s[..FirstSepIndex(s)]] + SepSplit(s[SepRunEnd(s, FirstSepIndex(s))..])
  {
  }

  lemma FlattenCons(a: string, rest: seq<string>)
    ensures Flatten([a] + rest) == a + Flatten(rest)
  {
    assert ([a] + rest)[1..] == rest;
  }

  /** A plain prefix followed by a separator run: only the prefix survives before the rest. */
  lemma RemoveSepsThree(s: string, i: nat, j: nat)
    requires i <= j <= |s| && NoSep(s[..i]) && AllSep(s[i..j])
    ensures RemoveSeps(s) == s[..i] + RemoveSeps(s[j..])
  {
    var a, b, c := s[..i], s[i..j], s[j..];
    assert s[i..] == b + c;
    assert s == a + s[i..];
    RemoveSepsConcat(a, b + c);
    RemoveSepsConcat(b, c);
    RemoveSepsOfPlain(a);
    RemoveSepsOfSeps(b);
  }

  /** A text without separators is a single piece. */
  lemma SepSplitPlain(s: string)
    requires NoSep(s)
    ensures SepSplit(s) == [s]
  {
    var i := FirstSepIndex(s);
    assert i == |s|;
  }

  /** The full name of the first token that is one of the eight codes, if any. */
  function FirstFullName(tokens: seq<string>): (r: Option<string>)
    ensures r.None? <==> NoCode(tokens)
    ensures r.Some? ==> exists i :: FirstCodeAt(tokens, i) && r.value == FullName(ParseCode(tokens[i]).value)
  {
    var codes := Map(tokens, ParseCode);
    match FirstFrom(codes, 0)
    case None => None
    case Some(c) =>
      var k :| 0 <= k < |codes| && codes[k] == Some(c) && forall j :: 0 <= j < k ==> codes[j].None?;
      assert FirstCodeAt(tokens, k);
      Some(FullName(c))
  }

  const Prefix: string := "secteurs_vent:"

  /** The text that gets tokenised: every `secteurs_vent:` removed, then stripped. */
  function Cleaned(ws: string): (r: string)
    ensures Trimmed(r)
    ensures !Contains(ws, Prefix) ==> r == Strip(ws)
    ensures StartsWith(ws, Prefix) && !Contains(ws[|Prefix|..], Prefix) ==> r == Strip(ws[|Prefix|..])
  {
    PrefixRemoval(ws);
    Strip(ReplaceAll(ws, Prefix, ""))
  }

  /** Removing the prefix: a text without it is left alone, and a text that starts with
      it and holds no other occurrence loses exactly that first one. */
  lemma PrefixRemoval(ws: string)
    ensures !Contains(ws, Prefix) ==> ReplaceAll(ws, Prefix, "") == ws
    ensures StartsWith(ws, Prefix) && !Contains(ws[|Prefix|..], Prefix) ==> ReplaceAll(ws, Prefix, "") == ws[|Prefix|..]
  {
    if !Contains(ws, Prefix) {
      ReplaceAllAbsent(ws, Prefix, "");
    } else if StartsWith(ws, Prefix) && !Contains(ws[|Prefix|..], Prefix) {
      ReplaceAllAbsent(ws[|Prefix|..], Prefix, "");
      assert ReplaceAll(ws, Prefix, "") == "" + ReplaceAll(ws[|Prefix|..], Prefix, "");
    }
  }

  /** The tokens of a wind-sector text: cleaned, then split on separator runs. */
  function Tokens(ws: string): (tokens: seq<string>)
    ensures |tokens| >= 1
  {
    SepSplit(Cleaned(ws))
  }

  /** No token is one of the eight codes. */
  predicate NoCode(tokens: seq<string>) {
    forall i :: 0 <= i < |tokens| ==> ParseCode(tokens[i]).None?
  }

  /** Token `i` is a code and no token before it is. */
  predicate FirstCodeAt(tokens: seq<string>, i: int) {
    0 <= i < |tokens| && ParseCode(tokens[i]).Some?
    && forall j :: 0 <= j < i ==> ParseCode(tokens[j]).None?
  }

  /** `get_orientation_from_wind_sector` as written: `orientations` is only bound when the
      cleaned text holds a `;`, so any other non-empty input raises `UnboundLocalError`. */
  function WindSectorAsWritten(ws: Option<string>): (r: Result<Option<string>>)
    ensures ws.None? || ws.value == "" ==> r == Ok(None)
    ensures r.Err? <==> ws.Some? && ws.value != "" && ';' !in Cleaned(ws.value)
    ensures r.Err? ==> r.error == UnboundLocal("orientations")
    ensures r.Ok? ==> r.value == WindSector(ws)
  {
    if ws.None? || ws.value == "" then Ok(None)
    else
      var cleaned := Cleaned(ws.value);
      if ';' !in cleaned then Err(UnboundLocal("orientations"))
      else
        Ok(FirstFullName(Tokens(ws.value)))
  }

  /** The lookup as evidently intended: the cleaned text is always tokenised. */
  function WindSector(ws: Option<string>): (r: Option<string>)
    ensures r.None? <==> ws.None? || ws.value == "" || NoCode(Tokens(ws.value))
    ensures r.Some? ==> exists i :: (FirstCodeAt(Tokens(ws.value), i)
      && r.value == FullName(ParseCode(Tokens(ws.value)[i]).value))
  {
    if ws.None? || ws.value == "" then None
    else FirstFullName(Tokens(ws.value))
  }

  /** A single code, the most common wind-sector text, makes the original raise; the
      intended lookup returns the code's full name. */
  lemma SingleCodeRaises()
    ensures WindSectorAsWritten(Some("N")) == Err(UnboundLocal("orientations"))
    ensures WindSector(Some("N")) == Some("Nord")
  {
    SingleCodeUnbound();
    SingleCodeNord();
  }

  /** The cleaned single code holds no `;`, so `orientations` is never bound. */
  lemma SingleCodeUnbound()
    ensures WindSectorAsWritten(Some("N")) == Err(UnboundLocal("orientations"))
  {
    CleanedSingleCode();
    assert ';' !in Cleaned("N") by {
      assert Cleaned("N") == ['N'];
    }
  }

  /** The single code is the one token, and it names the north. */
  lemma SingleCodeNord()
    ensures WindSector(Some("N")) == Some("Nord")
  {
    CleanedSingleCode();
    assert Tokens("N") == ["N"] by {
      assert NoSep("N") by { assert !IsSep('N'); }
      SepSplitPlain("N");
    }
    assert ParseCode("N") == Some(N) by {
      ParseCodeText(N);
    }
    FirstFullNameHead(["N"]);
  }

  lemma CleanedSingleCode()
    ensures Cleaned("N") == "N"
  {
    CleanedPlain("N");
  }

  /** A trimmed text without a lower-case `s` is left as it is by the cleaning. */
  lemma CleanedPlain(t: string)
    requires Trimmed(t) && forall i :: 0 <= i < |t| ==> t[i] != 's'
    ensures Cleaned(t) == t
  {
    forall i | 0 <= i <= |t| - |Prefix| ensures !OccursAt(t, Prefix, i) {
      assert t[i..i + |Prefix|][0] == t[i] && Prefix[0] == 's';
    }
    ReplaceAllAbsent(t, Prefix, "");
    StripOfTrimmed(t);
  }

  /** A first token that is a code decides the lookup. */
  lemma FirstFullNameHead(tokens: seq<string>)
    requires |tokens| >= 1 && ParseCode(tokens[0]).Some?
    ensures FirstFullName(tokens) == Some(FullName(ParseCode(tokens[0]).value))
  {
  }

  /** A trimmed text holding a `;` and no lower-case `s` is tokenised as it is. */
  lemma WindSectorOfPlain(ws: string)
    requires Trimmed(ws) && ';' in ws && forall i :: 0 <= i < |ws| ==> ws[i] != 's'
    ensures WindSectorAsWritten(Some(ws)) == Ok(FirstFullName(SepSplit(ws)))
  {
    CleanedPlain(ws);
  }

  /** Two codes separated by `;` give the first code's name: no averaging. */
  lemma FirstOfTwoCodes()
    ensures WindSectorAsWritten(Some("NO;S")) == Ok(Some("Nord-Ouest"))
  {
    TwoCodesTokenised();
    TwoCodesFirstName();
  }

  lemma TwoCodesTokenised()
    ensures WindSectorAsWritten(Some("NO;S")) == Ok(FirstFullName(["NO", "S"]))
  {
    TwoCodesPlain();
    WindSectorOfPlain("NO;S");
    SplitTwoCodes();
  }

  lemma TwoCodesPlain()
    ensures Trimmed("NO;S") && ';' in "NO;S" && forall i :: 0 <= i < |"NO;S"| ==> "NO;S"[i] != 's'
  {
    assert "NO;S"[2] == ';';
  }

  lemma TwoCodesFirstName()
    ensures FirstFullName(["NO", "S"]) == Some("Nord-Ouest")
  {
    ParseCodeText(NO);
    FirstFullNameHead(["NO", "S"]);
  }

  lemma SplitTwoCodes()
    ensures SepSplit("NO;S") == ["NO", "S"]
  {
    var t := "NO;S";
    assert FirstSepIndex("S") == 1;
    assert FirstSepIndex(";S") == 0;
    assert FirstSepIndex("O;S") == 1;
    assert FirstSepIndex(t) == 2;
    assert SepRunEnd(t, 3) == 3;
    assert SepRunEnd(t, 2) == 3;
    assert t[3..] == "S";
    assert t[..2] == "NO";
    assert SepSplit("S") == ["S"];
  }

  // ---------------------------------------------------------------------------
  // the suitability screen of main()

  const Paragliding: string := "parapente"
  const LandingOnly: string := "atterro"
  const Forbidden: string := "interdit"
  const PermanentlyClosed: string := "non praticable d\U{E9}finitivement"

  /** The condition at line 118, evaluated left to right: a missing `activite`, or a
      missing `statut` once the activity tests have not decided, raises `TypeError`. */
  function Unsuitable(s: Site): (r: Result<bool>)
    ensures r.Err? <==> s.activite.None? || (s.statut.None? && Contains(s.activite.value, Paragliding) && !Contains(s.activite.value, LandingOnly))
    ensures r.Err? ==> r.error == TypeError
    ensures r == Ok(false) <==> (s.activite.Some? && s.statut.Some?
      && Contains(s.activite.value, Paragliding) && !Contains(s.activite.value, LandingOnly)
      && !Contains(s.statut.value, Forbidden) && !Contains(s.statut.value, PermanentlyClosed))
  {
    if s.activite.None? then Err(TypeError)
    else
      var a := s.activite.value;
      if !Contains(a, Paragliding) || Contains(a, LandingOnly) then Ok(true)
      else if s.statut.None? then Err(TypeError)
      else Ok(Contains(s.statut.value, Forbidden) || Contains(s.statut.value, PermanentlyClosed))
  }

  /** What the loop does with one site. */
  datatype Step = Cleared | NoId | Fetch(id: string)

  function Classify(s: Site): (r: Result<Step>)
    ensures r.Err? <==> Unsuitable(s).Err?
    ensures r == Ok(Cleared) <==> Unsuitable(s) == Ok(true)
    ensures r.Ok? && r.value.Fetch? <==> Unsuitable(s) == Ok(false) && s.id.Some? && s.id.value != ""
    ensures r.Ok? && r.value.Fetch? ==> s.id == Some(r.value.id)
  {
    match Unsuitable(s)
    case Err(e) => Err(e)
    case Ok(true) => Ok(Cleared)
    case Ok(false) => if s.id.None? || s.id.value == "" then Ok(NoId) else Ok(Fetch(s.id.value))
  }

  /** What `extract_data_from_site` returns for a page it could read: the wind-sector
      text it stores under `secteurs_vent`, if it found one, and the other keys it sets
      (`latitude`, `longitude`, `altitude`). */
  datatype Details = Details(secteursVent: Option<string>, others: map<string, Json>)

  /** `site.update(details)`: every key of the details is added or overwritten, and
      nothing else changes. */
  function Update(s: Site, d: Details): (r: Site)
    ensures r.(secteursVent := s.secteursVent, extra := s.extra) == s
    ensures r.secteursVent == if d.secteursVent.Some? then d.secteursVent else s.secteursVent
    ensures forall k :: k in r.extra <==> k in s.extra || k in d.others
    ensures forall k :: k in d.others ==> r.extra[k] == d.others[k]
    ensures forall k :: k in s.extra && k !in d.others ==> r.extra[k] == s.extra[k]
  {
    s.(secteursVent := if d.secteursVent.Some? then d.secteursVent else s.secteursVent,
       extra := s.extra + d.others)
  }

  /** Whether a site's step raises: its test raised, or the fetch gave `None` and
      `site.update(None)` raises `TypeError`. `fetch` stands for
      `extract_data_from_site`. */
  predicate Raises(step: Result<Step>, fetch: string -> Option<Details>) {
    step.Err? || (step.value.Fetch? && fetch(step.value.id).None?)
  }

  /** The exception a raising step ends the loop with. */
  function Raised(step: Result<Step>): Error {
    if step.Err? then step.error else TypeError
  }

  /** What a step that does not raise does to its site. */
  function Apply(s: Site, step: Step, fetch: string -> Option<Details>): Site {
    match step
    case Cleared => EmptySite
    case NoId => s
    case Fetch(id) => if fetch(id).Some? then Update(s, fetch(id).value) else s
  }

  /** The state the loop leaves: the in-memory list, the ids it fetched in order, and the
      exception that stopped it, if any. */
  datatype Screening = Screening(sites: seq<Site>, fetched: seq<string>, error: Option<Error>)

  /** The main loop without the file append: unsuitable sites become `{}` in place,
      suitable ones without an id are skipped, the others are fetched and updated with
      their details. An exception stops the loop and leaves the remaining sites as they
      were. */
  function ScreenSites(sites: seq<Site>, fetch: string -> Option<Details>): (r: Screening)
    ensures |r.sites| == |sites| && |r.fetched| <= |sites|
    ensures r.error.None? <==> forall i :: 0 <= i < |sites| ==> !Raises(Classify(sites[i]), fetch)
    ensures forall i :: 0 <= i < |sites| ==> (r.sites[i] == sites[i]
      || (!Raises(Classify(sites[i]), fetch) && r.sites[i] == Apply(sites[i], Classify(sites[i]).value, fetch)))
    ensures forall i :: 0 <= i < |sites| && Classify(sites[i]) == Ok(NoId) ==> r.sites[i] == sites[i]
    ensures r.error.None? ==> forall i :: 0 <= i < |sites| ==> r.sites[i] == Apply(sites[i], Classify(sites[i]).value, fetch)
  {
    var steps := ClassifyEach(sites);
    ScreenErrorIff(sites, steps, fetch);
    ScreenKeeps(sites, steps, fetch);
    ScreenApplies(sites, steps, fetch);
    Screen(sites, steps, fetch)
  }

  /** Each site's step, in order. */
  function ClassifyEach(sites: seq<Site>): (steps: seq<Result<Step>>)
    ensures |steps| == |sites| && forall i :: 0 <= i < |sites| ==> steps[i] == Classify(sites[i])
  {
    seq(|sites|, i requires 0 <= i < |sites| => Classify(sites[i]))
  }

  /** The loop over the sites with their steps already worked out. */
  function Screen(sites: seq<Site>, steps: seq<Result<Step>>, fetch: string -> Option<Details>): (r: Screening)
    requires |steps| == |sites|
    ensures |r.sites| == |sites| && |r.fetched| <= |sites|
  {
    if sites == [] then Screening([], [], None)
    else
      var rest := Screen(sites[1..], steps[1..], fetch);
      match steps[0]
      case Err(e) => Screening(sites, [], Some(e))
      case Ok(Cleared) => Screening([EmptySite] + rest.sites, rest.fetched, rest.error)
      case Ok(NoId) => Screening([sites[0]] + rest.sites, rest.fetched, rest.error)
      case Ok(Fetch(id)) =>
        if fetch(id).None? then Screening(sites, [id], Some(TypeError))
        else Screening([Update(sites[0], fetch(id).value)] + rest.sites, [id] + rest.fetched, rest.error)
  }

  /** The loop ends without an exception exactly when no step raises. */
  lemma {:induction false} ScreenErrorIff(sites: seq<Site>, steps: seq<Result<Step>>, fetch: string -> Option<Details>)
    requires |steps| == |sites|
    ensures Screen(sites, steps, fetch).error.None? <==> forall i :: 0 <= i < |sites| ==> !Raises(steps[i], fetch)
  {
    if sites != [] {
      ScreenErrorIff(sites[1..], steps[1..], fetch);
      assert forall i :: 1 <= i < |sites| ==> steps[i] == steps[1..][i - 1];
    }
  }

  /** Every site is either left as it was or given its step's effect, and a site
      without an id is always left as it was. */
  lemma {:induction false} ScreenKeeps(sites: seq<Site>, steps: seq<Result<Step>>, fetch: string -> Option<Details>)
    requires |steps| == |sites|
    ensures forall i :: 0 <= i < |sites| ==> (Screen(sites, steps, fetch).sites[i] == sites[i]
      || (!Raises(steps[i], fetch) && Screen(sites, steps, fetch).sites[i] == Apply(sites[i], steps[i].value, fetch)))
    ensures forall i :: 0 <= i < |sites| && steps[i] == Ok(NoId) ==> Screen(sites, steps, fetch).sites[i] == sites[i]
  {
    if sites != [] {
      ScreenHead(sites, steps, fetch);
      ScreenKeeps(sites[1..], steps[1..], fetch);
      assert forall i :: 1 <= i < |sites| ==> sites[i] == sites[1..][i - 1] && steps[i] == steps[1..][i - 1];
    }
  }

  /** When no step raises, every site is given its step's effect: cleared sites are
      emptied, fetched ones updated. */
  lemma {:induction false} ScreenApplies(sites: seq<Site>, steps: seq<Result<Step>>, fetch: string -> Option<Details>)
    requires |steps| == |sites|
    ensures Screen(sites, steps, fetch).error.None? ==>
      forall i :: 0 <= i < |sites| ==> steps[i].Ok? && Screen(sites, steps, fetch).sites[i] == Apply(sites[i], steps[i].value, fetch)
  {
    if sites != [] {
      ScreenHead(sites, steps, fetch);
      ScreenApplies(sites[1..], steps[1..], fetch);
      assert forall i :: 1 <= i < |sites| ==> sites[i] == sites[1..][i - 1] && steps[i] == steps[1..][i - 1];
    }
  }

  /** The whole run when the first raising step is at `k` (or none raises, `k` being
      the length): the sites before `k` have been handled, the others are as they were,
      and the loop ends with that step's exception. */
  lemma {:induction false} ScreenStopsAt(sites: seq<Site>, steps: seq<Result<Step>>, fetch: string -> Option<Details>, k: nat)
    requires |steps| == |sites| && k <= |sites|
    requires forall j :: 0 <= j < k ==> !Raises(steps[j], fetch)
    requires k < |sites| ==> Raises(steps[k], fetch)
    ensures forall i :: 0 <= i < k ==> steps[i].Ok? && Screen(sites, steps, fetch).sites[i] == Apply(sites[i], steps[i].value, fetch)
    ensures forall i :: k <= i < |sites| ==> Screen(sites, steps, fetch).sites[i] == sites[i]
    ensures Screen(sites, steps, fetch).error == if k == |sites| then None else Some(Raised(steps[k]))
  {
    if sites != [] {
      var r := Screen(sites, steps, fetch);
      ScreenHead(sites, steps, fetch);
      if k > 0 {
        var rest := Screen(sites[1..], steps[1..], fetch);
        assert forall j :: 0 <= j < k - 1 ==> steps[1..][j] == steps[j + 1];
        ScreenStopsAt(sites[1..], steps[1..], fetch, k - 1);
        forall i | 1 <= i < |sites|
          ensures r.sites[i] == rest.sites[i - 1] && sites[i] == sites[1..][i - 1] && steps[i] == steps[1..][i - 1]
        {
        }
      }
    }
  }

  /** The loop's first round: a raising step stops it with the sites untouched, any
      other step applies its effect and the loop goes on with the rest. */
  lemma ScreenHead(sites: seq<Site>, steps: seq<Result<Step>>, fetch: string -> Option<Details>)
    requires |steps| == |sites| && sites != []
    ensures Raises(steps[0], fetch) ==> (Screen(sites, steps, fetch).sites == sites
      && Screen(sites, steps, fetch).error == Some(Raised(steps[0])))
    ensures !Raises(steps[0], fetch) ==> (Screen(sites, steps, fetch).error == Screen(sites[1..], steps[1..], fetch).error
      && Screen(sites, steps, fetch).sites == [Apply(sites[0], steps[0].value, fetch)] + Screen(sites[1..], steps[1..], fetch).sites)
  {
    var r, rest := Screen(sites, steps, fetch), Screen(sites[1..], steps[1..], fetch);
    match steps[0]
    case Err(e) =>
    case Ok(Cleared) =>
      assert r.sites == [EmptySite] + rest.sites;
    case Ok(NoId) =>
      assert r.sites == [sites[0]] + rest.sites;
    case Ok(Fetch(id)) =>
      if fetch(id).Some? {
        assert r.sites == [Update(sites[0], fetch(id).value)] + rest.sites;
      }
  }

  /** The ids fetched are, in order, those of the suitable sites that have a non-empty id. */
  function FetchIds(sites: seq<Site>): (ids: seq<string>)
    ensures |ids| <= |sites|
  {
    if sites == [] then []
    else
      var rest := FetchIds(sites[1..]);
      match Classify(sites[0])
      case Ok(Fetch(id)) => [id] + rest
      case _ => rest
  }

  /** Without an exception the loop fetches exactly the reference list of ids. */
  lemma ScreenFetchesIds(sites: seq<Site>, fetch: string -> Option<Details>)
    requires ScreenSites(sites, fetch).error.None?
    ensures ScreenSites(sites, fetch).fetched == FetchIds(sites)
  {
    ScreenFetches(sites, ClassifyEach(sites), fetch);
  }

  lemma {:induction false} ScreenFetches(sites: seq<Site>, steps: seq<Result<Step>>, fetch: string -> Option<Details>)
    requires |steps| == |sites| && forall i :: 0 <= i < |sites| ==> steps[i] == Classify(sites[i])
    requires Screen(sites, steps, fetch).error.None?
    ensures Screen(sites, steps, fetch).fetched == FetchIds(sites)
  {
    if sites != [] {
      assert forall i :: 1 <= i < |sites| ==> sites[i] == sites[1..][i - 1] && steps[i] == steps[1..][i - 1];
      ScreenFetches(sites[1..], steps[1..], fetch);
    }
  }

  /** A site that is cleared stays in the list as `{}`; one with a missing `activite` stops the loop. */
  lemma ClearedSiteStays(s: Site, t: Site, fetch: string -> Option<Details>)
    requires Unsuitable(s) == Ok(true) && t.activite.None?
    ensures ScreenSites([s, t], fetch) == Screening([EmptySite, t], [], Some(TypeError))
  {
    var steps := ClassifyEach([s, t]);
    assert steps == [Ok(Cleared), Err(TypeError)];
    assert [s, t][1..] == [t];
    assert steps[1..] == [Err(TypeError)];
    assert Screen([t], [Err(TypeError)], fetch) == Screening([t], [], Some(TypeError));
    assert Screen([s, t], steps, fetch) == Screening([EmptySite] + [t], [], Some(TypeError));
    assert [EmptySite] + [t] == [EmptySite, t];
  }

  /** A suitable site whose detail fetch fails stops the loop with `TypeError` from
      `site.update(None)`, after the fetch; the site itself is left as it was. */
  lemma FailedFetchStops(s: Site, fetch: string -> Option<Details>)
    requires Classify(s).Ok? && Classify(s).value.Fetch? && fetch(Classify(s).value.id).None?
    ensures ScreenSites([s], fetch) == Screening([s], [Classify(s).value.id], Some(TypeError))
  {
    var steps := ClassifyEach([s]);
    assert steps == [Classify(s)];
  }

  // ---------------------------------------------------------------------------
  // altitude

  const AltitudeWord: string := "Altitude"

  /** `Altitude\s*:\s*(\d+)` matched at index `i`, with the value of its digits. */
  function AltitudeAt(s: string, i: nat): (r: Option<nat>)
    ensures r.Some? ==> OccursAt(s, AltitudeWord, i)
  {
    if !OccursAt(s, AltitudeWord, i) then None
    else
      var j := SpaceRunEnd(s, i + |AltitudeWord|);
      if j == |s| || s[j] != ':' then None
      else
        var k := SpaceRunEnd(s, j + 1);
        var e := DigitRunEnd(s, k);
        if e == k then None else Some(DigitsValue(s[k..e]))
  }

  /** `re.search` from index `i` on: the leftmost match. */
  function AltitudeFrom(s: string, i: nat): (r: Option<nat>)
    ensures r.None? <==> forall k :: i <= k <= |s| ==> AltitudeAt(s, k).None?
    ensures r.Some? ==> exists k :: (i <= k <= |s| && AltitudeAt(s, k) == r
      && forall j :: i <= j < k ==> AltitudeAt(s, j).None?)
    decreases |s| - i
  {
    if i > |s| then None
    else if AltitudeAt(s, i).Some? then AltitudeAt(s, i)
    else
      var r := AltitudeFrom(s, i + 1);
      assert forall k :: i < k <= |s| + 1 && k > |s| ==> AltitudeAt(s, k).None?;
      r
  }

  /** The altitude of the altitude block's text, when the pattern matches. */
  function ParseAltitude(text: string): (r: Option<nat>)
    ensures r.None? <==> forall k :: 0 <= k <= |text| ==> AltitudeAt(text, k).None?
    ensures r.Some? ==> exists k :: (0 <= k <= |text| && AltitudeAt(text, k) == r
      && forall j :: 0 <= j < k ==> AltitudeAt(text, j).None?)
  {
    AltitudeFrom(text, 0)
  }

  /**
   * `Altitude\s*:\s*(\d+)` matches at `i`: the word at `i`, whitespace up to
   * the colon at `j`, whitespace up to `k`, and one or more digits `s[k..e]`.
   */
  predicate AltitudeMatch(s: string, i: int, j: int, k: int, e: int) {
    OccursAt(s, AltitudeWord, i) && i + |AltitudeWord| <= j && j + 1 <= k < e <= |s|
    && AllSpaces(s[i + |AltitudeWord|..j]) && s[j] == ':' && AllSpaces(s[j + 1..k])
    && AllDigits(s[k..e])
  }

  /**
   * The scanner finds a value at `i` exactly when the pattern matches there,
   * and the value is that of the greedy (maximal) run of digits.
   */
  lemma AltitudeAtMeans(s: string, i: nat)
    ensures AltitudeAt(s, i).Some? <==> exists j, k, e :: AltitudeMatch(s, i, j, k, e)
    ensures AltitudeAt(s, i).Some? ==> exists j, k, e :: (AltitudeMatch(s, i, j, k, e)
      && (e == |s| || !IsDigit(s[e])) && AltitudeAt(s, i) == Some(DigitsValue(s[k..e])))
    ensures forall j, k, e :: (AltitudeMatch(s, i, j, k, e) && (e == |s| || !IsDigit(s[e]))
      ==> AltitudeAt(s, i) == Some(DigitsValue(s[k..e])))
  {
    if AltitudeAt(s, i).Some? {
      var j := SpaceRunEnd(s, i + |AltitudeWord|);
      var k := SpaceRunEnd(s, j + 1);
      var e := DigitRunEnd(s, k);
      assert AltitudeMatch(s, i, j, k, e);
    }
    forall j, k, e | AltitudeMatch(s, i, j, k, e)
      ensures AltitudeAt(s, i).Some?
      ensures (e == |s| || !IsDigit(s[e])) ==> AltitudeAt(s, i) == Some(DigitsValue(s[k..e]))
    {
      SpaceRunEndAt(s, i + |AltitudeWord|, j);
      assert IsDigit(s[k]) by { assert s[k..e][0] == s[k]; }
      SpaceRunEndAt(s, j + 1, k);
      if e == |s| || !IsDigit(s[e]) {
        DigitRunEndAt(s, k, e);
      }
    }
  }

  /**
   * `re.search` from `i` on, stated without the scanner: no value when the
   * pattern matches nowhere from `i`; otherwise the value of the greedy digit
   * run of a match, with no match starting earlier.
   */
  lemma AltitudeFromMeans(s: string, i: nat)
    ensures AltitudeFrom(s, i).None? <==> forall p, j, k, e :: i <= p ==> !AltitudeMatch(s, p, j, k, e)
    ensures AltitudeFrom(s, i).Some? ==> exists p, j, k, e :: (i <= p && AltitudeMatch(s, p, j, k, e)
      && (e == |s| || !IsDigit(s[e])) && AltitudeFrom(s, i) == Some(DigitsValue(s[k..e]))
      && forall q, j', k', e' :: i <= q < p ==> !AltitudeMatch(s, q, j', k', e'))
  {
    forall p, j, k, e | i <= p && AltitudeMatch(s, p, j, k, e)
      ensures AltitudeFrom(s, i).Some?
    {
      AltitudeAtMeans(s, p);
    }
    if AltitudeFrom(s, i).Some? {
      var p :| i <= p <= |s| && AltitudeAt(s, p) == AltitudeFrom(s, i)
        && forall q :: i <= q < p ==> AltitudeAt(s, q).None?;
      AltitudeAtMeans(s, p);
      forall q, j', k', e' | i <= q < p
        ensures !AltitudeMatch(s, q, j', k', e')
      {
        AltitudeAtMeans(s, q);
      }
    } else {
      forall p, j, k, e | i <= p
        ensures !AltitudeMatch(s, p, j, k, e)
      {
        if p <= |s| {
          AltitudeAtMeans(s, p);
        }
      }
    }
  }

  /**
   * The altitude read from a text, stated without the scanner: the value of
   * the leftmost match's greedy digit run, or none when nothing matches.
   */
  lemma ParseAltitudeMeans(text: string)
    ensures ParseAltitude(text).None? <==> forall p, j, k, e :: !AltitudeMatch(text, p, j, k, e)
    ensures ParseAltitude(text).Some? ==> exists p, j, k, e :: (AltitudeMatch(text, p, j, k, e)
      && (e == |text| || !IsDigit(text[e])) && ParseAltitude(text) == Some(DigitsValue(text[k..e]))
      && forall q, j', k', e' :: q < p ==> !AltitudeMatch(text, q, j', k', e'))
  {
    AltitudeFromMeans(text, 0);
  }

  /** `Altitude : ` followed by a digit string matches at the start, with that value. */
  lemma AltitudeAtStart(digits: string)
    requires digits != [] && AllDigits(digits)
    ensures AltitudeAt("Altitude : " + digits, 0) == Some(DigitsValue(digits))
  {
    var s := "Altitude : " + digits;
    assert OccursAt(s, AltitudeWord, 0) by {
      assert s[..8] == AltitudeWord;
    }
    assert SpaceRunEnd(s, 8) == 9 && s[9] == ':' && SpaceRunEnd(s, 10) == 11 by {
      assert s[8] == ' ' && s[9] == ':' && s[10] == ' ' && s[11] == digits[0];
      assert IsDigit(s[11]);
      assert SpaceRunEnd(s, 9) == 9;
      assert SpaceRunEnd(s, 11) == 11;
    }
    assert DigitRunEnd(s, 11) == |s| && s[11..|s|] == digits by {
      assert s[11..] == digits;
      assert forall i :: 11 <= i < |s| ==> s[i] == digits[i - 11];
    }
  }

  /** A rendered altitude is read back: `Altitude : <n>` gives `n`. */
  lemma ParseAltitudeShow(n: nat)
    ensures ParseAltitude("Altitude : " + ShowNat(n)) == Some(n)
  {
    AltitudeAtStart(ShowNat(n));
    DigitsValueShowNat(n);
  }
}

=== FILE: SiteDirectory.dfy ===
/** tools/_1-analyseffvl.py over an abstract document: the site id taken from a
    terrain link, the `Name [CODE]` split, and one site record per terrain link
    found inside a table row of at least five cells. */
module SiteDirectory {
  import opened Common
  import opened Text
  import opened Records
  import opened Seqs

  const TerrainPath: string := "/terrain/"

  // ---------------------------------------------------------------------------
  // extract_site_id

  /** `/terrain/(\d+)` matched at index `i`: the greedy digit run after the path. */
  function TerrainAt(h: string, i: int): (r: Option<string>)
    ensures r.Some? ==> OccursAt(h, TerrainPath, i) && r.value != [] && AllDigits(r.value)
  {
    if OccursAt(h, TerrainPath, i) && i + |TerrainPath| < |h| && IsDigit(h[i + |TerrainPath|]) then
      var k := i + |TerrainPath|;
      Some(h[k..DigitRunEnd(h, k)])
    else None
  }

  /** A match is the path followed by its digits, inside the link. */
  lemma TerrainAtContains(h: string, i: int)
    requires TerrainAt(h, i).Some?
    ensures Contains(h, TerrainPath + TerrainAt(h, i).value)
  {
    var k := i + |TerrainPath|;
    var e := DigitRunEnd(h, k);
    assert h[i..e] == h[i..k] + h[k..e];
    assert OccursAt(h, TerrainPath + TerrainAt(h, i).value, i);
  }

  /** `/terrain/(\d+)` matches at `i`: the path at `i` followed by one or more
      digits `h[i + |TerrainPath|..e]`. */
  predicate TerrainMatch(h: string, i: int, e: int) {
    OccursAt(h, TerrainPath, i) && i + |TerrainPath| < e <= |h| && AllDigits(h[i + |TerrainPath|..e])
  }

  /** The scanner finds digits at `i` exactly when the pattern matches there, and
      they are the greedy (maximal) run. */
  lemma TerrainAtMeans(h: string, i: int)
    ensures TerrainAt(h, i).Some? <==> exists e :: TerrainMatch(h, i, e)
    ensures TerrainAt(h, i).Some? ==> exists e :: (TerrainMatch(h, i, e)
      && (e == |h| || !IsDigit(h[e])) && TerrainAt(h, i) == Some(h[i + |TerrainPath|..e]))
    ensures forall e :: (TerrainMatch(h, i, e) && (e == |h| || !IsDigit(h[e]))
      ==> TerrainAt(h, i) == Some(h[i + |TerrainPath|..e]))
  {
    var k := i + |TerrainPath|;
    if TerrainAt(h, i).Some? {
      assert TerrainMatch(h, i, DigitRunEnd(h, k));
    }
    forall e | TerrainMatch(h, i, e)
      ensures TerrainAt(h, i).Some?
      ensures (e == |h| || !IsDigit(h[e])) ==> TerrainAt(h, i) == Some(h[k..e])
    {
      assert IsDigit(h[k]) by { assert h[k..e][0] == h[k]; }
      if e == |h| || !IsDigit(h[e]) {
        DigitRunEndAt(h, k, e);
      }
    }
  }

  /** `extract_site_id` stated without the scanner: nothing when the pattern
      matches nowhere; otherwise the greedy digit run of a match with no match
      starting earlier. */
  lemma ExtractSiteIdMeans(h: string)
    ensures ExtractSiteId(h).None? <==> forall p, e :: !TerrainMatch(h, p, e)
    ensures ExtractSiteId(h).Some? ==> exists p, e :: (TerrainMatch(h, p, e)
      && (e == |h| || !IsDigit(h[e])) && ExtractSiteId(h) == Some(h[p + |TerrainPath|..e])
      && forall q, e' :: q < p ==> !TerrainMatch(h, q, e'))
  {
    forall p, e | TerrainMatch(h, p, e)
      ensures ExtractSiteId(h).Some?
    {
      TerrainAtMeans(h, p);
    }
    if ExtractSiteId(h).Some? {
      var p :| 0 <= p <= |h| && TerrainAt(h, p) == ExtractSiteId(h)
        && forall q :: 0 <= q < p ==> TerrainAt(h, q).None?;
      TerrainAtMeans(h, p);
      forall q, e' | q < p
        ensures !TerrainMatch(h, q, e')
      {
        TerrainAtMeans(h, q);
      }
    } else {
      forall p, e
        ensures !TerrainMatch(h, p, e)
      {
        if 0 <= p <= |h| {
          TerrainAtMeans(h, p);
        }
      }
    }
  }

  /** The match, or its absence, at every index of the link. */
  function TerrainMatches(h: string): (ms: seq<Option<string>>)
    ensures |ms| == |h| + 1 && forall k :: 0 <= k <= |h| ==> ms[k] == TerrainAt(h, k)
  {
    seq(|h| + 1, k requires 0 <= k <= |h| => TerrainAt(h, k))
  }

  /** `extract_site_id(href)`: the digits of the leftmost `/terrain/` that is followed
      by a digit. */
  function ExtractSiteId(h: string): (r: Option<string>)
    ensures r.None? <==> forall k :: 0 <= k <= |h| ==> TerrainAt(h, k).None?
    ensures r.Some? ==> exists k :: (0 <= k <= |h| && TerrainAt(h, k) == r
      && forall j :: 0 <= j < k ==> TerrainAt(h, j).None?)
    ensures r.Some? ==> r.value != [] && AllDigits(r.value) && Contains(h, TerrainPath + r.value)
  {
    FirstMatchContains(h);
    FirstFrom(TerrainMatches(h), 0)
  }

  /** What the search finds occurs in the link, after the path. */
  lemma FirstMatchContains(h: string)
    ensures var r := FirstFrom(TerrainMatches(h), 0);
      r.Some? ==> r.value != [] && AllDigits(r.value) && Contains(h, TerrainPath + r.value)
  {
    var ms := TerrainMatches(h);
    var r := FirstFrom(ms, 0);
    if r.Some? {
      var k :| 0 <= k < |ms| && ms[k] == r && forall j :: 0 <= j < k ==> ms[j].None?;
      TerrainAtContains(h, k);
    }
  }

  /** A link whose path ends in `/terrain/<digits>` gives those digits. */
  lemma ExtractSiteIdOfLink(base: string, digits: string)
    requires digits != [] && AllDigits(digits)
    requires !Contains(base, "/")
    ensures ExtractSiteId(base + TerrainPath + digits) == Some(digits)
  {
    var h := base + TerrainPath + digits;
    var k := |base|;
    forall j | 0 <= j < k ensures TerrainAt(h, j).None? {
      assert base[j] != '/' by {
        assert !OccursAt(base, "/", j);
        assert base[j..j + 1] == [base[j]];
      }
      assert h[j] == base[j];
      assert !OccursAt(h, TerrainPath, j) by {
        assert j + |TerrainPath| <= |h| ==> h[j..j + |TerrainPath|][0] == h[j];
      }
    }
    assert h[k..k + |TerrainPath|] == TerrainPath;
    assert h[k + |TerrainPath|..] == digits;
    assert DigitRunEnd(h, k + |TerrainPath|) == |h| by {
      assert forall i :: k + |TerrainPath| <= i < |h| ==> h[i] == digits[i - k - |TerrainPath|];
    }
    assert OccursAt(h, TerrainPath, k);
    assert IsDigit(h[k + |TerrainPath|]) by {
      assert h[k + |TerrainPath|] == digits[0];
    }
    assert h[k + |TerrainPath|..|h|] == digits;
    assert TerrainAt(h, k) == Some(digits);
    var ms := TerrainMatches(h);
    FirstFromSkips(ms, 0, k);
  }

  /** `soup.find_all('a', href=re.compile(r'/terrain/\d+'))` keeps exactly these anchors. */
  predicate IsTerrainLink(a: Anchor) {
    a.href.Some? && ExtractSiteId(a.href.value).Some?
  }

  // ---------------------------------------------------------------------------
  // re.search(r'(.*?)\s*\[(.*?)\]', name)

  /** The lazy `(.*?)\]` from index `k`: the first `]` before any newline. */
  function CloseFrom(s: string, k: nat): (t: Option<nat>)
    ensures t.Some? ==> (k <= t.value < |s| && s[t.value] == ']'
      && forall j :: k <= j < t.value ==> s[j] != ']' && s[j] != '\n')
    decreases |s| - k
  {
    if k >= |s| then None
    else if s[k] == ']' then Some(k)
    else if s[k] == '\n' then None
    else CloseFrom(s, k + 1)
  }

  /** `\s*\[(.*?)\]` matched at index `q`: the index of `[` and of `]`. */
  function TailAt(s: string, q: nat): (r: Option<(nat, nat)>)
    requires q <= |s|
    ensures r.Some? ==> q <= r.value.0 < r.value.1 < |s| && s[r.value.0] == '[' && s[r.value.1] == ']'
  {
    var b := SpaceRunEnd(s, q);
    if b < |s| && s[b] == '[' then
      match CloseFrom(s, b + 1)
      case Some(t) => Some((b, t))
      case None => None
    else None
  }

  /** The lazy `(.*?)` of the first group, begun at some start and now ending at `q`:
      it grows one character at a time and cannot take a newline. */
  function LazyFrom(s: string, q: nat): (r: Option<(nat, nat, nat)>)
    requires q <= |s|
    ensures r.Some? ==> (q <= r.value.0 <= r.value.1 < r.value.2 < |s|
      && s[r.value.1] == '[' && s[r.value.2] == ']')
    decreases |s| - q
  {
    match TailAt(s, q)
    case Some((b, t)) => Some((q, b, t))
    case None =>
      if q == |s| || s[q] == '\n' then None else LazyFrom(s, q + 1)
  }

  /** `re.search`: the first start position from `p` on where the pattern matches. */
  function SearchFrom(s: string, p: nat): (r: Option<(nat, nat, nat, nat)>)
    requires p <= |s|
    ensures r.Some? ==> (p <= r.value.0 <= r.value.1 <= r.value.2 < r.value.3 < |s|
      && s[r.value.2] == '[' && s[r.value.3] == ']')
    decreases |s| - p
  {
    match LazyFrom(s, p)
    case Some((q, b, t)) => Some((p, q, b, t))
    case None => if p == |s| then None else SearchFrom(s, p + 1)
  }

  /** The two groups of the bracket pattern, when it matches. */
  function BracketGroups(s: string): (r: Option<(string, string)>) {
    match SearchFrom(s, 0)
    case Some((p, q, b, t)) => Some((s[p..q], s[b + 1..t]))
    case None => None
  }

  /** Without any `[` the pattern cannot match. */
  lemma NoBracketNoMatch(s: string)
    requires '[' !in s
    ensures BracketGroups(s).None?
  {
    assert forall b :: 0 <= b < |s| ==> s[b] != '[' by {
      forall b | 0 <= b < |s| ensures s[b] != '[' {
        assert s[b] in s;
      }
    }
  }

  /** The lazy group skips positions from which the rest cannot match. */
  lemma {:induction false} LazyFromSkips(s: string, q: nat, q0: nat)
    requires q <= q0 <= |s|
    requires forall j :: q <= j < q0 ==> TailAt(s, j).None? && s[j] != '\n'
    ensures LazyFrom(s, q) == LazyFrom(s, q0)
    decreases q0 - q
  {
    if q < q0 {
      LazyFromSkips(s, q + 1, q0);
    }
  }

  /** On a one-line name whose first `[` is at `b` and whose first `]` after it is at
      `c`, the groups are the text before `b` without its trailing blanks, and the
      text between `b` and `c`. */
  lemma BracketOneLine(s: string, b: nat, c: nat)
    requires '\n' !in s
    requires b < c < |s| && s[b] == '[' && s[c] == ']'
    requires '[' !in s[..b] && ']' !in s[b + 1..c]
    ensures BracketGroups(s) == Some((TrimEnd(s[..b]), s[b + 1..c]))
  {
    var g := TrimEnd(s[..b]);
    var q0 := |g|;
    assert AllSpaces(s[q0..b]) by {
      assert s[q0..b] == s[..b][q0..];
    }
    assert SpaceRunEnd(s, q0) == b by {
      SpaceRunFrom(s, q0, b);
    }
    assert CloseFrom(s, b + 1) == Some(c) by {
      CloseFromSkips(s, b + 1, c);
    }
    assert TailAt(s, q0) == Some((b, c));
    assert q0 > 0 ==> !IsSpace(s[q0 - 1]) by {
      if q0 > 0 {
        assert g[q0 - 1] == s[..b][q0 - 1] == s[q0 - 1];
      }
    }
    NoTailBefore(s, q0, b);
    LazyFromSkips(s, 0, q0);
    assert s[0..q0] == g;
  }

  /** In a one-line text with no `[` before `b`, no start before `q0` (the end of the
      non-blank text before `b`) reaches a `[` through blanks. */
  lemma NoTailBefore(s: string, q0: nat, b: nat)
    requires q0 <= b <= |s| && '\n' !in s && '[' !in s[..b]
    requires q0 > 0 ==> !IsSpace(s[q0 - 1])
    ensures forall j :: 0 <= j < q0 ==> TailAt(s, j).None? && s[j] != '\n'
  {
    forall j | 0 <= j < q0 ensures TailAt(s, j).None? && s[j] != '\n' {
      assert s[j] in s;
      var e := SpaceRunEnd(s, j);
      assert e < q0 by {
        assert forall i :: j <= i < e ==> s[j..e][i - j] == s[i];
      }
      assert s[e] in s[..b] by {
        assert s[..b][e] == s[e];
      }
    }
  }

  /** A run of blanks from `q` that stops at a non-blank `b` is where `\s*` stops. */
  lemma {:induction false} SpaceRunFrom(s: string, q: nat, b: nat)
    requires q <= b < |s| && AllSpaces(s[q..b]) && !IsSpace(s[b])
    ensures SpaceRunEnd(s, q) == b
    decreases b - q
  {
    if q < b {
      assert s[q] == s[q..b][0];
      assert s[q + 1..b] == s[q..b][1..];
      SpaceRunFrom(s, q + 1, b);
    }
  }

  lemma {:induction false} CloseFromSkips(s: string, k: nat, c: nat)
    requires k <= c < |s| && s[c] == ']'
    requires forall j :: k <= j < c ==> s[j] != ']' && s[j] != '\n'
    ensures CloseFrom(s, k) == Some(c)
    decreases c - k
  {
    if k < c {
      CloseFromSkips(s, k + 1, c);
    }
  }

  /** `site_name, site_code` from a stripped link text and the id: the bracket split when
      the pattern matches, otherwise the name itself and the id as code. */
  function SplitName(name: string, id: Option<string>): (r: (string, Option<string>))
    ensures BracketGroups(name).None? ==> r == (name, id)
    ensures BracketGroups(name).Some? ==> r.1.Some? && Trimmed(r.0) && Trimmed(r.1.value)
  {
    match BracketGroups(name)
    case Some((g1, g2)) => (Strip(g1), Some(Strip(g2)))
    case None => (name, id)
  }

  /** The split of a one-line `Name [CODE] tail`: the name is the stripped text before the
      first `[`, the code the stripped text up to the next `]`, the tail is dropped. */
  lemma SplitNameOneLine(name: string, id: Option<string>, b: nat, c: nat)
    requires '\n' !in name
    requires b < c < |name| && name[b] == '[' && name[c] == ']'
    requires '[' !in name[..b] && ']' !in name[b + 1..c]
    ensures SplitName(name, id) == (Strip(name[..b]), Some(Strip(name[b + 1..c])))
  {
    BracketOneLine(name, b, c);
    StripTrimEnd(name[..b]);
  }

  // ---------------------------------------------------------------------------
  // parse_html_to_json

  /** The parts of the document that matter: a table row with its cells, or a link that
      has no enclosing row. */
  datatype Node = RowNode(cells: seq<Cell>) | Stray(anchor: Anchor)

  /** The number of terrain links inside a row, over all its cells. */
  function TerrainCount(cells: seq<Cell>): nat {
    if cells == [] then 0
    else CountLinks(cells[0].anchors) + TerrainCount(cells[1..])
  }

  function CountLinks(anchors: seq<Anchor>): nat {
    if anchors == [] then 0
    else (if IsTerrainLink(anchors[0]) then 1 else 0) + CountLinks(anchors[1..])
  }

  /** The record built from a row of at least five cells: id and name from the first link
      of cell 0, whichever link led to the row; the other fields are the stripped texts
      of cells 1 to 4. */
  function RowRecord(cells: seq<Cell>): (s: Site)
    requires |cells| >= 5
    ensures s.commune == Some(Strip(cells[1].text)) && s.codePostal == Some(Strip(cells[2].text))
    ensures s.activite == Some(Strip(cells[3].text)) && s.statut == Some(Strip(cells[4].text))
    ensures s.nom.Some? && s.secteursVent.None? && s.balise.None? && s.extra == map[]
    ensures cells[0].anchors == [] ==> s.id == Some("") && s.nom == Some("") && s.code == Some("")
    ensures cells[0].anchors != [] ==>
      var link := cells[0].anchors[0];
      var id := if link.href.None? then Some("") else ExtractSiteId(link.href.value);
      s.id == id && (s.nom.value, s.code) == SplitName(Strip(link.text), id)
  {
    var (id, nom, code) := if cells[0].anchors == [] then (Some(""), "", Some("")) else LinkFields(cells[0].anchors[0]);
    Site(id, Some(nom), code, Some(Strip(cells[1].text)), Some(Strip(cells[2].text)),
      Some(Strip(cells[3].text)), Some(Strip(cells[4].text)), None, None, None, None, map[])
  }

  /** Id, name and code read from the first link of cell 0. */
  function LinkFields(link: Anchor): (r: (Option<string>, string, Option<string>))
    ensures var id := if link.href.None? then Some("") else ExtractSiteId(link.href.value);
      r.0 == id && (r.1, r.2) == SplitName(Strip(link.text), id)
  {
    var id := if link.href.None? then Some("") else ExtractSiteId(link.href.value);
    var (nom, code) := SplitName(Strip(link.text), id);
    (id, nom, code)
  }

  /** A row whose first link points to `/terrain/<digits>` and reads `Name [CODE] tail`
      on one line gives the digits as id, the stripped name and the stripped code. */
  lemma RowRecordOfTerrainLink(cells: seq<Cell>, base: string, digits: string, b: nat, c: nat)
    requires |cells| >= 5 && cells[0].anchors != []
    requires cells[0].anchors[0].href == Some(base + TerrainPath + digits)
    requires digits != [] && AllDigits(digits) && !Contains(base, "/")
    requires var name := Strip(cells[0].anchors[0].text);
      && '\n' !in name && b < c < |name| && name[b] == '[' && name[c] == ']'
      && '[' !in name[..b] && ']' !in name[b + 1..c]
    ensures var name := Strip(cells[0].anchors[0].text);
      && RowRecord(cells).id == Some(digits)
      && RowRecord(cells).nom == Some(Strip(name[..b]))
      && RowRecord(cells).code == Some(Strip(name[b + 1..c]))
  {
    ExtractSiteIdOfLink(base, digits);
    SplitNameOneLine(Strip(cells[0].anchors[0].text), Some(digits), b, c);
  }

  /** `n` copies of `s`. */
  function Repeat(s: Site, n: nat): (r: seq<Site>)
    ensures |r| == n && forall i :: 0 <= i < n ==> r[i] == s
  {
    seq(n, i requires 0 <= i < n => s)
  }

  /** What one node contributes: one record per terrain link of a row of at least five cells. */
  function NodeRecords(n: Node): (r: seq<Site>)
    ensures n.Stray? ==> r == []
    ensures n.RowNode? && |n.cells| < 5 ==> r == []
    ensures n.RowNode? && |n.cells| >= 5 ==> r == Repeat(RowRecord(n.cells), TerrainCount(n.cells))
  {
    match n
    case Stray(_) => []
    case RowNode(cells) => if |cells| >= 5 then Repeat(RowRecord(cells), TerrainCount(cells)) else []
  }

  /** `parse_html_to_json` over the document's nodes in order. */
  function ParseDirectory(doc: seq<Node>): seq<Site>
  {
    Concat(Map(doc, NodeRecords))
  }

  /** Parsing works node by node: the records of two documents in sequence are the
      records of the first followed by those of the second. */
  lemma ParseDirectoryConcat(a: seq<Node>, b: seq<Node>)
    ensures ParseDirectory(a + b) == ParseDirectory(a) + ParseDirectory(b)
  {
    MapAppend(a, b, NodeRecords);
    ConcatAppend(Map(a, NodeRecords), Map(b, NodeRecords));
  }

  /** Node `i` of the document is a row of at least five cells whose record is `x`. */
  predicate RowGives(doc: seq<Node>, i: int, x: Site) {
    0 <= i < |doc| && doc[i].RowNode? && |doc[i].cells| >= 5 && x == RowRecord(doc[i].cells)
  }

  /** Every record is the record of some row of at least five cells of the document:
      its `commune`, `code_postal`, `activite` and `statut` are that row's cells, stripped. */
  lemma RecordsFromRows(doc: seq<Node>, k: nat)
    requires k < |ParseDirectory(doc)|
    ensures exists i :: RowGives(doc, i, ParseDirectory(doc)[k])
  {
    var rs := Map(doc, NodeRecords);
    ConcatIndex(rs, k);
    var i, j :| 0 <= i < |rs| && 0 <= j < |rs[i]| && Concat(rs)[k] == rs[i][j];
    HeadRecordFromRow(doc[i], j);
    assert RowGives(doc, i, ParseDirectory(doc)[k]);
  }

  lemma HeadRecordFromRow(n: Node, k: nat)
    requires k < |NodeRecords(n)|
    ensures n.RowNode? && |n.cells| >= 5 && NodeRecords(n)[k] == RowRecord(n.cells)
  {
  }

  /** A row with two terrain links gives the same record twice. */
  lemma TwoLinksTwoRecords(cells: seq<Cell>)
    requires |cells| >= 5 && TerrainCount(cells) == 2
    ensures ParseDirectory([RowNode(cells)]) == [RowRecord(cells), RowRecord(cells)]
  {
    ParseDirectorySingle(RowNode(cells));
    RepeatTwo(RowRecord(cells));
  }

  lemma ParseDirectorySingle(n: Node)
    ensures ParseDirectory([n]) == NodeRecords(n)
  {
    var rs := Map([n], NodeRecords);
    assert rs == [NodeRecords(n)];
    assert rs[1..] == [];
    assert Concat(rs) == NodeRecords(n) + [];
  }

  lemma RepeatTwo(x: Site)
    ensures Repeat(x, 2) == [x, x]
  {
  }
}

=== FILE: Text.dfy ===
/** The string operations of Python's `str` that the scripts rely on:
    `strip`, `startswith`, `endswith`, `in`, `replace`, `split` and the
    `\d+` / `\s*` pieces of their regular expressions. */
module Text {

  /** The characters `str.strip()` and `\s` treat as whitespace (`str.isspace()`): tab
      to carriage return, the four separators U+001C to U+001F, space, U+0085, no-break
      space, and the Unicode space separators and line and paragraph separators. */
  predicate IsSpace(c: char) {
    c == ' ' || '\t' <= c <= '\r' || '\U{1C}' <= c <= '\U{1F}' || c == '\U{85}' || c == '\U{A0}'
    || c == '\U{1680}' || '\U{2000}' <= c <= '\U{200A}' || c == '\U{2028}' || c == '\U{2029}'
    || c == '\U{202F}' || c == '\U{205F}' || c == '\U{3000}'
  }

  predicate IsDigit(c: char) {
    '0' <= c <= '9'
  }

  predicate AllSpaces(s: string) {
    forall i :: 0 <= i < |s| ==> IsSpace(s[i])
  }

  predicate AllDigits(s: string) {
    forall i :: 0 <= i < |s| ==> IsDigit(s[i])
  }

  predicate StartsWith(s: string, p: string) {
    |p| <= |s| && s[..|p|] == p
  }

  predicate EndsWith(s: string, p: string) {
    |p| <= |s| && s[|s| - |p|..] == p
  }

  /** `p` occurs in `s` starting at index `i`. */
  predicate OccursAt(s: string, p: string, i: int) {
    0 <= i && i + |p| <= |s| && s[i..i + |p|] == p
  }

  /** Python's `p in s`; the empty string is in every string. */
  predicate Contains(s: string, p: string) {
    exists i | 0 <= i <= |s| - |p| :: OccursAt(s, p, i)
  }

  lemma EmptyContained(s: string)
    ensures Contains(s, [])
  {
    assert OccursAt(s, [], 0);
  }

  lemma ContainsPrefix(s: string, t: string, p: string)
    requires Contains(s, p)
    ensures Contains(s + t, p)
  {
    var i :| 0 <= i <= |s| - |p| && OccursAt(s, p, i);
    assert (s + t)[i..i + |p|] == s[i..i + |p|];
    assert OccursAt(s + t, p, i);
  }

  // ---------------------------------------------------------------------------
  // strip

  function TrimStart(s: string): (r: string)
    ensures |r| <= |s| && r == s[|s| - |r|..]
    ensures AllSpaces(s[..|s| - |r|])
    ensures r != [] ==> !IsSpace(r[0])
  {
    if s != [] && IsSpace(s[0]) then
      var r := TrimStart(s[1..]);
      TrimStartStep(s, r);
      r
    else s
  }

  /** A leading space more in front of what `TrimStart` cut keeps the cut all whitespace. */
  lemma TrimStartStep(s: string, r: string)
    requires s != [] && IsSpace(s[0]) && |r| <= |s| - 1
    requires r == s[1..][|s| - 1 - |r|..] && AllSpaces(s[1..][..|s| - 1 - |r|])
    ensures r == s[|s| - |r|..] && AllSpaces(s[..|s| - |r|])
  {
    var k := |s| - |r|;
    assert s[1..][k - 1..] == s[k..];
    assert s[..k] == [s[0]] + s[1..][..k - 1];
    SpacesConcat([s[0]], s[1..][..k - 1]);
  }

  function TrimEnd(s: string): (r: string)
    ensures |r| <= |s| && r == s[..|r|]
    ensures AllSpaces(s[|r|..])
    ensures r != [] ==> !IsSpace(r[|r| - 1])
  {
    if s != [] && IsSpace(s[|s| - 1]) then
      var r := TrimEnd(s[..|s| - 1]);
      SpacesExtend(s, |r|);
      r
    else s
  }

  /** A run of whitespace at the end of `s` minus its last character, and that last
      character, make a run at the end of `s`. */
  lemma SpacesExtend(s: string, k: nat)
    requires k < |s| && AllSpaces(s[..|s| - 1][k..]) && IsSpace(s[|s| - 1])
    ensures AllSpaces(s[k..])
  {
    assert s[k..] == s[..|s| - 1][k..] + [s[|s| - 1]];
  }

  /** `r` is `s` with the whitespace `lead` before and the whitespace after it removed. */
  predicate Framed(s: string, r: string, lead: int) {
    0 <= lead <= |s| - |r| && s[lead..lead + |r|] == r
    && AllSpaces(s[..lead]) && AllSpaces(s[lead + |r|..])
  }

  /** No whitespace at either end. */
  predicate Trimmed(r: string) {
    r == [] || (!IsSpace(r[0]) && !IsSpace(r[|r| - 1]))
  }

  /** Python's `s.strip()`: the text between the leading and trailing whitespace. */
  function Strip(s: string): (r: string)
    ensures Trimmed(r)
    ensures exists lead :: Framed(s, r, lead)
  {
    var t := TrimStart(s);
    var r := TrimEnd(t);
    FramedByTrims(s, t, r);
    r
  }

  /** Leading whitespace cut off `s` to give `t`, then trailing whitespace cut off `t`
      to give `r`: `r` sits in `s` framed by whitespace. */
  lemma FramedByTrims(s: string, t: string, r: string)
    requires |t| <= |s| && t == s[|s| - |t|..] && AllSpaces(s[..|s| - |t|])
    requires |r| <= |t| && r == t[..|r|] && AllSpaces(t[|r|..])
    ensures Framed(s, r, |s| - |t|)
  {
    var lead := |s| - |t|;
    assert s[lead..lead + |r|] == r;
    assert s[lead + |r|..] == t[|r|..];
  }

  /** Stripping only removes characters, so it cannot create an occurrence. */
  lemma StripContains(t: string, p: string)
    ensures Contains(Strip(t), p) ==> Contains(t, p)
  {
    var r := Strip(t);
    var lead :| Framed(t, r, lead);
    FramedContains(t, r, lead, p);
  }

  lemma FramedContains(t: string, r: string, lead: int, p: string)
    requires Framed(t, r, lead)
    ensures Contains(r, p) ==> Contains(t, p)
  {
    if Contains(r, p) {
      var i :| 0 <= i <= |r| - |p| && OccursAt(r, p, i);
      assert r[i..i + |p|] == t[lead + i..lead + i + |p|] by {
        assert forall j :: i <= j < i + |p| ==> r[j] == t[lead..lead + |r|][j] == t[lead + j];
      }
      assert OccursAt(t, p, lead + i);
    }
  }

  lemma {:induction false} TrimStartOfSpaces(w: string, r: string)
    requires AllSpaces(w)
    requires r == [] || !IsSpace(r[0])
    ensures TrimStart(w + r) == r
    decreases |w|
  {
    if w != [] {
      assert (w + r)[1..] == w[1..] + r;
      TrimStartOfSpaces(w[1..], r);
    } else {
      assert w + r == r;
    }
  }

  lemma {:induction false} TrimEndOfSpaces(r: string, w: string)
    requires AllSpaces(w)
    requires r == [] || !IsSpace(r[|r| - 1])
    ensures TrimEnd(r + w) == r
    decreases |w|
  {
    if w != [] {
      assert (r + w)[..|r + w| - 1] == r + w[..|w| - 1];
      TrimEndOfSpaces(r, w[..|w| - 1]);
    } else {
      assert r + w == r;
    }
  }

  /** Whatever whitespace frames a trimmed text, `strip` returns exactly that text. */
  lemma StripFramed(w1: string, r: string, w2: string)
    requires AllSpaces(w1) && AllSpaces(w2) && Trimmed(r)
    ensures Strip(w1 + r + w2) == r
  {
    if r == [] {
      assert w1 + r + w2 == w1 + w2;
      assert AllSpaces(w1 + w2);
      TrimStartOfSpaces(w1 + w2, []);
      assert w1 + w2 + [] == w1 + w2;
    } else {
      assert w1 + r + w2 == w1 + (r + w2);
      TrimStartOfSpaces(w1, r + w2);
      TrimEndOfSpaces(r, w2);
    }
  }

  /** Trailing whitespace removed first makes no difference to `strip`. */
  lemma StripTrimEnd(x: string)
    ensures Strip(TrimEnd(x)) == Strip(x)
  {
    var t := TrimEnd(x);
    var w := x[|t|..];
    assert x == t + w;
    StripTrailingSpaces(t, w);
  }

  /** A text with no whitespace at either end is its own `strip`. */
  lemma StripOfTrimmed(s: string)
    requires Trimmed(s)
    ensures Strip(s) == s
  {
    StripFramed([], s, []);
    assert [] + s + [] == s;
  }

  /** Stripping twice changes nothing. */
  lemma StripIdempotent(s: string)
    ensures Strip(Strip(s)) == Strip(s)
  {
    var r := Strip(s);
    StripFramed([], r, []);
    assert [] + r + [] == r;
  }

  /** Trailing whitespace never reaches the stripped text. */
  lemma StripTrailingSpaces(a: string, w: string)
    requires AllSpaces(w)
    ensures Strip(a + w) == Strip(a)
  {
    var r := Strip(a);
    var lead :| Framed(a, r, lead);
    FramedAppend(a, r, lead, w);
    StripUnique(a + w, r, lead);
  }

  /** More whitespace after a framed text keeps it framed. */
  lemma FramedAppend(a: string, r: string, lead: int, w: string)
    requires Framed(a, r, lead) && AllSpaces(w)
    ensures Framed(a + w, r, lead)
  {
    var e := lead + |r|;
    assert (a + w)[lead..e] == a[lead..e];
    assert (a + w)[..lead] == a[..lead];
    assert (a + w)[e..] == a[e..] + w;
    SpacesConcat(a[e..], w);
  }

  /** A trimmed text framed by whitespace is what `strip` returns. */
  lemma StripUnique(s: string, r: string, lead: int)
    requires Framed(s, r, lead) && Trimmed(r)
    ensures Strip(s) == r
  {
    SplitThree(s, lead, lead + |r|);
    StripFramed(s[..lead], r, s[lead + |r|..]);
  }

  lemma SpacesConcat(u: string, v: string)
    requires AllSpaces(u) && AllSpaces(v)
    ensures AllSpaces(u + v)
  {
    forall i | 0 <= i < |u + v| ensures IsSpace((u + v)[i]) {
      if i < |u| { assert (u + v)[i] == u[i]; } else { assert (u + v)[i] == v[i - |u|]; }
    }
  }

  lemma SplitThree(a: string, i: int, j: int)
    requires 0 <= i <= j <= |a|
    ensures a == a[..i] + a[i..j] + a[j..]
  {
  }

  // ---------------------------------------------------------------------------
  // replace

  /** Python's `s.replace(a, b)` for one-character `a` and `b`: a per-character substitution. */
  function ReplaceChar(s: string, a: char, b: char): (r: string)
    ensures |r| == |s|
    ensures forall i :: 0 <= i < |s| ==> r[i] == (if s[i] == a then b else s[i])
  {
    seq(|s|, i requires 0 <= i < |s| => if s[i] == a then b else s[i])
  }

  /** Python's `s.replace(p, r)`: leftmost, non-overlapping occurrences of `p` replaced by `r`. */
  function ReplaceAll(s: string, p: string, r: string): string
    requires p != []
    decreases |s|
  {
    if |s| < |p| then s
    else if StartsWith(s, p) then r + ReplaceAll(s[|p|..], p, r)
    else [s[0]] + ReplaceAll(s[1..], p, r)
  }

  /** A one-character `replace` is the per-character substitution. */
  lemma {:induction false} ReplaceAllSingle(s: string, a: char, b: char)
    ensures ReplaceAll(s, [a], [b]) == ReplaceChar(s, a, b)
    decreases |s|
  {
    if |s| >= 1 {
      ReplaceAllSingle(s[1..], a, b);
      var rest := ReplaceChar(s[1..], a, b);
      assert ReplaceChar(s, a, b) == [if s[0] == a then b else s[0]] + rest;
    }
  }

  /** Without an occurrence of `p`, `replace` returns its input. */
  lemma {:induction false} ReplaceAllAbsent(s: string, p: string, r: string)
    requires p != [] && !Contains(s, p)
    ensures ReplaceAll(s, p, r) == s
    decreases |s|
  {
    if |s| >= |p| {
      assert !OccursAt(s, p, 0);
      assert !StartsWith(s, p);
      if Contains(s[1..], p) {
        var i :| 0 <= i <= |s[1..]| - |p| && OccursAt(s[1..], p, i);
        assert s[1..][i..i + |p|] == s[i + 1..i + 1 + |p|];
        assert OccursAt(s, p, i + 1);
        assert false;
      }
      ReplaceAllAbsent(s[1..], p, r);
      assert [s[0]] + s[1..] == s;
    }
  }

  /** A replacement shorter than the pattern strictly shortens a text that contains it. */
  lemma {:induction false} ReplaceAllShrinks(s: string, p: string, r: string)
    requires p != [] && |r| < |p| && Contains(s, p)
    ensures |ReplaceAll(s, p, r)| < |s|
    decreases |s|
  {
    ReplaceAllNoLonger(s, p, r);
    var i :| 0 <= i <= |s| - |p| && OccursAt(s, p, i);
    if !StartsWith(s, p) {
      assert !OccursAt(s, p, 0) by { assert s[..|p|] == s[0..|p|]; }
      assert s[1..][i - 1..i - 1 + |p|] == s[i..i + |p|];
      assert OccursAt(s[1..], p, i - 1);
      ReplaceAllShrinks(s[1..], p, r);
    } else {
      ReplaceAllNoLonger(s[|p|..], p, r);
    }
  }

  lemma {:induction false} ReplaceAllNoLonger(s: string, p: string, r: string)
    requires p != [] && |r| <= |p|
    ensures |ReplaceAll(s, p, r)| <= |s|
    decreases |s|
  {
    if |s| >= |p| {
      if StartsWith(s, p) {
        ReplaceAllNoLonger(s[|p|..], p, r);
      } else {
        ReplaceAllNoLonger(s[1..], p, r);
      }
    }
  }

  /** Every character of the result comes from the input or from the replacement. */
  lemma {:induction false} ReplaceAllChars(s: string, p: string, r: string, k: int)
    requires p != [] && 0 <= k < |ReplaceAll(s, p, r)|
    ensures ReplaceAll(s, p, r)[k] in s || ReplaceAll(s, p, r)[k] in r
    decreases |s|
  {
    if |s| >= |p| {
      if StartsWith(s, p) {
        if k >= |r| {
          ReplaceAllChars(s[|p|..], p, r, k - |r|);
        }
      } else if k >= 1 {
        ReplaceAllChars(s[1..], p, r, k - 1);
      }
    }
  }

  // ---------------------------------------------------------------------------
  // split

  /** Python's `s.split(sep)` for a one-character separator. */
  function Split(s: string, sep: char): (parts: seq<string>)
    ensures |parts| >= 1
    ensures forall k, i :: 0 <= k < |parts| && 0 <= i < |parts[k]| ==> parts[k][i] != sep
    decreases |s|
  {
    if sep !in s then [s]
    else
      var i := IndexOf(s, sep);
      [s[..i]] + Split(s[i + 1..], sep)
  }

  /** `s.split(p)[0]`: the text before the leftmost occurrence of `p`, or all of `s`. */
  function BeforeFirst(s: string, p: string): (r: string)
    requires p != []
    ensures |r| <= |s| && r == s[..|r|]
    ensures forall i :: 0 <= i < |r| ==> !OccursAt(s, p, i)
    ensures |r| < |s| ==> OccursAt(s, p, |r|)
    decreases |s|
  {
    if |s| < |p| then s
    else if StartsWith(s, p) then []
    else
      var r := BeforeFirst(s[1..], p);
      OccursShift(s, p);
      [s[0]] + r
  }

  /** An occurrence one place into `s` is an occurrence at the start of `s[1..]`, shifted. */
  lemma OccursShift(s: string, p: string)
    requires s != []
    ensures !StartsWith(s, p) ==> !OccursAt(s, p, 0)
    ensures forall i :: 1 <= i ==> (OccursAt(s, p, i) <==> OccursAt(s[1..], p, i - 1))
  {
    assert OccursAt(s, p, 0) ==> s[..|p|] == s[0..|p|];
    forall i | 1 <= i ensures OccursAt(s, p, i) <==> OccursAt(s[1..], p, i - 1) {
      if i + |p| <= |s| {
        SliceOfTail(s, i, i + |p|);
      }
    }
  }

  /** A slice of `s` away from its head is the shifted slice of `s[1..]`. */
  lemma SliceOfTail(s: string, a: int, b: int)
    requires 1 <= a <= b <= |s|
    ensures s[a..b] == s[1..][a - 1..b - 1]
  {
    assert |s[a..b]| == |s[1..][a - 1..b - 1]|;
    forall k | 0 <= k < b - a ensures s[a..b][k] == s[1..][a - 1..b - 1][k] {
      assert s[a..b][k] == s[a + k];
      assert s[1..][a - 1..b - 1][k] == s[1..][a - 1 + k];
    }
  }

  /** Past a prefix `x`, occurrences in `x + rest` are those of `rest`, shifted by `|x|`. */
  lemma OccursAfterPrefix(x: string, rest: string, p: string, i: int)
    requires |x| <= i
    ensures OccursAt(x + rest, p, i) <==> OccursAt(rest, p, i - |x|)
  {
    if i + |p| <= |x + rest| {
      assert (x + rest)[i..i + |p|] == rest[i - |x|..i - |x| + |p|];
    }
  }

  /** Without `p` in `s` the whole text is kept; with it, the kept prefix is shorter than
      `s` and holds no `p`. */
  lemma BeforeFirstCases(s: string, p: string)
    requires p != []
    ensures !Contains(s, p) ==> BeforeFirst(s, p) == s
    ensures Contains(s, p) ==> |BeforeFirst(s, p)| < |s|
    ensures !Contains(BeforeFirst(s, p), p)
  {
    var r := BeforeFirst(s, p);
    if |r| < |s| {
      assert OccursAt(s, p, |r|);
      assert Contains(s, p);
    }
    if Contains(s, p) {
      var i :| 0 <= i <= |s| - |p| && OccursAt(s, p, i);
      assert !(i < |r|);
    }
    forall i | 0 <= i <= |r| - |p| ensures !OccursAt(r, p, i) {
      assert i < |r| && !OccursAt(s, p, i);
      SliceOfPrefix(s, |r|, i, i + |p|);
    }
  }

  /** A slice of a prefix is the same slice of the whole. */
  lemma SliceOfPrefix(s: string, k: nat, i: nat, j: nat)
    requires i <= j <= k <= |s|
    ensures s[..k][i..j] == s[i..j]
  {
    assert forall n :: 0 <= n < j - i ==> s[..k][i..j][n] == s[i + n];
  }

  /** Index of the first `c` in `s`. */
  function IndexOf(s: string, c: char): (i: nat)
    requires c in s
    ensures i < |s| && s[i] == c && c !in s[..i]
  {
    if s[0] == c then 0 else 1 + IndexOf(s[1..], c)
  }

  /** Python's `sep.join(parts)`. */
  function Join(parts: seq<string>, sep: char): string
    requires |parts| >= 1
  {
    if |parts| == 1 then parts[0] else parts[0] + [sep] + Join(parts[1..], sep)
  }

  /** Splitting and joining back with the same separator gives the input. */
  lemma {:induction false} JoinSplit(s: string, sep: char)
    ensures Join(Split(s, sep), sep) == s
    decreases |s|
  {
    if sep in s {
      var i := IndexOf(s, sep);
      var rest := Split(s[i + 1..], sep);
      SplitStep(s, sep);
      JoinCons(s[..i], rest, sep);
      JoinSplit(s[i + 1..], sep);
      assert s == s[..i] + [sep] + s[i + 1..];
    }
  }

  /** One step of `split`: the text before the first separator, then the split of the rest. */
  lemma SplitStep(s: string, sep: char)
    requires sep in s
    ensures Split(s, sep) == [s[..IndexOf(s, sep)]] + Split(s[IndexOf(s, sep) + 1..], sep)
  {
  }

  /** Joining a part in front of at least one more part puts the separator between them. */
  lemma JoinCons(a: string, rest: seq<string>, sep: char)
    requires |rest| >= 1
    ensures Join([a] + rest, sep) == a + [sep] + Join(rest, sep)
  {
    assert ([a] + rest)[1..] == rest;
  }

  // ---------------------------------------------------------------------------
  // digit runs (`\d+`) and whitespace runs (`\s*`)

  /** End of the maximal run of digits starting at `k`. */
  function DigitRunEnd(s: string, k: nat): (j: nat)
    requires k <= |s|
    ensures k <= j <= |s|
    ensures AllDigits(s[k..j])
    ensures j == |s| || !IsDigit(s[j])
    decreases |s| - k
  {
    if k < |s| && IsDigit(s[k]) then
      var j := DigitRunEnd(s, k + 1);
      assert s[k..j] == [s[k]] + s[k + 1..j];
      j
    else k
  }

  /** A digit run that stops at a non-digit is the maximal one. */
  lemma DigitRunEndAt(s: string, k: nat, e: nat)
    requires k <= e <= |s| && AllDigits(s[k..e]) && (e == |s| || !IsDigit(s[e]))
    ensures DigitRunEnd(s, k) == e
  {
    var j := DigitRunEnd(s, k);
    assert forall m :: k <= m < e ==> IsDigit(s[m]) by {
      forall m | k <= m < e ensures IsDigit(s[m]) { assert s[k..e][m - k] == s[m]; }
    }
    assert forall m :: k <= m < j ==> IsDigit(s[m]) by {
      forall m | k <= m < j ensures IsDigit(s[m]) { assert s[k..j][m - k] == s[m]; }
    }
  }

  /** A whitespace run that stops at a non-space is the maximal one. */
  lemma SpaceRunEndAt(s: string, k: nat, e: nat)
    requires k <= e <= |s| && AllSpaces(s[k..e]) && (e == |s| || !IsSpace(s[e]))
    ensures SpaceRunEnd(s, k) == e
  {
    var j := SpaceRunEnd(s, k);
    assert forall m :: k <= m < e ==> IsSpace(s[m]) by {
      forall m | k <= m < e ensures IsSpace(s[m]) { assert s[k..e][m - k] == s[m]; }
    }
    assert forall m :: k <= m < j ==> IsSpace(s[m]) by {
      forall m | k <= m < j ensures IsSpace(s[m]) { assert s[k..j][m - k] == s[m]; }
    }
  }

  /** End of the maximal run of whitespace starting at `k` (greedy `\s*`). */
  function SpaceRunEnd(s: string, k: nat): (j: nat)
    requires k <= |s|
    ensures k <= j <= |s|
    ensures AllSpaces(s[k..j])
    ensures j == |s| || !IsSpace(s[j])
    decreases |s| - k
  {
    if k < |s| && IsSpace(s[k]) then
      var j := SpaceRunEnd(s, k + 1);
      assert s[k..j] == [s[k]] + s[k + 1..j];
      j
    else k
  }

  /** The decimal value of a digit string (Python's `int()` on `\d+`). */
  function DigitsValue(s: string): nat
    requires AllDigits(s)
  {
    if s == [] then 0
    else DigitsValue(s[..|s| - 1]) * 10 + (s[|s| - 1] as int - '0' as int)
  }

  /** The decimal rendering of `n` (Python's `str(n)`). */
  function ShowNat(n: nat): (s: string)
    ensures s != [] && AllDigits(s)
  {
    if n < 10 then ['0' + n as char]
    else ShowNat(n / 10) + ['0' + (n % 10) as char]
  }

  /** Reading back a rendered number gives the number. */
  lemma {:induction false} DigitsValueShowNat(n: nat)
    ensures DigitsValue(ShowNat(n)) == n
  {
    if n >= 10 {
      var s := ShowNat(n);
      assert s[..|s| - 1] == ShowNat(n / 10);
      DigitsValueShowNat(n / 10);
    }
  }
}

=== FILE: UrlRewrite.dfy ===
/** `replace_specific_url`: intranet structure links of the form
    `https://intranet.ffvl.fr/structure/…/<digits>` become beacon-page links
    `https://www.balisemeteo.com/balise.php?idBalise=<digits>`. Both beacon-linking
    scripts carry the same copy of this function. */
module UrlRewrite {
  import opened Common
  import opened Text
  import opened Records
  import opened Seqs

  const IntranetPrefix: string := "https://intranet.ffvl.fr/structure/"
  const BalisePrefix: string := "https://www.balisemeteo.com/balise.php?idBalise="

  /** Where `$` matches: at the end of the text, or before a final newline. */
  function DollarEnd(u: string): nat {
    if u != [] && u[|u| - 1] == '\n' then |u| - 1 else |u|
  }

  /** `/(\d+)$` matches with its `/` at index `m`. */
  predicate IdMatchAt(u: string, m: int) {
    0 <= m && m + 1 < DollarEnd(u) && u[m] == '/' && AllDigits(u[m + 1..DollarEnd(u)])
  }

  /** Start of the maximal digit run that ends at `e`. */
  function DigitRunStart(u: string, e: nat): (k: nat)
    requires e <= |u|
    ensures k <= e && AllDigits(u[k..e])
    ensures k == 0 || !IsDigit(u[k - 1])
  {
    if e > 0 && IsDigit(u[e - 1]) then
      var k := DigitRunStart(u, e - 1);
      assert u[k..e] == u[k..e - 1] + [u[e - 1]];
      k
    else e
  }

  /** `re.search(r"/(\d+)$", u).group(1)`: the digits after the last `/`, when they run to the end. */
  function TrailingId(u: string): (r: Option<string>)
    ensures r.Some? ==> IdMatchAt(u, DollarEnd(u) - |r.value| - 1)
    ensures r.Some? ==> r.value == u[DollarEnd(u) - |r.value|..DollarEnd(u)]
    ensures forall m :: IdMatchAt(u, m) ==> r == Some(u[m + 1..DollarEnd(u)])
  {
    var e := DollarEnd(u);
    var k := DigitRunStart(u, e);
    MatchIsDigitRun(u);
    if 1 <= k < e && u[k - 1] == '/' then
      assert IdMatchAt(u, k - 1);
      Some(u[k..e])
    else None
  }

  /** Wherever `/(\d+)$` matches, its digits are exactly the maximal digit run before
      the end. */
  lemma MatchIsDigitRun(u: string)
    ensures forall m :: IdMatchAt(u, m) ==> DigitRunStart(u, DollarEnd(u)) == m + 1
  {
  }

  /** The rewrite of one linked URL. */
  function RewriteUrl(u: string): string {
    if StartsWith(u, IntranetPrefix) then
      match TrailingId(u)
      case Some(id) => BalisePrefix + id
      case None => u
    else u
  }

  /** An intranet URL ending in `/<digits>` becomes the beacon page with those digits. */
  lemma RewriteIntranetUrl(mid: string, digits: string)
    requires digits != [] && AllDigits(digits)
    ensures RewriteUrl(IntranetPrefix + mid + "/" + digits) == BalisePrefix + digits
  {
    var u := IntranetPrefix + mid + "/" + digits;
    assert u[..|IntranetPrefix|] == IntranetPrefix;
    assert u[|u| - 1] == digits[|digits| - 1];
    var m := |u| - |digits| - 1;
    assert u[m + 1..|u|] == digits;
    assert IdMatchAt(u, m);
  }

  /** A rewritten intranet URL differs from the URL it came from. */
  lemma IntranetNotBalise(mid: string, digits: string)
    ensures IntranetPrefix + mid + "/" + digits != BalisePrefix + digits
  {
    assert (IntranetPrefix + mid + "/" + digits)[8] == 'i';
    assert (BalisePrefix + digits)[8] == 'w';
  }

  /** Rewriting an already rewritten URL changes nothing: beacon pages lack the intranet prefix. */
  lemma RewriteUrlIdempotent(u: string)
    ensures RewriteUrl(RewriteUrl(u)) == RewriteUrl(u)
  {
    var v := RewriteUrl(u);
    if v != u {
      assert v[8] == 'w' && IntranetPrefix[8] == 'i';
      assert v[..|IntranetPrefix|][8] == 'w';
    }
  }

  /** Two different intranet URLs with the same trailing id become the same link. */
  lemma RewriteCollapses()
    ensures IntranetPrefix + "a/5" != IntranetPrefix + "b/5"
    ensures RewriteUrl(IntranetPrefix + "a/5") == RewriteUrl(IntranetPrefix + "b/5") == BalisePrefix + "5"
  {
    assert (IntranetPrefix + "a/5")[|IntranetPrefix|] != (IntranetPrefix + "b/5")[|IntranetPrefix|];
    RewriteIntranetUrl("a", "5");
    RewriteIntranetUrl("b", "5");
    assert IntranetPrefix + "a" + "/" + "5" == IntranetPrefix + "a/5";
    assert IntranetPrefix + "b" + "/" + "5" == IntranetPrefix + "b/5";
  }

  /** What `for url in site["balise"]` iterates over: the list's URLs, or a bare
      string's characters, each as a one-character string; joined back together, the
      characters give the string again. */
  function Iterated(l: Links): (us: seq<string>)
    ensures l.Urls? ==> us == l.urls
    ensures l.Single? ==> |us| == |l.url| && forall i :: 0 <= i < |us| ==> us[i] == [l.url[i]]
    ensures l.Single? ==> Concat(us) == l.url && forall i :: 0 <= i < |us| ==> |us[i]| == 1
  {
    match l
    case Urls(us) => us
    case Single(u) => Characters(u)
  }

  /** The one-character strings of `u`, in order. */
  function Characters(u: string): (cs: seq<string>)
    ensures |cs| == |u| && forall i :: 0 <= i < |u| ==> cs[i] == [u[i]]
    ensures Concat(cs) == u
  {
    if u == [] then []
    else
      var rest := Characters(u[1..]);
      assert ([[u[0]]] + rest)[1..] == rest;
      [[u[0]]] + rest
  }

  /** Every URL of the list rewritten on its own; what comes out is final, a second
      rewrite leaves each URL as it is. */
  function RewriteAll(us: seq<string>): (vs: seq<string>)
    ensures |vs| == |us|
    ensures forall i :: 0 <= i < |us| ==> vs[i] == RewriteUrl(us[i])
    ensures forall i :: 0 <= i < |vs| ==> RewriteUrl(vs[i]) == vs[i]
  {
    RewritesAreFinal(us);
    seq(|us|, i requires 0 <= i < |us| => RewriteUrl(us[i]))
  }

  lemma RewritesAreFinal(us: seq<string>)
    ensures forall i :: 0 <= i < |us| ==> RewriteUrl(RewriteUrl(us[i])) == RewriteUrl(us[i])
  {
    forall i | 0 <= i < |us| ensures RewriteUrl(RewriteUrl(us[i])) == RewriteUrl(us[i]) {
      RewriteUrlIdempotent(us[i]);
    }
  }

  /** One site of `replace_specific_url`. */
  function RewriteSite(s: Site): Site {
    match s.balise
    case None => s
    case Some(l) => s.(balise := Some(Urls(RewriteAll(Iterated(l)))))
  }

  /** `replace_specific_url(sites)`: same sites in the same order; only `balise` changes,
      each URL rewritten in place; sites without `balise` are untouched. */
  function ReplaceSpecificUrl(sites: seq<Site>): (r: seq<Site>)
    ensures |r| == |sites|
    ensures forall i :: 0 <= i < |sites| ==> r[i] == sites[i].(balise := r[i].balise)
    ensures forall i :: 0 <= i < |sites| && sites[i].balise.None? ==> r[i] == sites[i]
    ensures forall i :: 0 <= i < |sites| && sites[i].balise.Some? ==>
      r[i].balise.Some? && r[i].balise.value.Urls?
      && |r[i].balise.value.urls| == |Iterated(sites[i].balise.value)|
      && forall j :: 0 <= j < |r[i].balise.value.urls| ==>
           r[i].balise.value.urls[j] == RewriteUrl(Iterated(sites[i].balise.value)[j])
  {
    seq(|sites|, i requires 0 <= i < |sites| => RewriteSite(sites[i]))
  }

  /** A bare string `balise` comes out as the list of its characters: no one-character
      string starts with the intranet prefix. */
  lemma SingleBecomesCharacters(s: Site)
    requires s.balise.Some? && s.balise.value.Single?
    ensures RewriteSite(s).balise == Some(Urls(Iterated(s.balise.value)))
  {
    var us := Iterated(s.balise.value);
    forall i | 0 <= i < |us| ensures RewriteUrl(us[i]) == us[i] {
      assert |us[i]| == 1;
    }
    assert RewriteAll(us) == us;
  }

  /** Running `replace_specific_url` twice gives the same sites as running it once. */
  lemma ReplaceSpecificUrlIdempotent(sites: seq<Site>)
    ensures ReplaceSpecificUrl(ReplaceSpecificUrl(sites)) == ReplaceSpecificUrl(sites)
  {
    var once := ReplaceSpecificUrl(sites);
    var twice := ReplaceSpecificUrl(once);
    forall i | 0 <= i < |sites| ensures twice[i] == once[i] {
      if sites[i].balise.Some? {
        var us := once[i].balise.value.urls;
        forall j | 0 <= j < |us| ensures RewriteUrl(us[j]) == us[j] {
          RewriteUrlIdempotent(Iterated(sites[i].balise.value)[j]);
        }
        assert RewriteAll(us) == us;
      }
    }
  }
}
